=== FILE: README.md ===
# marked-it-cli table-of-contents engine in Dafny

This project models the pure core of marked-it-cli's table-of-contents engine and proves properties of the model. marked-it-cli converts a folder of Markdown files to HTML and assembles XML tables of contents from outline files. The model covers:

- **Variables**: `replaceVariables`, the `{{key}}` substitution. A key is walked through a conref map and a local map, and the local value wins when it is truthy. A resolved value is spliced back in front of the unscanned text, so tokens inside it resolve as well.
- **Attributes**: `computeAttributes`, the resolver for kramdown attribute lists. The text is cut into segments, and each segment is classified as `#id`, `.class`, `key='value'`, a reference to a named attribute definition list, or a bare flag. Two buckets are then merged: inherited attributes first, local ones on top, and `class` values concatenated.
- **Extensions**: `addExtension` and `invokeExtensions`, the extension registry and dispatcher. Handlers are filed under dotted ids and run in order, and a non-string reply is ignored. A trailing line break of the input is restored unless the result is empty.
- **OutlineLines** and **TocAssembly**: the line loop of `generateTOC` on a Markdown outline (`toc` ordering file).
  - Tab expansion and levels.
  - Attribute lines, which are `{:...}` lists and `{:name:...}` definitions.
  - Rejection of nesting jumps.
  - Each entry offered to the `xml.toc.file.onGenerate` handlers.
  - The walk back to the right parent before a fragment is placed.
- **Forest**: the tree under construction, kept as the stack of open elements from the root down to the insertion point.
- **TextToc**: the text outline extension. `parseTextToc` builds a model tree, and `generateToc` walks that tree depth first and places fragments with the same rules.
- **XmlTocHandlers**: the XML table-of-contents handlers. `onHeading`, `onTopic` and `onComplete` are covered, plus the navigation-group state machine of `onGenerate`, including a run of entries that carries the open group from one entry to the next.
- **ApiDocs**: the API-documentation extension.
  - A page's nodes are cut into sections at `h1` and into subsections at `h2`.
  - Programming languages are assigned.
  - Every subsection's nodes become text or code elements.
  - The elements are laid out in blocks of content and examples.

File-system lookups and the DOM stay abstract. Resolving an outline entry to a fragment, printing a fragment and parsing the text a handler returns are parameters (`Env.resolve`, `Env.render`, `Env.parse`). A handler is an opaque value that a `run` function applies. Loops that the source can run for ever take a `fuel` bound: a variable whose value contains its own token, or an attribute definition list that names itself. The result `None` means the source would not finish.

Behaviours of the source that are easy to misread:

- `{:name: text}` defines `name`. The reference-name pattern at lib/mdProcessor.js:469 takes the text between the first two colons after `{`.
- The navigation-group marker goes on every element at the group's level (example/xmlTocExt.js:232-240). This includes the entry that opens the group and the one that ends it, when they produce an element.
- In `generateTOC`, an entry that resolves to nothing and meets no handler is still placed (lib/mdProcessor.js:572-587). The dispatcher returns the entry text unchanged. That text differs from the empty fragment text, so the entry text itself is parsed and placed without a warning.
- In `generateTOC`, the level is leading spaces / 4 + 1 and is not rounded down (lib/mdProcessor.js:506). Two-space indentation gives level 1.5. The text outline reader does round down.

## Model

| member | source | states |
|---|---|---|
| JsCore.TrimStartIs | lib/mdProcessor.js:737 | trimming the start drops exactly the leading run of JavaScript white space, and the rest starts with a non-space |
| JsCore.TrimEndIs | lib/mdProcessor.js:737 | trimming the end drops exactly the trailing run of JavaScript white space |
| JsCore.TrimPadded | lib/mdProcessor.js:737 | `trim` gives the same text whatever runs of white space surround it |
| JsCore.IndexOfPairFirst | lib/mdProcessor.js:725-730 | the two-character search finds the first occurrence at or after the start, or reports -1 when there is none |
| JsCore.JoinSplit | lib/mdProcessor.js:742 | splitting at a separator gives pieces without it, and joining them back gives the text |
| JsCore.SplitJoin | example/xmlTocExt.js:116 | splitting a join of separator-free pieces gives the pieces back |
| JsCore.LowerAscii | example/xmlTocExt.js:118 | lower-casing keeps the length and maps exactly the letters A to Z |
| Variables.LookupShortCircuits | lib/mdProcessor.js:742-748 | once a step of the dotted-key walk is undefined, the whole lookup is undefined |
| Variables.ResolvePrecedence | lib/mdProcessor.js:740-761 | the local map's value is used exactly when it is truthy; otherwise a value can only come from the conref map |
| Variables.TokenPlainKey | lib/mdProcessor.js:737-763 | a key without dots takes the local map's field when it is truthy, else the conref map's field when that is truthy, and otherwise the token stays |
| Variables.TokenDotted | lib/mdProcessor.js:742-761 | the dotted walk composes: `a.rest` in two maps resolves as `rest` in their fields named `a`, for any maps |
| Variables.TokenTrimmed | lib/mdProcessor.js:737 | runs of white space of any length on either side of the key make no difference to how a token resolves |
| Variables.SubstituteUnchanged | lib/mdProcessor.js:714-717 | with neither map truthy, or with no `{{` in the text, the text comes back unchanged |
| Variables.UnterminatedCopiesRest | lib/mdProcessor.js:730-735 | a `{{` with no `}}` after it stops the scan, and the rest is copied verbatim |
| Variables.ScanKeep | lib/mdProcessor.js:771-777 | an unresolved token is emitted verbatim and scanning resumes after its `}}` |
| Variables.ScanSplice | lib/mdProcessor.js:763-770 | a resolved value is spliced in front of the unscanned rest, which is then scanned again from its start |
| Variables.PlainPrefix | lib/mdProcessor.js:725-727 | text before the first token is emitted unchanged |
| Variables.ChainedTokens | lib/mdProcessor.js:763-770 | `{{a}}` with conref `a: {{b}}` and local `b: Y` gives `Y` |
| Variables.SelfReferenceDiverges | lib/mdProcessor.js:763-770 | a token whose value is the token itself never finishes |
| Variables.ScanFuelMonotone | lib/mdProcessor.js:726-778 | once a scan finishes, more fuel does not change its result |
| Variables.ScanSettles | lib/mdProcessor.js:726-780 | the result of a finished scan is settled: a fresh scan splices nothing into it and returns it unchanged, even with no fuel |
| Variables.SubstituteIdempotent | lib/mdProcessor.js:714-781 | substituting the output again with the same maps returns it unchanged |
| Variables.ScanIdempotent | lib/mdProcessor.js:726-780 | scanning the result of a finished scan again changes nothing |
| Attributes.SegmentsArePlainWords | lib/mdProcessor.js:830 | on quote-free text the segment pattern yields exactly the blank-separated words |
| Attributes.QuotedUnit | lib/mdProcessor.js:830 | a quoted run inside a segment keeps its blanks up to the matching quote |
| Attributes.TwoWords | lib/mdProcessor.js:830 | two words separated by one blank are two segments |
| Attributes.IdRoundTrip | lib/mdProcessor.js:827 | `#x` is the id `x` whenever `x` holds no whitespace |
| Attributes.ClassRoundTrip | lib/mdProcessor.js:828 | `.c` is the class `c` for every name the class pattern accepts |
| Attributes.NamedRoundTrip | lib/mdProcessor.js:829 | `k='v'` and `k="v"` give the key `k` with the value `v` |
| Attributes.ValueRunsToLastQuote | lib/mdProcessor.js:829 | the value runs to the last matching quote of the segment: `k='a'b'` gives `a'b` |
| Attributes.IdBeforeClass | lib/mdProcessor.js:840-845 | the id pattern is tried first: `#a.b` is the id `a.b` |
| Attributes.AddClass | lib/mdProcessor.js:844-848 | a `.name` segment appends `name` to the local class, after a blank when a non-empty class is already there, and leaves every other key alone |
| Attributes.ClassesAppend | lib/mdProcessor.js:835-875 | the segments `.c1 ... .cn` append `c1 ... cn`, blank-separated, to the local class and change nothing else |
| Attributes.ClassList | lib/mdProcessor.js:824-895 | the list `.c1 .c2 ... .cn` gives exactly the attribute `class` with the value `c1 c2 ... cn` |
| Attributes.FlagIsNull | lib/mdProcessor.js:865-868 | a bare word that names no definition list becomes a flag with value null |
| Attributes.SelfReferenceDiverges | lib/mdProcessor.js:854-855 | a definition list whose text is its own name never finishes expanding |
| Attributes.ComputeFuel | lib/mdProcessor.js:854-855 | once the expansion finishes, more fuel does not change the attributes |
| Attributes.SegmentsFuel | lib/mdProcessor.js:835-875 | once the segment loop finishes, more fuel does not change its buckets |
| Attributes.ReferenceIsText | lib/mdProcessor.js:854-864 | a segment naming a definition list gives exactly the attributes of that list's text, one expansion level deeper |
| Attributes.ReferenceThenClasses | lib/mdProcessor.js:824-895 | a definition list followed by local classes keeps every expanded attribute, and the local classes follow the inherited class |
| Attributes.Merge | lib/mdProcessor.js:879-892 | a merge keeps every key of both maps, and a non-`class` key takes the newer value |
| Attributes.MergeAnyOrder | lib/mdProcessor.js:879-892 | assigning the keys one by one gives the same map in any key order |
| Attributes.AssignKeysIsMerge | lib/mdProcessor.js:856-864 | the per-key loop over some of the keys equals the merge of exactly those keys |
| Attributes.ClassKept | lib/mdProcessor.js:884-892 | a present class is never removed: the merged class starts with it |
| Attributes.MergeTwoClasses | lib/mdProcessor.js:886-888 | an inherited class followed by a local one gives `inherited local` |
| Attributes.LocalOverInherited | lib/mdProcessor.js:877-892 | every local key except `class` wins over an inherited one, and inherited keys not set locally survive |
| Attributes.DefinitionThenClass | lib/mdProcessor.js:835-892 | `note .m` with `note` defined as `.n` gives the class `n m` |
| Extensions.AddKeepsRegistry | lib/mdProcessor.js:175-186 | registration keeps the registry a tree of objects with handler arrays |
| Extensions.AddAtPath | lib/mdProcessor.js:175-186 | registering a function under a dotted path appends it to the handlers already filed there |
| Extensions.RegisterThenInvoke | lib/mdProcessor.js:175-186 | invoking an id after registering a function under it runs that function after the earlier ones |
| Extensions.InvokeExtensions | lib/cli-common.js:49-84 | without extensions the input is returned; a non-empty result ends with the line break the input ended with |
| Extensions.WalkStops | lib/cli-common.js:56-60 | the walk along the dotted id stops at the first missing segment |
| Extensions.WalkIsAt | lib/cli-common.js:56-62 | on a registry the walk finds the handlers filed at the path |
| Extensions.NoHandlerNoChange | lib/cli-common.js:56-83 | when the id leads to no handler the input comes back unchanged |
| Extensions.FunctionIsListOfOne | lib/cli-common.js:63-69 | a single function is treated as a one-element handler list |
| Extensions.ApplyAllAppend | lib/cli-common.js:71-76 | handlers run in list order, each on the previous result |
| Extensions.IgnoredReply | lib/cli-common.js:71-76 | a handler whose reply is not a string leaves the value unchanged |
| Extensions.LastTextWins | lib/cli-common.js:71-76 | the last string reply wins |
| Extensions.EndNewline | lib/cli-common.js:54 | the line break found is empty exactly when the text does not end in `\n` or `\r` |
| Extensions.RestoreNewline | lib/cli-common.js:80-82 | an empty result stays empty (a veto); otherwise the input's line break is appended only when it is missing |
| Extensions.RestoreIdempotent | lib/cli-common.js:80-82 | restoring the line break twice is restoring it once |
| Forest.WalkBack | lib/mdProcessor.js:590-593 | walking back never climbs above the root; afterwards the insertion point is shallower than the new level |
| Forest.Place | lib/mdProcessor.js:589-602 | the placed fragment takes the entry's level and becomes the insertion point |
| Forest.PlaceAppends | lib/mdProcessor.js:595-602 | placing appends the fragment after everything already in the tree, in document order |
| Forest.PlaceNested | lib/mdProcessor.js:589-602 | placing keeps every element at least one level below its parent |
| Forest.PlaceExact | lib/mdProcessor.js:589-602 | with whole levels and a jump of at most one, every element stays exactly one level below its parent |
| Forest.WalkBackExact | lib/mdProcessor.js:590-593 | in an exactly nested tree, walking back for level k leaves exactly k - 1 open elements |
| Forest.FinishKeepsContents | lib/mdProcessor.js:615-617 | closing every open element keeps the placed elements in document order |
| Forest.FinishExact | lib/mdProcessor.js:615-617 | closing an exactly nested builder gives an exactly nested tree under the root |
| Forest.CloseToKeeps | example/xmlTocExt.js:454-478 | returning to an earlier insertion point keeps the contents, the nesting and the finished tree |
| OutlineLines.ExpandTabs | lib/mdProcessor.js:479 | no tab is left after expansion |
| OutlineLines.ExpandTabsAppend | lib/mdProcessor.js:479 | tab expansion works piecewise on concatenations |
| OutlineLines.LeadingSpacesIs | lib/mdProcessor.js:480 | the count is the length of the maximal run of leading spaces |
| OutlineLines.TwoSpaces | lib/mdProcessor.js:506 | two leading spaces give Markdown level 1.5, and text-outline level 1 |
| OutlineLines.TabIsOneLevel | lib/mdProcessor.js:479-506 | a leading tab adds exactly one level |
| OutlineLines.LevelsAgree | example/xmlTocExt.js:330-331 | with whole groups of four spaces both readers give k + 1 |
| OutlineLines.QuotesDecide | example/xmlTocExt.js:330-331 | a pure run of n `>` marks gives level n + 1 |
| OutlineLines.TextLevelIs | example/xmlTocExt.js:330-331 | for any indentation of spaces and `>`, the level is the number of `>` plus one when there is any, and otherwise a quarter of the indentation rounded down, plus one |
| OutlineLines.QuotesDecideAnySpaces | example/xmlTocExt.js:330-331 | once the indentation holds a `>`, the `>` marks alone decide the level, whatever the spaces between them |
| OutlineLines.SpacedQuotes | example/xmlTocExt.js:330-331 | `> > x` is at level 3 |
| OutlineLines.IndentRunAll | example/xmlTocExt.js:304 | an indentation of spaces and `>` followed by any other character is exactly the `^[ >]*` match |
| OutlineLines.SplitCounts | example/xmlTocExt.js:330 | splitting at `>` gives one piece more than there are `>` marks |
| OutlineLines.BlockEndExists | lib/mdProcessor.js:468 | a line is an attribute line exactly when it starts with `{:` and has a `}` after that |
| OutlineLines.BlockEndPlain | lib/mdProcessor.js:468 | without backslashes the attribute list ends at the first `}` |
| OutlineLines.ScanBlockFinds | lib/mdProcessor.js:468 | the backtracking scan succeeds exactly when a closing `}` exists |
| OutlineLines.DefinitionLineIs | lib/mdProcessor.js:492-494 | `{:name:value}` is recorded as the definition of `name` |
| OutlineLines.ListLineIs | lib/mdProcessor.js:495-498 | `{:text}` without a second colon is a pending list, trimmed |
| OutlineLines.NoSecondColon | lib/mdProcessor.js:469 | without a colon after the opening one there is no reference name |
| OutlineLines.EntryLine | lib/mdProcessor.js:487-491 | a line not starting with `{:` is an entry |
| OutlineLines.Absorb | lib/mdProcessor.js:492-498 | a definition updates only the definitions; a list is appended to the pending lists |
| OutlineLines.Gather | lib/mdProcessor.js:514-520 | lookahead consumes exactly the run of attribute lines after the entry and keeps the pending lists as a prefix |
| OutlineLines.Find | lib/mdProcessor.js:468 | the search returns the first position of the character at or after the start, or the end |
| OutlineLines.ScanBlockPlain | lib/mdProcessor.js:468 | the backtracking scan ends the list at the first `}` |
| TocAssembly.InsertKeeps | lib/mdProcessor.js:589-602 | inserting keeps the nesting and adds only after what is there |
| TocAssembly.StepKeeps | lib/mdProcessor.js:478-614 | reading one line keeps the nesting, loses or reorders nothing placed, and only adds warnings |
| TocAssembly.LinesKeep | lib/mdProcessor.js:478-614 | the whole line loop keeps what every line keeps |
| TocAssembly.LinesExact | lib/mdProcessor.js:478-614 | with whole-level lines the loop keeps every element exactly one level below its parent |
| TocAssembly.GenerateTocNested | lib/mdProcessor.js:467-617 | every element of the generated tree sits at least one level below its parent |
| TocAssembly.WholeLevel | lib/mdProcessor.js:506 | indentation in whole groups of four gives a whole level |
| TocAssembly.GenerateTocExact | lib/mdProcessor.js:506-602 | with whole-level indentation every element sits exactly one level below its parent |
| TocAssembly.BlankLineClears | lib/mdProcessor.js:481-485 | a blank line clears the pending lists, keeps the definitions and places nothing |
| TocAssembly.NestingJumpExcluded | lib/mdProcessor.js:506-511 | an entry more than one level deeper than the last placed one is left out with one warning and clears the pending lists |
| TocAssembly.DefinitionLineRecords | lib/mdProcessor.js:487-504 | a `{:name:value}` line records the definition and adds no entry |
| TocAssembly.EntryTakesFollowingLines | lib/mdProcessor.js:514-613 | an entry gets the pending lists plus the attribute lines right after it, and the lists are empty afterwards |
| TocAssembly.VetoIsSilent | lib/mdProcessor.js:585-611 | a handler returning the empty text drops the entry without a warning |
| TocAssembly.WithoutHandlers | lib/mdProcessor.js:565-611 | with no handler, a resolved entry places its fragment, an unresolved one places its own text, and only a failed parse warns |
| TextToc.OnlyOutlineFiles | example/xmlTocExt.js:286-288 | only a path ending in `toc` or `toc.txt` is read |
| TextToc.CommentClears | example/xmlTocExt.js:306-309 | the navigation comment clears the pending lists like a blank line and adds no topic |
| TextToc.TextEntryPlaced | example/xmlTocExt.js:338-359 | an accepted entry becomes the last topic, with the attributes of the pending and following lists, and the lists are emptied |
| TextToc.TextStepExact | example/xmlTocExt.js:332-358 | each line keeps every topic exactly one level below its parent |
| TextToc.TextStepAppends | example/xmlTocExt.js:351-358 | topics are only added after those already there, in document order |
| TextToc.TextLinesKeep | example/xmlTocExt.js:302-360 | the whole loop keeps exact nesting and document order |
| TextToc.ModelIsExact | example/xmlTocExt.js:285-363 | every topic of the parsed model is exactly one level below its parent, and top-level topics are at level 1 |
| TextToc.WalkKeeps | example/xmlTocExt.js:383-480 | the depth-first walk keeps every placed element at least one level below its parent and loses nothing |
| TextToc.OutputNested | example/xmlTocExt.js:375-381 | the output of a parsed model nests every element at least one level below its parent |
| XmlTocHandlers.OnHeading | example/xmlTocExt.js:41-54 | exactly the `toc-` attributes are removed; no change when there are none |
| XmlTocHandlers.OnTopic | example/xmlTocExt.js:57-80 | a non-empty `notoc` suppresses the entry; otherwise each `toc-name` attribute becomes a `name` property; no change without any |
| XmlTocHandlers.OnComplete | example/xmlTocExt.js:83-98 | no change without header and footer; otherwise the result starts with the header, ends with the footer and holds the table of contents between them |
| XmlTocHandlers.ClassPassKeeps | example/xmlTocExt.js:116-139 | the class loop keeps exactly the non-group classes, in order |
| XmlTocHandlers.ClassPassGroup | example/xmlTocExt.js:114-139 | an open group stays; a closed one opens exactly on `navgroup` with an id, which is removed; the group ends after the entry exactly on `navgroup-end` |
| XmlTocHandlers.ClassAttributeRewritten | example/xmlTocExt.js:140-144 | the class attribute is rewritten to the other classes, or removed when there are none |
| XmlTocHandlers.ShallowerEntryCloses | example/xmlTocExt.js:147-150 | an entry shallower than the group closes it with a warning and is not marked |
| XmlTocHandlers.MarkerOnlyAtGroupLevel | example/xmlTocExt.js:232-240 | the marker goes exactly on an entry that produces an element at the group's level |
| XmlTocHandlers.GroupCarriesOn | example/xmlTocExt.js:147-242 | an entry at or below the group's level without `navgroup-end` leaves the group open |
| XmlTocHandlers.NavgroupOpens | example/xmlTocExt.js:119-131 | with no group open, `navgroup` with an id opens a group at the entry's level and the id is dropped; without an id nothing opens |
| XmlTocHandlers.NavgroupEndCloses | example/xmlTocExt.js:132-138 | `navgroup-end` closes the group after the entry |
| XmlTocHandlers.GroupAfterEntry | example/xmlTocExt.js:111-150 | after an entry the group is gone, unchanged, or the one the entry opened with its own id and level |
| XmlTocHandlers.Run | example/xmlTocExt.js:102-244 | a run of entries gives one outcome per entry |
| XmlTocHandlers.RunGroupOrigin | example/xmlTocExt.js:102-244 | the group open after a run of entries was there at the start or was opened by one of them |
| XmlTocHandlers.NoGroupWithoutNavgroup | example/xmlTocExt.js:102-244 | without a `navgroup` class no group opens and no entry is marked |
| ApiDocs.SectionsCut | example/makeApidocsJson.js:162-173 | the sections hold the nodes in order, none is empty, and each after the first starts with its own `h1` and holds no other |
| ApiDocs.SubsectionsCut | example/makeApidocsJson.js:101-109 | the subsections hold the nodes in order, each after the first starts with its `h2`, and only the last can be empty |
| ApiDocs.PartitionIs | example/makeApidocsJson.js:101-109 | cutting keeps the nodes in order after the groups already there, and a group after the first starts with the tag and holds no other |
| ApiDocs.ApiSections | example/makeApidocsJson.js:150-178 | one processed section per `h1` section of the page |
| ApiDocs.Languages | example/makeApidocsJson.js:49-53 | a language list is never empty, and a list naming `generic` is just `generic` |
| ApiDocs.LanguagesJoin | example/makeApidocsJson.js:49-53 | without `generic`, the list joins back into the attribute |
| ApiDocs.AddAll | example/makeApidocsJson.js:62 | adding to the language set keeps earlier languages first, holds exactly the old and the new, and lists each language once |
| ApiDocs.LanguagesOnlyGrow | example/makeApidocsJson.js:62-67 | processing subsections never removes a language already collected |
| ApiDocs.StripAll | example/makeApidocsJson.js:37-44 | each node is stripped in place, one for one |
| ApiDocs.Render | example/makeApidocsJson.js:64-65 | a node yields no element exactly when it is a bare line break |
| ApiDocs.Strip | example/makeApidocsJson.js:37-44 | the copy lacks `data-hd-position`, `data-hd-vposition` and `id`, and keeps every other attribute and value |
| ApiDocs.OneElementPerNode | example/makeApidocsJson.js:64-85 | every node except a bare line break gives exactly one element |
| ApiDocs.CodeOnlyOnTheRight | example/makeApidocsJson.js:71-72 | an element is code exactly for a `pre` holding `code` in a right-hand subsection |
| ApiDocs.RenderedSource | example/makeApidocsJson.js:64-82 | no element source carries a control attribute; a text element is the node labelled with its own languages, else with the subsection's unless they are `generic`, every other attribute kept |
| ApiDocs.CodeElementIs | example/makeApidocsJson.js:74-80 | a code element holds the code's children, and its language is the `pre`'s own list, else the subsection's when not `generic` and not empty, else none |
| ApiDocs.LayoutKeepsElements | example/makeApidocsJson.js:111-142 | the blocks' content is the left-hand elements in order, their examples are the moved right-hand elements then the ones kept in place, and no block is empty |
| ApiDocs.MovedOpensFirstBlock | example/makeApidocsJson.js:115-121 | right-hand material not kept in place opens the first block's examples |
| ApiDocs.LayoutRepeatsBlock | example/makeApidocsJson.js:125-131 | as written, one paragraph followed by right-hand code kept in place lists the same block twice |
| ApiDocs.ProcessSection | example/makeApidocsJson.js:144-146 | exclusive languages are never empty and never include `generic` |
| ApiDocs.ExclusiveLanguages | example/makeApidocsJson.js:46-146 | exclusive languages are present exactly when no word of the `h1`, `h2` and node language lists is `generic`, and then hold exactly those words, each once |
| ApiDocs.GenericByDefault | example/makeApidocsJson.js:91-99 | a section whose `h1` names no languages, or names `generic`, has no exclusive languages |

## Findings

| source | as written | input that shows it | evidently intended | confidence | as-written member | corrected member |
|---|---|---|---|---|---|---|
| example/makeApidocsJson.js:125-131 | `section.blocks.push(block)` runs even when the current block was kept because it had nothing left after the pop, so that block is listed again | a section whose first subsection is one paragraph `p`, followed by an `h2` with `data-hd-position="right"` and `data-hd-vposition="here"` and a code sample `c`: the block list is `[{p; c}, {p; c}]` | push only a newly created block, giving `[{p; c}]` | likely; not executed | ApiDocs.LayoutRepeatsBlock | ApiDocs.LayoutKeepsElements |

`ApiDocs.LayoutAsWritten` models the loop as written: it tracks how many times the current block has been pushed. `ApiDocs.LayoutBlocks` pushes it once, and `ApiDocs.ProcessSection` uses that corrected layout.

## Left out

- File system and I/O. These are directory traversal, fragment files, extension loading and the reads and writes of outline, header, footer and JSON files. Fragment lookup is the `Env.resolve` parameter.
- The DOM and HTML parsing and printing. Fragments and nodes are abstract, and `Env.render` and `Env.parse` stand for printing and parsing.
- A fragment with several top-level siblings is placed as one unit. The source appends each sibling and chains the insertion point through them.
- The external-link pattern is a parameter: `Env.resolve` in the outline readers and `isLink` in `onGenerate`. Creating the link topic is part of `Env.resolve`.
- The anchors and properties that `onGenerate` adds to a converted Markdown file's topics are abstracted to the `Anchored` element and its marker.
- The `href` rewriting of fragment links is not modelled.
- Lower-casing of class names covers ASCII letters only.
- `Object.keys` order: attribute maps are maps. The merge is shown to give the same map in every key order.
- Registries that hold a bare function or scalar where an object is expected are not modelled beyond the dispatcher's walk.
- The replacement of an extension's `init` function and the `extensionManager` registration in the XML extension are not modelled. The handlers are plain functions.
- `parseYamlToc` is an empty stub and is not modelled.
- Logging: warnings are a list of values, and their texts are not modelled.
- PDF generation, file copying, timers and the `headerFooterExt`/`accessibilityExt` extensions are not modelled.
- The `hljs` class handler that `generate` registers is not modelled.
- In the API-documentation extension, `replaceVariables` on the page and the JSON output are not modelled. A section keeps its `h1` node rather than the heading's printed text and `id`.
- TextToc.WalkModel: after a topic's children, the walk returns to that topic's insertion point by closing deeper elements. This matches the source's per-call `lastTocItem` for the trees `parseTextToc` builds, where every child is one level below its parent. For arbitrary trees it is not shown to match.
- ApiDocs.ProcessSection: uses the corrected layout, `ApiDocs.LayoutBlocks`. The duplicated block that the source's layout loop produces (see "## Findings") is not part of a modelled section.
- Variables.Step: a data value is a string, an object or a scalar. These are not modelled:
  - Arrays: `{{list.0}}` indexing into a YAML sequence, an array's comma-joined text, and the truthiness of an empty array.
  - Properties of strings, such as `{{s.length}}` and `{{s.0}}`.
  - Members inherited from `Object.prototype`, such as `{{a.constructor}}`. The walk finds only an object's own fields.
- Attributes.ApplySegment: a segment names a definition list only when it is a key of the definitions. Inherited members such as `constructor`, which the source's property lookup also finds, are not modelled.
- TocAssembly.Dispatch: every handler of one `onGenerate` dispatch is given the same unchanging `Context`. In the source all handlers share one mutable `data` object (lib/cli-common.js:71-76, built at lib/mdProcessor.js:572-584 and example/xmlTocExt.js:437-449). The XML handler deletes its `id` attribute (example/xmlTocExt.js:129) and rewrites or deletes its `class` attribute (example/xmlTocExt.js:140-145). A handler registered after it therefore sees the rewritten attributes, and this is not modelled. In the text outline reader, `data.attributes` is the topic's own attribute map, so the rewrite also reaches that topic; this is not modelled either.
- TocAssembly.Env: a handler's reply is a function of the handler, the text and the context. The XML handler also reads and writes the module-level `navgroup` (example/xmlTocExt.js:102, 128, 149, 198, 242), so its reply depends on the entries before it. `XmlTocHandlers.Run` models that state on its own. The two are not composed: no lemma follows an outline reader's calls into `XmlTocHandlers.Run`.
- Fuel: `Variables.Substitute`, `Attributes.ComputeAttributes` and everything built on them give `None` when the fuel runs out. Lemmas show that more fuel never changes a finished result. What happens beyond any fuel bound, the source looping for ever, is not modelled.

=== FILE: apidocs.dfy ===
/** The API-documentation extension: the converted HTML of a file is cut
    into sections at each `h1`, each section into subsections at each `h2`,
    and every subsection's nodes become text or code elements laid out in
    blocks of content (the left column) and examples (the right column).
    Headings carry the controls: `data-hd-programlang` (the languages),
    `data-hd-position` (`right` for the example column) and
    `data-hd-vposition` (`here` to keep right-hand material in place rather
    than in the first block).  Nodes are abstract: a tag, a text node, or
    another node (comment, script, ...) that may have attributes; printing
    them is left out. */
module ApiDocs {
  import opened JsCore

  type Attribs = map<string, string>

  datatype Node =
    | Text(data: string)
    | Tag(name: string, attribs: Attribs, children: seq<Node>)
    | Other(otherAttribs: Option<Attribs>)

  const ProgramLang: string := "data-hd-programlang"
  const Position: string := "data-hd-position"
  const VPosition: string := "data-hd-vposition"

  predicate IsTag(n: Node, name: string) {
    n.Tag? && n.name == name
  }

  function AttrsOf(n: Node): Option<Attribs> {
    match n
    case Text(_) => None
    case Tag(_, a, _) => Some(a)
    case Other(a) => a
  }

  // ---------------------------------------------------------------------
  // Cutting a node list at headings.

  function Concat<T>(gs: seq<seq<T>>): seq<T> {
    if |gs| == 0 then [] else gs[0] + Concat(gs[1..])
  }

  lemma {:induction false} ConcatAppend<T>(gs: seq<seq<T>>, g: seq<T>)
    ensures Concat(gs + [g]) == Concat(gs) + g
  {
    if |gs| == 0 {
      assert gs + [g] == [g];
      assert [g][1..] == [];
    } else {
      assert (gs + [g])[0] == gs[0] && (gs + [g])[1..] == gs[1..] + [g];
      ConcatAppend(gs[1..], g);
    }
  }

  function AppendToLast<T>(gs: seq<seq<T>>, x: T): (r: seq<seq<T>>)
    requires |gs| > 0
    ensures |r| == |gs|
  {
    gs[..|gs| - 1] + [gs[|gs| - 1] + [x]]
  }

  /** The group list after one node of the cutting loop. */
  function StartOrAppend(gs: seq<seq<Node>>, n: Node, tag: string, always: bool): (r: seq<seq<Node>>)
    requires |gs| > 0
    ensures |r| > 0
  {
    var started := if IsTag(n, tag) && (always || |gs[|gs| - 1]| > 0) then gs + [[]] else gs;
    AppendToLast(started, n)
  }

  /** The cutting loop: a `tag` node starts a new group when `always` is set
      or the current group is not empty, and every node joins the last
      group. */
  function Partition(nodes: seq<Node>, gs: seq<seq<Node>>, tag: string, always: bool): (r: seq<seq<Node>>)
    requires |gs| > 0
    ensures |r| > 0
    decreases |nodes|
  {
    if |nodes| == 0 then gs
    else Partition(nodes[1..], StartOrAppend(gs, nodes[0], tag, always), tag, always)
  }

  /** Each group but the first starts with a `tag` node and is not empty, and
      no group holds a `tag` node anywhere but at its start. */
  ghost predicate Cut(gs: seq<seq<Node>>, tag: string) {
    forall i :: 0 <= i < |gs| ==>
      && (i > 0 ==> |gs[i]| > 0 && IsTag(gs[i][0], tag))
      && (forall j :: 0 < j < |gs[i]| ==> !IsTag(gs[i][j], tag))
  }

  /** Only the last group may be empty. */
  ghost predicate FilledBut(gs: seq<seq<Node>>) {
    forall i :: 0 <= i < |gs| ==> |gs[i]| > 0 || i == |gs| - 1
  }

  /** The concatenation ends with the last group. */
  lemma ConcatLast<T>(gs: seq<seq<T>>)
    requires |gs| > 0
    ensures Concat(gs) == Concat(gs[..|gs| - 1]) + gs[|gs| - 1]
  {
    assert gs[..|gs| - 1] + [gs[|gs| - 1]] == gs;
    ConcatAppend(gs[..|gs| - 1], gs[|gs| - 1]);
  }

  lemma AppendToLastConcat<T>(gs: seq<seq<T>>, x: T)
    requires |gs| > 0
    ensures Concat(AppendToLast(gs, x)) == Concat(gs) + [x]
  {
    var r := AppendToLast(gs, x);
    var front := gs[..|gs| - 1];
    var last := gs[|gs| - 1];
    assert r[..|r| - 1] == front && r[|r| - 1] == last + [x];
    ConcatLast(r);
    ConcatLast(gs);
    assert Concat(front) + (last + [x]) == (Concat(front) + last) + [x];
  }

  lemma StepConcat(gs: seq<seq<Node>>, n: Node, tag: string, always: bool)
    requires |gs| > 0
    ensures Concat(StartOrAppend(gs, n, tag, always)) == Concat(gs) + [n]
  {
    var started := if IsTag(n, tag) && (always || |gs[|gs| - 1]| > 0) then gs + [[]] else gs;
    ConcatAppend(gs, []);
    assert Concat(started) == Concat(gs);
    AppendToLastConcat(started, n);
  }

  lemma StepCut(gs: seq<seq<Node>>, n: Node, tag: string, always: bool)
    requires |gs| > 0 && Cut(gs, tag)
    ensures Cut(StartOrAppend(gs, n, tag, always), tag)
  {
    var started := if IsTag(n, tag) && (always || |gs[|gs| - 1]| > 0) then gs + [[]] else gs;
    var next := StartOrAppend(gs, n, tag, always);
    forall i | 0 <= i < |next|
      ensures (i > 0 ==> |next[i]| > 0 && IsTag(next[i][0], tag))
      ensures (forall j :: 0 < j < |next[i]| ==> !IsTag(next[i][j], tag))
    {
      if i < |started| - 1 {
        assert next[i] == started[i];
        if started != gs && i == |gs| - 1 {
          assert next[i] == gs[i];
        }
      } else {
        assert next[i] == started[i] + [n];
        if started == gs && i > 0 {
          assert next[i][0] == gs[i][0];
        }
      }
    }
  }

  lemma StepFilled(gs: seq<seq<Node>>, n: Node, tag: string)
    requires |gs| > 0 && FilledBut(gs)
    ensures FilledBut(StartOrAppend(gs, n, tag, false))
  {
    var started := if IsTag(n, tag) && |gs[|gs| - 1]| > 0 then gs + [[]] else gs;
    var next := StartOrAppend(gs, n, tag, false);
    forall i | 0 <= i < |next| ensures |next[i]| > 0 || i == |next| - 1 {
      if i < |started| - 1 {
        assert next[i] == started[i];
      }
    }
  }

  lemma {:induction false} PartitionIs(nodes: seq<Node>, gs: seq<seq<Node>>, tag: string, always: bool)
    requires |gs| > 0 && Cut(gs, tag)
    ensures Concat(Partition(nodes, gs, tag, always)) == Concat(gs) + nodes
    ensures Cut(Partition(nodes, gs, tag, always), tag)
    decreases |nodes|
  {
    if |nodes| > 0 {
      StepConcat(gs, nodes[0], tag, always);
      StepCut(gs, nodes[0], tag, always);
      PartitionIs(nodes[1..], StartOrAppend(gs, nodes[0], tag, always), tag, always);
      assert [nodes[0]] + nodes[1..] == nodes;
    }
  }

  lemma {:induction false} PartitionFilled(nodes: seq<Node>, gs: seq<seq<Node>>, tag: string)
    requires |gs| > 0 && FilledBut(gs)
    ensures FilledBut(Partition(nodes, gs, tag, false))
    decreases |nodes|
  {
    if |nodes| > 0 {
      StepFilled(gs, nodes[0], tag);
      PartitionFilled(nodes[1..], StartOrAppend(gs, nodes[0], tag, false), tag);
    }
  }

  /** `html.onComplete`'s cut: a section starts at every `h1`, and the
      leading part before the first one is dropped when it is empty. */
  function SplitSections(nodes: seq<Node>): seq<seq<Node>> {
    var gs := Partition(nodes, [[]], "h1", true);
    if |gs[0]| == 0 then gs[1..] else gs
  }

  /** `processSection`'s cut: a subsection starts at an `h2` unless the
      current subsection is still empty. */
  function SplitSubsections(dom: seq<Node>): seq<seq<Node>> {
    Partition(dom, [[]], "h2", false)
  }

  /** The sections hold the nodes in order, none is empty, and each one
      after the first starts with its `h1` (the first one does when the
      page starts with one) and holds no other. */
  lemma SectionsCut(nodes: seq<Node>)
    ensures Concat(SplitSections(nodes)) == nodes
    ensures forall i :: 0 <= i < |SplitSections(nodes)| ==> |SplitSections(nodes)[i]| > 0
    ensures Cut(SplitSections(nodes), "h1")
  {
    var gs := Partition(nodes, [[]], "h1", true);
    PartitionIs(nodes, [[]], "h1", true);
    var none: seq<seq<Node>> := [[]];
    assert Concat(none) == [];
    if |gs[0]| == 0 {
      assert gs[0] == [];
      assert Concat(gs) == Concat(gs[1..]);
      forall i | 0 <= i < |gs[1..]|
        ensures |gs[1..][i]| > 0
        ensures (i > 0 ==> IsTag(gs[1..][i][0], "h1"))
        ensures (forall j :: 0 < j < |gs[1..][i]| ==> !IsTag(gs[1..][i][j], "h1"))
      {
        assert gs[1..][i] == gs[i + 1];
      }
    }
  }

  /** The subsections hold the section's nodes in order; each after the
      first starts with its `h2` and no subsection holds another; only an
      empty section gives an empty subsection. */
  lemma SubsectionsCut(dom: seq<Node>)
    ensures Concat(SplitSubsections(dom)) == dom
    ensures Cut(SplitSubsections(dom), "h2")
    ensures FilledBut(SplitSubsections(dom))
  {
    PartitionIs(dom, [[]], "h2", false);
    var none: seq<seq<Node>> := [[]];
    assert Concat(none) == [];
    PartitionFilled(dom, [[]], "h2");
  }

  // ---------------------------------------------------------------------
  // Languages.

  /** A language list: the attribute split at spaces, or just `generic`
      when it names `generic`. */
  function Languages(v: string): (r: seq<string>)
    ensures |r| > 0
    ensures "generic" in r ==> r == ["generic"]
  {
    var l := Split(v, ' ');
    if "generic" in l then ["generic"] else l
  }

  /** A list that does not name `generic` is the attribute's words, which
      join back into the attribute. */
  lemma LanguagesJoin(v: string)
    requires "generic" !in Split(v, ' ')
    ensures Join(Languages(v), " ") == v
  {
    JoinSplit(v, ' ');
  }

  /** `lang[0] !== 'generic'`. */
  predicate NotGeneric(lang: seq<string>) {
    |lang| == 0 || lang[0] != "generic"
  }

  /** Additions to an insertion-ordered set. */
  function AddAll(langs: seq<string>, xs: seq<string>): (r: seq<string>)
    ensures |r| >= |langs| && r[..|langs|] == langs
    ensures forall x :: x in r <==> x in langs || x in xs
    ensures Distinct(langs) ==> Distinct(r)
    decreases |xs|
  {
    if |xs| == 0 then langs
    else AddAll(if xs[0] in langs then langs else langs + [xs[0]], xs[1..])
  }

  // ---------------------------------------------------------------------
  // Elements.

  /** `domToHtml`'s copy: the node without the control attributes. */
  function Strip(n: Node): (r: Node)
    ensures AttrsOf(r).Some? <==> AttrsOf(n).Some?
    ensures AttrsOf(r).Some? ==>
      forall k :: k in AttrsOf(r).value <==> k in AttrsOf(n).value && k != Position && k != VPosition && k != "id"
    ensures AttrsOf(r).Some? ==> forall k :: k in AttrsOf(r).value ==> AttrsOf(r).value[k] == AttrsOf(n).value[k]
  {
    match n
    case Text(_) => n
    case Tag(name, a, c) => Tag(name, a - {Position, VPosition, "id"}, c)
    case Other(a) => if a.Some? then Other(Some(a.value - {Position, VPosition, "id"})) else n
  }

  function StripAll(ns: seq<Node>): (r: seq<Node>)
    ensures |r| == |ns| && forall i :: 0 <= i < |ns| ==> r[i] == Strip(ns[i])
  {
    if |ns| == 0 then [] else [Strip(ns[0])] + StripAll(ns[1..])
  }

  function SetAttr(n: Node, k: string, v: string): Node {
    match n
    case Text(_) => n
    case Tag(name, a, c) => Tag(name, a[k := v], c)
    case Other(a) => if a.Some? then Other(Some(a.value[k := v])) else n
  }

  predicate IsCode(n: Node) {
    n.Tag? && n.name == "pre" && |n.children| > 0 && n.children[0].Tag? && n.children[0].name == "code"
  }

  datatype Kind = CodeElement | TextElement

  datatype Element = Element(kind: Kind, source: seq<Node>, lang: Option<string>)

  /** A truthy `data-hd-programlang`. */
  predicate HasLang(a: Option<Attribs>) {
    a.Some? && ProgramLang in a.value && a.value[ProgramLang] != ""
  }

  /** One node of a subsection: a bare line break gives nothing; a node with
      its own languages adds them to the section's languages, and any other
      node with attributes is tagged with the subsection's languages (unless
      they are `generic`).  A `pre` holding `code` in a right-hand
      subsection becomes a code element with the code's children as its
      source; everything else a text element of its own. */
  function Render(n: Node, lang: seq<string>, position: Option<string>, langs: seq<string>): (r: (Option<Element>, seq<string>))
    ensures r.0.None? <==> n == Text("\n")
  {
    if n == Text("\n") then (None, langs)
    else
      var a := AttrsOf(n);
      var langs' := if HasLang(a) then AddAll(langs, Split(a.value[ProgramLang], ' ')) else langs;
      var m := if !HasLang(a) && a.Some? && NotGeneric(lang) then SetAttr(n, ProgramLang, Join(lang, " ")) else n;
      if IsCode(m) && position == Some("right") then
        var l :=
          if HasLang(AttrsOf(m)) then Some(m.attribs[ProgramLang])
          else if NotGeneric(lang) && Join(lang, " ") != "" then Some(Join(lang, " "))
          else None;
        (Some(Element(CodeElement, StripAll(m.children[0].children), l)), langs')
      else (Some(Element(TextElement, [Strip(m)], None)), langs')
  }

  function RenderAll(body: seq<Node>, lang: seq<string>, position: Option<string>, langs: seq<string>): (r: (seq<Element>, seq<string>))
    decreases |body|
  {
    if |body| == 0 then ([], langs)
    else
      var (e, langs1) := Render(body[0], lang, position, langs);
      var (rest, langs2) := RenderAll(body[1..], lang, position, langs1);
      ((if e.Some? then [e.value] else []) + rest, langs2)
  }

  datatype Subsection = Subsection(position: Option<string>, vposition: Option<string>, elements: seq<Element>)

  /** `processSubsection`: an opening `h2` sets the subsection's languages
      and positions and is not itself an element. */
  function ProcessSubsection(dom: seq<Node>, defaults: seq<string>, langs: seq<string>): (r: (Subsection, seq<string>)) {
    var a := H2Attrs(dom);
    var lang := SubsectionLang(dom, defaults);
    var position := if Position in a then Some(a[Position]) else None;
    var vposition := if VPosition in a then Some(a[VPosition]) else None;
    var (elements, langs') := RenderAll(Body(dom), lang, position, AddAll(langs, lang));
    (Subsection(position, vposition, elements), langs')
  }

  predicate OpensWithH2(dom: seq<Node>) {
    |dom| > 0 && IsTag(dom[0], "h2")
  }

  /** The attributes of the opening `h2`, none without one. */
  function H2Attrs(dom: seq<Node>): Attribs {
    if OpensWithH2(dom) then dom[0].attribs else map[]
  }

  /** The subsection's languages: its `h2`'s list, else the section's. */
  function SubsectionLang(dom: seq<Node>, defaults: seq<string>): seq<string> {
    var a := H2Attrs(dom);
    if ProgramLang in a then Languages(a[ProgramLang]) else defaults
  }

  /** The nodes after the opening `h2`. */
  function Body(dom: seq<Node>): seq<Node> {
    if OpensWithH2(dom) then dom[1..] else dom
  }

  function ProcessSubsections(subs: seq<seq<Node>>, defaults: seq<string>, langs: seq<string>): (r: (seq<Subsection>, seq<string>))
    ensures |r.0| == |subs|
    decreases |subs|
  {
    if |subs| == 0 then ([], langs)
    else
      var (s, langs1) := ProcessSubsection(subs[0], defaults, langs);
      var (rest, langs2) := ProcessSubsections(subs[1..], defaults, langs1);
      ([s] + rest, langs2)
  }

  /** Every node but a bare line break gives exactly one element, in order. */
  lemma {:induction false} OneElementPerNode(body: seq<Node>, lang: seq<string>, position: Option<string>, langs: seq<string>)
    ensures |RenderAll(body, lang, position, langs).0| == |Filter(body, n => n != Text("\n"))|
    decreases |body|
  {
    if |body| > 0 {
      OneElementPerNode(body[1..], lang, position, langs);
      var (e, langs1) := Render(body[0], lang, position, langs);
      OneElementPerNode(body[1..], lang, position, langs1);
      LengthIgnoresLangs(body[1..], lang, position, langs, langs1);
    }
  }

  lemma {:induction false} LengthIgnoresLangs(body: seq<Node>, lang: seq<string>, position: Option<string>, a: seq<string>, b: seq<string>)
    ensures |RenderAll(body, lang, position, a).0| == |RenderAll(body, lang, position, b).0|
    decreases |body|
  {
    if |body| > 0 {
      var a1 := Render(body[0], lang, position, a).1;
      var b1 := Render(body[0], lang, position, b).1;
      LengthIgnoresLangs(body[1..], lang, position, a1, b1);
    }
  }

  /** No element's source carries a control attribute.  A text element's
      source is the node with the control attributes dropped and labelled
      with languages: its own when it names some, else the subsection's
      unless they are `generic`; every other attribute is kept. */
  lemma RenderedSource(n: Node, lang: seq<string>, position: Option<string>, langs: seq<string>)
    requires n != Text("\n")
    ensures var e := Render(n, lang, position, langs).0.value;
      && (forall s :: s in e.source && AttrsOf(s).Some? ==>
            Position !in AttrsOf(s).value && VPosition !in AttrsOf(s).value && "id" !in AttrsOf(s).value)
      && (e.kind == TextElement ==> |e.source| == 1 && (AttrsOf(e.source[0]).Some? <==> AttrsOf(n).Some?))
      && (e.kind == TextElement && AttrsOf(n).Some? ==>
            var before := AttrsOf(n).value;
            var after := AttrsOf(e.source[0]).value;
            && (HasLang(AttrsOf(n)) ==> after[ProgramLang] == before[ProgramLang])
            && (!HasLang(AttrsOf(n)) && NotGeneric(lang) ==> after[ProgramLang] == Join(lang, " "))
            && (!HasLang(AttrsOf(n)) && !NotGeneric(lang) ==> (ProgramLang in after <==> ProgramLang in before))
            && (forall k :: k != ProgramLang && k != Position && k != VPosition && k != "id" ==>
                  (k in after <==> k in before) && (k in after ==> after[k] == before[k])))
  {
  }

  /** A code element's source is the code's children with the control
      attributes dropped; its language is the `pre`'s own list, else the
      subsection's when that is not `generic` and not empty, else none. */
  lemma CodeElementIs(n: Node, lang: seq<string>, position: Option<string>, langs: seq<string>)
    requires n != Text("\n")
    ensures var e := Render(n, lang, position, langs).0.value;
      e.kind == CodeElement ==>
        && e.source == StripAll(n.children[0].children)
        && e.lang == (if HasLang(AttrsOf(n)) then Some(AttrsOf(n).value[ProgramLang])
                      else if NotGeneric(lang) && Join(lang, " ") != "" then Some(Join(lang, " "))
                      else None)
  {
  }

  /** A code element needs a right-hand subsection and a `pre` holding
      `code`. */
  lemma CodeOnlyOnTheRight(n: Node, lang: seq<string>, position: Option<string>, langs: seq<string>)
    requires n != Text("\n")
    ensures Render(n, lang, position, langs).0.value.kind == CodeElement <==> IsCode(n) && position == Some("right")
  {
  }

  // ---------------------------------------------------------------------
  // Layout.

  datatype Block = Block(content: seq<Element>, examples: seq<Element>)

  predicate IsEmpty(b: Block) {
    |b.content| == 0 && |b.examples| == 0
  }

  /** Right-hand material not kept in place: it goes to the first block's
      examples. */
  predicate IsMoved(s: Subsection) {
    s.position == Some("right") && s.vposition != Some("here")
  }

  function Moved(subs: seq<Subsection>): seq<Element>
    decreases |subs|
  {
    if |subs| == 0 then [] else (if IsMoved(subs[0]) then subs[0].elements else []) + Moved(subs[1..])
  }

  /** The layout loop's state: the blocks finished so far, the block being
      filled, how many times it has been pushed onto the block list, and the
      previous subsection's position. */
  datatype Layout = Layout(finished: seq<Block>, current: Block, copies: nat, pos: Option<string>)

  function Copies(b: Block, n: nat): (r: seq<Block>)
    ensures |r| == n && forall i :: 0 <= i < n ==> r[i] == b
  {
    if n == 0 then [] else [b] + Copies(b, n - 1)
  }

  /** One subsection laid out.  Where the left column turns into the right
      one, the last content element moves to a new block, which the right
      column then fills beside it; the current block is reused when nothing
      is left in it.  With `repush` the reused block is pushed onto the
      block list once more, as the source does. */
  function Arrange(L: Layout, s: Subsection, repush: bool): Layout {
    var turned :=
      if L.pos != Some("right") && s.position == Some("right") then
        var c := L.current.content;
        var last := if |c| > 0 then [c[|c| - 1]] else [];
        var popped := L.current.(content := if |c| > 0 then c[..|c| - 1] else c);
        if !IsEmpty(popped) then Layout(L.finished + Copies(popped, L.copies), Block(last, []), 1, s.position)
        else Layout(L.finished, popped.(content := last), if repush then L.copies + 1 else L.copies, s.position)
      else L.(pos := s.position);
    if turned.pos != Some("right") then turned.(current := turned.current.(content := turned.current.content + s.elements))
    else turned.(current := turned.current.(examples := turned.current.examples + s.elements))
  }

  function ArrangeAll(L: Layout, subs: seq<Subsection>, repush: bool): Layout
    decreases |subs|
  {
    if |subs| == 0 then L else ArrangeAll(Arrange(L, subs[0], repush), subs[1..], repush)
  }

  /** The block list at the end, without the last block when it is empty. */
  function BlockList(L: Layout): seq<Block> {
    if IsEmpty(L.current) then L.finished + Copies(L.current, if L.copies > 0 then L.copies - 1 else 0)
    else L.finished + Copies(L.current, L.copies)
  }

  /** The layout as the source writes it. */
  function LayoutAsWritten(subs: seq<Subsection>): seq<Block> {
    BlockList(ArrangeAll(Layout([], Block([], Moved(subs)), 1, None), Filter(subs, s => !IsMoved(s)), true))
  }

  /** The layout with the reused block pushed only once. */
  function LayoutBlocks(subs: seq<Subsection>): seq<Block> {
    BlockList(ArrangeAll(Layout([], Block([], Moved(subs)), 1, None), Filter(subs, s => !IsMoved(s)), false))
  }

  function Contents(bs: seq<Block>): seq<Element> {
    if |bs| == 0 then [] else bs[0].content + Contents(bs[1..])
  }

  function Examples(bs: seq<Block>): seq<Element> {
    if |bs| == 0 then [] else bs[0].examples + Examples(bs[1..])
  }

  /** The elements of the left-hand (`Left`) or right-hand subsections. */
  function Column(subs: seq<Subsection>, right: bool): seq<Element>
    decreases |subs|
  {
    if |subs| == 0 then []
    else (if (subs[0].position == Some("right")) == right then subs[0].elements else []) + Column(subs[1..], right)
  }

  lemma {:induction false} ContentsAppend(a: seq<Block>, b: Block)
    ensures Contents(a + [b]) == Contents(a) + b.content
    ensures Examples(a + [b]) == Examples(a) + b.examples
  {
    var ab := a + [b];
    if |a| == 0 {
      assert ab[0] == b && ab[1..] == [];
      assert Contents(ab) == b.content + Contents([]);
      assert Examples(ab) == b.examples + Examples([]);
    } else {
      assert ab[0] == a[0] && ab[1..] == a[1..] + [b];
      ContentsAppend(a[1..], b);
      assert Contents(ab) == a[0].content + Contents(a[1..] + [b]);
      assert Examples(ab) == a[0].examples + Examples(a[1..] + [b]);
    }
  }

  /** What the corrected loop keeps: one copy of the current block, every
      finished block holds something, and the columns so far are the
      finished blocks' columns followed by the current block's. */
  ghost predicate Arranged(L: Layout, left: seq<Element>, right: seq<Element>) {
    && L.copies == 1
    && (forall i :: 0 <= i < |L.finished| ==> !IsEmpty(L.finished[i]))
    && Contents(L.finished) + L.current.content == left
    && Examples(L.finished) + L.current.examples == right
  }

  lemma ArrangeStep(L: Layout, s: Subsection, left: seq<Element>, right: seq<Element>)
    requires Arranged(L, left, right)
    ensures Arranged(Arrange(L, s, false),
                     left + (if s.position == Some("right") then [] else s.elements),
                     right + (if s.position == Some("right") then s.elements else []))
  {
    if L.pos != Some("right") && s.position == Some("right") {
      var c := L.current.content;
      var last := if |c| > 0 then [c[|c| - 1]] else [];
      var popped := L.current.(content := if |c| > 0 then c[..|c| - 1] else c);
      assert popped.content + last == c;
      if !IsEmpty(popped) {
        assert Copies(popped, 1) == [popped];
        ContentsAppend(L.finished, popped);
        var fin := L.finished + [popped];
        forall i | 0 <= i < |fin| ensures !IsEmpty(fin[i]) {
          if i < |L.finished| {
            assert fin[i] == L.finished[i];
          }
        }
      }
    }
  }

  lemma {:induction false} ArrangeAllKeeps(L: Layout, subs: seq<Subsection>, left: seq<Element>, right: seq<Element>)
    requires Arranged(L, left, right)
    ensures Arranged(ArrangeAll(L, subs, false), left + Column(subs, false), right + Column(subs, true))
    decreases |subs|
  {
    if |subs| > 0 {
      var s := subs[0];
      var l1 := left + (if s.position == Some("right") then [] else s.elements);
      var r1 := right + (if s.position == Some("right") then s.elements else []);
      ArrangeStep(L, s, left, right);
      ArrangeAllKeeps(Arrange(L, s, false), subs[1..], l1, r1);
      assert l1 + Column(subs[1..], false) == left + Column(subs, false);
      assert r1 + Column(subs[1..], true) == right + Column(subs, true);
    }
  }

  /** The corrected layout loses, repeats and reorders nothing: the blocks'
      content is the left-hand elements in order, their examples are the
      moved right-hand elements followed by the ones kept in place, and no
      block is empty. */
  lemma LayoutKeepsElements(subs: seq<Subsection>)
    ensures var kept := Filter(subs, s => !IsMoved(s));
      && Contents(LayoutBlocks(subs)) == Column(kept, false)
      && Examples(LayoutBlocks(subs)) == Moved(subs) + Column(kept, true)
      && forall i :: 0 <= i < |LayoutBlocks(subs)| ==> !IsEmpty(LayoutBlocks(subs)[i])
  {
    var kept := Filter(subs, s => !IsMoved(s));
    var L0 := Layout([], Block([], Moved(subs)), 1, None);
    assert Arranged(L0, [], Moved(subs));
    ArrangeAllKeeps(L0, kept, [], Moved(subs));
    var L := ArrangeAll(L0, kept, false);
    assert Copies(L.current, 1) == [L.current];
    assert Copies(L.current, 0) == [];
    ContentsAppend(L.finished, L.current);
    if !IsEmpty(L.current) {
      var bs := L.finished + [L.current];
      assert LayoutBlocks(subs) == bs;
      forall i | 0 <= i < |bs| ensures !IsEmpty(bs[i]) {
        if i < |L.finished| {
          assert bs[i] == L.finished[i];
        }
      }
    } else {
      assert LayoutBlocks(subs) == L.finished + [];
      assert L.finished + [] == L.finished;
      assert Contents(L.finished) + L.current.content == Contents(L.finished);
      assert Examples(L.finished) + L.current.examples == Examples(L.finished);
    }
  }

  /** The first block, finished or still being filled, opens its examples
      with `moved`. */
  ghost predicate FirstExamples(L: Layout, moved: seq<Element>) {
    var first := if |L.finished| > 0 then L.finished[0] else L.current;
    L.copies == 1 && |moved| <= |first.examples| && first.examples[..|moved|] == moved
  }

  lemma ArrangeFirst(L: Layout, s: Subsection, moved: seq<Element>)
    requires FirstExamples(L, moved)
    ensures FirstExamples(Arrange(L, s, false), moved)
  {
    var turned :=
      if L.pos != Some("right") && s.position == Some("right") then
        var c := L.current.content;
        var last := if |c| > 0 then [c[|c| - 1]] else [];
        var popped := L.current.(content := if |c| > 0 then c[..|c| - 1] else c);
        if !IsEmpty(popped) then Layout(L.finished + Copies(popped, L.copies), Block(last, []), 1, s.position)
        else Layout(L.finished, popped.(content := last), L.copies, s.position)
      else L.(pos := s.position);
    assert FirstExamples(turned, moved) by {
      if L.pos != Some("right") && s.position == Some("right") {
        var c := L.current.content;
        var popped := L.current.(content := if |c| > 0 then c[..|c| - 1] else c);
        if !IsEmpty(popped) {
          assert Copies(popped, 1) == [popped];
          if |L.finished| > 0 {
            assert turned.finished[0] == L.finished[0];
          } else {
            assert turned.finished[0] == popped;
          }
        }
      }
    }
    var r := Arrange(L, s, false);
    assert r.finished == turned.finished;
    var first := if |turned.finished| > 0 then turned.finished[0] else turned.current;
    var first' := if |r.finished| > 0 then r.finished[0] else r.current;
    assert first'.examples == first.examples || first'.examples == first.examples + s.elements;
    assert (first.examples + s.elements)[..|moved|] == first.examples[..|moved|];
  }

  lemma {:induction false} ArrangeAllFirst(L: Layout, subs: seq<Subsection>, moved: seq<Element>)
    requires FirstExamples(L, moved)
    ensures FirstExamples(ArrangeAll(L, subs, false), moved)
    decreases |subs|
  {
    if |subs| > 0 {
      ArrangeFirst(L, subs[0], moved);
      ArrangeAllFirst(Arrange(L, subs[0], false), subs[1..], moved);
    }
  }

  /** Right-hand material not kept in place opens the first block's
      examples. */
  lemma MovedOpensFirstBlock(subs: seq<Subsection>)
    ensures var bs := LayoutBlocks(subs);
      |Moved(subs)| > 0 ==> |bs| > 0 && |Moved(subs)| <= |bs[0].examples| && bs[0].examples[..|Moved(subs)|] == Moved(subs)
  {
    var moved := Moved(subs);
    var L0 := Layout([], Block([], moved), 1, None);
    assert moved[..|moved|] == moved;
    ArrangeAllFirst(L0, Filter(subs, s => !IsMoved(s)), moved);
    var L := ArrangeAll(L0, Filter(subs, s => !IsMoved(s)), false);
    assert Copies(L.current, 1) == [L.current];
    assert Copies(L.current, 0) == [];
    var bs := LayoutBlocks(subs);
    if |moved| > 0 {
      if IsEmpty(L.current) {
        assert bs == L.finished + [];
        assert |L.finished| > 0;
        assert bs[0] == L.finished[0];
      } else {
        assert bs == L.finished + [L.current];
        assert bs[0] == if |L.finished| > 0 then L.finished[0] else L.current;
      }
    }
  }

  /** As written, a left-hand subsection of one paragraph followed by a
      right-hand subsection kept in place lists the same block twice. */
  lemma LayoutRepeatsBlock(p: Element, code: Element)
    ensures var subs := [Subsection(None, None, [p]), Subsection(Some("right"), Some("here"), [code])];
      && LayoutAsWritten(subs) == [Block([p], [code]), Block([p], [code])]
      && LayoutBlocks(subs) == [Block([p], [code])]
  {
    var subs := [Subsection(None, None, [p]), Subsection(Some("right"), Some("here"), [code])];
    assert !IsMoved(subs[0]) && !IsMoved(subs[1]);
    assert subs[1..][1..] == [];
    assert Moved(subs[1..][1..]) == [];
    assert Moved(subs) == [];
    assert Filter(subs[1..][1..], s => !IsMoved(s)) == [];
    assert Filter(subs, s => !IsMoved(s)) == subs;
    var L0 := Layout([], Block([], []), 1, None);
    var L1 := Arrange(L0, subs[0], true);
    assert L1 == Layout([], Block([p], []), 1, None);
    var L2 := Arrange(L1, subs[1], true);
    assert L2 == Layout([], Block([p], [code]), 2, Some("right"));
    assert subs[1..] == [subs[1]];
    assert ArrangeAll(L2, [subs[1]][1..], true) == L2;
    assert ArrangeAll(L1, [subs[1]], true) == L2;
    assert ArrangeAll(L0, subs, true) == L2;
    assert Copies(Block([p], [code]), 2) == [Block([p], [code]), Block([p], [code])];
    var M1 := Arrange(L0, subs[0], false);
    var M2 := Arrange(M1, subs[1], false);
    assert M2 == Layout([], Block([p], [code]), 1, Some("right"));
    assert ArrangeAll(M2, [subs[1]][1..], false) == M2;
    assert ArrangeAll(M1, [subs[1]], false) == M2;
    assert ArrangeAll(L0, subs, false) == M2;
  }

  // ---------------------------------------------------------------------
  // Sections.

  datatype Section = Section(heading: Option<Node>, blocks: seq<Block>, exclusiveLanguages: Option<seq<string>>)

  /** `processSection`: the opening `h1` sets the default languages (else
      `generic`), the subsections are processed in order, laid out, and the
      languages met become the section's exclusive languages unless
      `generic` is among them. */
  function ProcessSection(dom: seq<Node>): (r: Section)
    ensures r.exclusiveLanguages.Some? ==> "generic" !in r.exclusiveLanguages.value && |r.exclusiveLanguages.value| > 0
  {
    var lang := SectionLang(dom);
    var (subs, langs) := ProcessSubsections(SplitSubsections(SectionBody(dom)), lang, AddAll([], lang));
    Section(if OpensWithH1(dom) then Some(dom[0]) else None, LayoutBlocks(subs),
            if |langs| > 0 && "generic" !in langs then Some(langs) else None)
  }

  predicate OpensWithH1(dom: seq<Node>) {
    |dom| > 0 && IsTag(dom[0], "h1")
  }

  /** The section's languages: its `h1`'s list, else `generic`. */
  function SectionLang(dom: seq<Node>): seq<string> {
    if OpensWithH1(dom) && ProgramLang in dom[0].attribs then Languages(dom[0].attribs[ProgramLang]) else ["generic"]
  }

  function SectionBody(dom: seq<Node>): seq<Node> {
    if OpensWithH1(dom) then dom[1..] else dom
  }

  // Which languages a section collects, read off the page: the words of the
  // `h1`'s list, of every subsection's list, and of every node's own list.

  function OwnWords(body: seq<Node>): seq<string> {
    if |body| == 0 then []
    else (if HasLang(AttrsOf(body[0])) then Split(AttrsOf(body[0]).value[ProgramLang], ' ') else []) + OwnWords(body[1..])
  }

  function SubsectionWords(subs: seq<seq<Node>>, defaults: seq<string>): seq<string> {
    if |subs| == 0 then []
    else SubsectionLang(subs[0], defaults) + OwnWords(Body(subs[0])) + SubsectionWords(subs[1..], defaults)
  }

  function SectionWords(dom: seq<Node>): seq<string> {
    SectionLang(dom) + SubsectionWords(SplitSubsections(SectionBody(dom)), SectionLang(dom))
  }

  lemma {:induction false} RenderAllLanguages(body: seq<Node>, lang: seq<string>, position: Option<string>, langs: seq<string>)
    ensures var r := RenderAll(body, lang, position, langs).1;
            && (forall x :: x in r <==> x in langs || x in OwnWords(body))
            && (Distinct(langs) ==> Distinct(r))
    decreases |body|
  {
    if |body| > 0 {
      var langs1 := Render(body[0], lang, position, langs).1;
      RenderAllLanguages(body[1..], lang, position, langs1);
    }
  }

  lemma {:induction false} SubsectionsLanguages(subs: seq<seq<Node>>, defaults: seq<string>, langs: seq<string>)
    ensures var r := ProcessSubsections(subs, defaults, langs).1;
            && (forall x :: x in r <==> x in langs || x in SubsectionWords(subs, defaults))
            && (Distinct(langs) ==> Distinct(r))
    decreases |subs|
  {
    if |subs| > 0 {
      var dom := subs[0];
      var a := H2Attrs(dom);
      var lang := SubsectionLang(dom, defaults);
      var position := if Position in a then Some(a[Position]) else None;
      RenderAllLanguages(Body(dom), lang, position, AddAll(langs, lang));
      var langs1 := ProcessSubsection(dom, defaults, langs).1;
      SubsectionsLanguages(subs[1..], defaults, langs1);
    }
  }

  /** A section's exclusive languages are exactly the words it names, each
      once, and are present exactly when none of them is `generic`. */
  lemma ExclusiveLanguages(dom: seq<Node>)
    ensures var w := SectionWords(dom);
            var e := ProcessSection(dom).exclusiveLanguages;
            && (e.Some? <==> "generic" !in w)
            && (e.Some? ==> Distinct(e.value) && forall x :: x in e.value <==> x in w)
  {
    var lang := SectionLang(dom);
    var subs := SplitSubsections(SectionBody(dom));
    SubsectionsLanguages(subs, lang, AddAll([], lang));
    var langs := ProcessSubsections(subs, lang, AddAll([], lang)).1;
    assert lang[0] in langs;
  }

  /** Processing subsections never removes a language already collected. */
  lemma LanguagesOnlyGrow(subs: seq<seq<Node>>, defaults: seq<string>, langs: seq<string>)
    ensures forall x :: x in langs ==> x in ProcessSubsections(subs, defaults, langs).1
  {
    SubsectionsLanguages(subs, defaults, langs);
  }

  /** A section whose `h1` names no languages, or names `generic`, is
      generic: it has no exclusive languages. */
  lemma GenericByDefault(dom: seq<Node>)
    requires !(OpensWithH1(dom) && ProgramLang in dom[0].attribs)
          || "generic" in Split(dom[0].attribs[ProgramLang], ' ')
    ensures ProcessSection(dom).exclusiveLanguages == None
  {
    assert SectionLang(dom) == ["generic"];
    ExclusiveLanguages(dom);
  }

  /** `html.onComplete` after the page has been parsed: one section per
      `h1`, plus the leading one when there is something before the first. */
  function ApiSections(nodes: seq<Node>): (r: seq<Section>)
    ensures |r| == |SplitSections(nodes)|
  {
    var groups := SplitSections(nodes);
    seq(|groups|, i requires 0 <= i < |groups| => ProcessSection(groups[i]))
  }
}

=== FILE: attributes.dfy ===
/** `computeAttributes`: the attribute-list text of a topic is cut into
    segments, each segment is classified (`#id`, `.class`, `key='value'`, the
    name of an attribute definition list, or a bare flag), and the attributes
    collected from definition lists (inherited) and from the text itself
    (local) are merged, local on top, with `class` values joined rather than
    replaced.  Definition lists may name other definition lists, so the
    expansion spends `fuel`; `None` means the source would recurse without
    end. */
module Attributes {
  import opened JsCore

  /** An attribute value is a string or JavaScript `null` (a flag). */
  type Attrs = map<string, Option<string>>

  /** Attribute definition lists by name: the attribute text each one stands for. */
  type Definitions = map<string, string>

  // ---------------------------------------------------------------------
  // Segments: the global regex `([^ \t'"]|((['"])(.(?!\3))*.\3))+`.

  predicate IsQuote(c: char) {
    c == '\'' || c == '"'
  }

  predicate IsBlank(c: char) {
    c == ' ' || c == '\t'
  }

  /** The first `q` at or after `j`, provided no line terminator comes
      before it; -1 otherwise. */
  function CloseQuote(s: string, q: char, j: nat): (r: int)
    ensures r == -1 || (j <= r < |s| && s[r] == q)
    decreases |s| - j
  {
    if j >= |s| then -1
    else if s[j] == q then j
    else if IsLineTerminator(s[j]) then -1
    else CloseQuote(s, q, j + 1)
  }

  /** Length of the regex unit that starts at `k`, 0 when none does: one
      character that is neither blank nor a quote, or a quoted run whose
      content is at least one character long, holds no line terminator and
      ends at the first matching quote after its first character. */
  function UnitLen(s: string, k: nat): (n: nat)
    ensures n == 0 || k + n <= |s|
  {
    if k >= |s| then 0
    else if IsQuote(s[k]) then
      if k + 1 < |s| && !IsLineTerminator(s[k + 1]) then
        var c := CloseQuote(s, s[k], k + 2);
        if c == -1 then 0 else c - k + 1
      else 0
    else if IsBlank(s[k]) then 0
    else 1
  }

  /** Where the run of units that starts at `k` ends: the regex's greedy `+`. */
  function RunEnd(s: string, k: nat): (e: nat)
    requires k <= |s|
    ensures k <= e <= |s|
    decreases |s| - k
  {
    var n := UnitLen(s, k);
    if n == 0 then k else RunEnd(s, k + n)
  }

  /** Successive matches of the global regex from `k`: a position where no
      unit starts is skipped, and a match resumes the search at its end. */
  function SegmentsFrom(s: string, k: nat): seq<string>
    requires k <= |s|
    decreases |s| - k
  {
    if k == |s| then []
    else if UnitLen(s, k) == 0 then SegmentsFrom(s, k + 1)
    else
      var e := RunEnd(s, k);
      [s[k..e]] + SegmentsFrom(s, e)
  }

  function Segments(s: string): seq<string> {
    SegmentsFrom(s, 0)
  }

  // Reference definition for text without quotes: the blank-separated words.

  predicate QuoteFree(s: string) {
    forall i :: 0 <= i < |s| ==> !IsQuote(s[i])
  }

  /** The maximal runs of non-blank characters, built one character at a time. */
  function Words(s: string): (r: seq<string>)
    ensures |s| > 0 && !IsBlank(s[0]) ==> |r| > 0
  {
    if |s| == 0 then []
    else if IsBlank(s[0]) then Words(s[1..])
    else if |s| == 1 || IsBlank(s[1]) then [[s[0]]] + Words(s[1..])
    else
      var w := Words(s[1..]);
      [[s[0]] + w[0]] + w[1..]
  }

  /** A stretch of `n` non-blank characters ending at a blank or at the end
      of the text is the first word. */
  lemma {:induction false} WordsRun(t: string, n: nat)
    requires 1 <= n <= |t|
    requires forall i :: 0 <= i < n ==> !IsBlank(t[i])
    requires n == |t| || IsBlank(t[n])
    ensures Words(t) == [t[..n]] + Words(t[n..])
    decreases n
  {
    if n == 1 {
      assert t[..1] == [t[0]];
      assert t[1..] == t[n..];
    } else {
      WordsRun(t[1..], n - 1);
      assert t[1..][..n - 1] == t[1..n];
      assert t[1..][n - 1..] == t[n..];
      assert [t[0]] + t[1..n] == t[..n];
    }
  }

  /** In quote-free text a run ends at the first blank. */
  lemma {:induction false} RunEndPlain(s: string, k: nat)
    requires QuoteFree(s) && k <= |s|
    ensures forall i :: k <= i < RunEnd(s, k) ==> !IsBlank(s[i])
    ensures RunEnd(s, k) == |s| || IsBlank(s[RunEnd(s, k)])
    decreases |s| - k
  {
    if UnitLen(s, k) != 0 {
      RunEndPlain(s, k + 1);
    }
  }

  /** In quote-free text the segments are exactly the blank-separated words. */
  lemma {:induction false} SegmentsArePlainWords(s: string, k: nat)
    requires QuoteFree(s) && k <= |s|
    ensures SegmentsFrom(s, k) == Words(s[k..])
    decreases |s| - k
  {
    if k < |s| {
      assert s[k..][0] == s[k];
      if UnitLen(s, k) == 0 {
        SegmentsArePlainWords(s, k + 1);
        assert s[k..][1..] == s[k + 1..];
      } else {
        var e := RunEnd(s, k);
        SegmentsArePlainWords(s, e);
        FirstWord(s, k);
      }
    }
  }

  lemma FirstWord(s: string, k: nat)
    requires QuoteFree(s) && k < |s| && UnitLen(s, k) != 0
    ensures RunEnd(s, k) > k
    ensures Words(s[k..]) == [s[k..RunEnd(s, k)]] + Words(s[RunEnd(s, k)..])
  {
    var e := RunEnd(s, k);
    RunEndPlain(s, k);
    assert s[k..][..e - k] == s[k..e];
    assert s[k..][e - k..] == s[e..];
    WordsRun(s[k..], e - k);
  }

  /** A quoted run keeps its blanks: a quote followed by a content of at
      least one character with no line terminator, closed by the first
      matching quote after the content's first character, is one unit. */
  lemma QuotedUnit(s: string, k: nat, c: nat)
    requires k + 2 <= c < |s| && IsQuote(s[k]) && s[c] == s[k]
    requires !IsLineTerminator(s[k + 1])
    requires forall j :: k + 2 <= j < c ==> s[j] != s[k] && !IsLineTerminator(s[j])
    ensures UnitLen(s, k) == c - k + 1
  {
    CloseQuoteIs(s, s[k], k + 2, c);
  }

  lemma {:induction false} CloseQuoteIs(s: string, q: char, j: nat, c: nat)
    requires j <= c < |s| && s[c] == q
    requires forall i :: j <= i < c ==> s[i] != q && !IsLineTerminator(s[i])
    ensures CloseQuote(s, q, j) == c
    decreases c - j
  {
    if j < c {
      CloseQuoteIs(s, q, j + 1, c);
    }
  }

  // ---------------------------------------------------------------------
  // Classification of one trimmed segment.

  datatype Segment =
    | IdSeg(id: string)
    | ClassSeg(name: string)
    | NamedSeg(key: string, value: string)
    | OtherSeg

  /** End of the run of characters from `k` that satisfy `IsJsSpace` negated:
      the regex `\S+`. */
  function NonSpaceEnd(s: string, k: nat): (e: nat)
    requires k <= |s|
    ensures k <= e <= |s|
    decreases |s| - k
  {
    if k < |s| && !IsJsSpace(s[k]) then NonSpaceEnd(s, k + 1) else k
  }

  predicate IsNameStart(c: char) {
    c == '_' || 'a' <= c <= 'z' || 'A' <= c <= 'Z'
  }

  predicate IsNameChar(c: char) {
    IsNameStart(c) || '0' <= c <= '9' || c == '-'
  }

  function NameEnd(s: string, k: nat): (e: nat)
    requires k <= |s|
    ensures k <= e <= |s|
    decreases |s| - k
  {
    if k < |s| && IsNameChar(s[k]) then NameEnd(s, k + 1) else k
  }

  /** Characters the key of `key='value'` may not contain. */
  predicate IsKeyStop(c: char) {
    c == '/' || c == '>' || c == '"' || c == '\'' || c == '='
  }

  function KeyEnd(s: string, k: nat): (e: nat)
    requires k <= |s|
    ensures k <= e <= |s|
    decreases |s| - k
  {
    if k < |s| && !IsKeyStop(s[k]) then KeyEnd(s, k + 1) else k
  }

  /** The first `\x02` at or after `k`, or the end of the text: the value
      class `[^\2]` matches every character but that one. */
  function StopAt(s: string, k: nat): (e: nat)
    requires k <= |s|
    ensures k <= e <= |s|
    decreases |s| - k
  {
    if k < |s| && s[k] != '\U{2}' then StopAt(s, k + 1) else k
  }

  /** The last `q` in `s[lo..hi]`, -1 when there is none: the greedy `[^\2]+`
      gives characters back until the closing quote can match. */
  function LastQuote(s: string, q: char, lo: nat, hi: nat): (r: int)
    requires hi <= |s|
    ensures r == -1 || (lo <= r < hi && s[r] == q)
    decreases hi
  {
    if hi <= lo then -1
    else if s[hi - 1] == q then hi - 1
    else LastQuote(s, q, lo, hi - 1)
  }

  /** `^#([\S]+)`: the id runs to the first whitespace. */
  function IdMatch(seg: string): Option<string> {
    if |seg| >= 2 && seg[0] == '#' && !IsJsSpace(seg[1]) then Some(seg[1..NonSpaceEnd(seg, 1)])
    else None
  }

  /** `^\.(-?[_a-zA-Z]+[_a-zA-Z0-9-]*)`: anchored at the start only. */
  function ClassMatch(seg: string): Option<string> {
    if |seg| >= 2 && seg[0] == '.' then
      var p := if seg[1] == '-' then 2 else 1;
      if p < |seg| && IsNameStart(seg[p]) then Some(seg[1..NameEnd(seg, p + 1)]) else None
    else None
  }

  /** `^([^\/>"'=]+)=(['"])([^\2]+)\2`: the value runs to the LAST matching
      quote before any `\x02`, not to the next one. */
  function NamedMatch(seg: string): Option<(string, string)> {
    var n := KeyEnd(seg, 0);
    if 1 <= n && n + 1 < |seg| && seg[n] == '=' && IsQuote(seg[n + 1]) then
      var c := LastQuote(seg, seg[n + 1], n + 3, StopAt(seg, n + 2));
      if c == -1 then None else Some((seg[..n], seg[n + 2..c]))
    else None
  }

  /** The patterns are tried in the source's order. */
  function Classify(seg: string): Segment {
    if IdMatch(seg).Some? then IdSeg(IdMatch(seg).value)
    else if ClassMatch(seg).Some? then ClassSeg(ClassMatch(seg).value)
    else if NamedMatch(seg).Some? then NamedSeg(NamedMatch(seg).value.0, NamedMatch(seg).value.1)
    else OtherSeg
  }

  // Round trips: writing an attribute in one of the three forms and
  // classifying the text gives it back.

  lemma {:induction false} NonSpaceEndAll(s: string, k: nat)
    requires k <= |s|
    requires forall i :: k <= i < |s| ==> !IsJsSpace(s[i])
    ensures NonSpaceEnd(s, k) == |s|
    decreases |s| - k
  {
    if k < |s| {
      NonSpaceEndAll(s, k + 1);
    }
  }

  lemma IdRoundTrip(id: string)
    requires |id| > 0 && forall i :: 0 <= i < |id| ==> !IsJsSpace(id[i])
    ensures Classify("#" + id) == IdSeg(id)
  {
    var seg := "#" + id;
    assert seg[1] == id[0];
    NonSpaceEndAll(seg, 1);
    assert seg[1..] == id;
  }

  /** The class-name pattern in full. */
  predicate IsClassName(c: string) {
    var p := if |c| > 0 && c[0] == '-' then 1 else 0;
    p < |c| && IsNameStart(c[p]) && forall i :: p < i < |c| ==> IsNameChar(c[i])
  }

  lemma {:induction false} NameEndAll(s: string, k: nat)
    requires k <= |s|
    requires forall i :: k <= i < |s| ==> IsNameChar(s[i])
    ensures NameEnd(s, k) == |s|
    decreases |s| - k
  {
    if k < |s| {
      NameEndAll(s, k + 1);
    }
  }

  lemma ClassRoundTrip(name: string)
    requires IsClassName(name)
    ensures Classify("." + name) == ClassSeg(name)
  {
    var seg := "." + name;
    assert seg[1] == name[0];
    var p := if name[0] == '-' then 2 else 1;
    assert seg[p] == name[p - 1];
    NameEndAll(seg, p + 1);
    assert seg[1..] == name;
  }

  lemma {:induction false} KeyEndAt(s: string, k: nat, n: nat)
    requires k <= n < |s| && IsKeyStop(s[n])
    requires forall i :: k <= i < n ==> !IsKeyStop(s[i])
    ensures KeyEnd(s, k) == n
    decreases n - k
  {
    if k < n {
      KeyEndAt(s, k + 1, n);
    }
  }

  lemma {:induction false} StopAtAll(s: string, k: nat)
    requires k <= |s|
    requires forall i :: k <= i < |s| ==> s[i] != '\U{2}'
    ensures StopAt(s, k) == |s|
    decreases |s| - k
  {
    if k < |s| {
      StopAtAll(s, k + 1);
    }
  }

  lemma NamedRoundTrip(key: string, q: char, value: string)
    requires |key| > 0 && key[0] != '#' && key[0] != '.'
    requires forall i :: 0 <= i < |key| ==> !IsKeyStop(key[i])
    requires IsQuote(q) && |value| > 0
    requires forall i :: 0 <= i < |value| ==> value[i] != '\U{2}'
    ensures Classify(key + "=" + [q] + value + [q]) == NamedSeg(key, value)
  {
    var seg := key + "=" + [q] + value + [q];
    var n := |key|;
    assert seg[0] == key[0];
    assert seg[n] == '=' && seg[n + 1] == q;
    assert forall i :: 0 <= i < n ==> seg[i] == key[i];
    KeyEndAt(seg, 0, n);
    assert forall i :: n + 2 <= i < |seg| - 1 ==> seg[i] == value[i - n - 2];
    StopAtAll(seg, n + 2);
    assert LastQuote(seg, q, n + 3, |seg|) == |seg| - 1;
    assert seg[..n] == key && seg[n + 2..|seg| - 1] == value;
  }

  /** The value runs to the last quote: `k='a'b'` is the key `k` with the
      value `a'b`. */
  lemma ValueRunsToLastQuote()
    ensures Classify("k='a'b'") == NamedSeg("k", "a'b")
  {
    NamedRoundTrip("k", '\'', "a'b");
    assert "k" + "=" + ['\''] + "a'b" + ['\''] == "k='a'b'";
  }

  /** The id pattern comes first: `#a.b` is the id `a.b`, not a class. */
  lemma IdBeforeClass()
    ensures Classify("#a.b") == IdSeg("a.b")
  {
    IdRoundTrip("a.b");
    assert "#" + "a.b" == "#a.b";
  }

  // ---------------------------------------------------------------------
  // Merging attribute maps key by key.

  /** Where the keys go: into the inherited bucket while definition lists are
      expanded, or into the result in the final merge.  They differ only in
      how a `class` meets a falsy `class`: the inherited bucket takes the new
      value as it is, the result concatenates it onto "" (so `null` becomes
      the text "null"). */
  datatype Target = Inherited | Final

  /** The value key `k` gets when `v` is assigned into `cur`. */
  function Merged(target: Target, cur: Attrs, k: string, v: Option<string>): Option<string> {
    if k == "class" && k in cur && Truthy(cur[k]) then Some(cur[k].value + " " + JsText(v))
    else if k == "class" && target == Final then Some(JsText(v))
    else v
  }

  /** Every key of `from` assigned into `cur`. */
  function Merge(target: Target, cur: Attrs, from: Attrs): (r: Attrs)
    ensures r.Keys == cur.Keys + from.Keys
    ensures forall k :: k in cur && k !in from ==> r[k] == cur[k]
    ensures forall k :: k in from && k != "class" ==> r[k] == from[k]
  {
    map k | k in cur.Keys + from.Keys :: if k in from then Merged(target, cur, k, from[k]) else cur[k]
  }

  /** The source's loop over `Object.keys(from)`, in the order `keys`. */
  function AssignKeys(target: Target, cur: Attrs, from: Attrs, keys: seq<string>): Attrs
    requires forall i :: 0 <= i < |keys| ==> keys[i] in from
    decreases |keys|
  {
    if |keys| == 0 then cur
    else AssignKeys(target, cur[keys[0] := Merged(target, cur, keys[0], from[keys[0]])], from, keys[1..])
  }

  function Restrict(from: Attrs, keys: set<string>): (r: Attrs)
    ensures r.Keys == from.Keys * keys
  {
    map k | k in from.Keys * keys :: from[k]
  }

  /** Assigning the keys one by one in any order gives the merge. */
  lemma {:induction false} AssignKeysIsMerge(target: Target, cur: Attrs, from: Attrs, keys: seq<string>)
    requires forall i :: 0 <= i < |keys| ==> keys[i] in from
    requires Distinct(keys)
    ensures AssignKeys(target, cur, from, keys) == Merge(target, cur, Restrict(from, set i | 0 <= i < |keys| :: keys[i]))
    decreases |keys|
  {
    var ks := set i | 0 <= i < |keys| :: keys[i];
    if |keys| == 0 {
      assert Restrict(from, ks) == map[];
      assert Merge(target, cur, map[]) == cur;
    } else {
      var k := keys[0];
      var next := cur[k := Merged(target, cur, k, from[k])];
      var rest := set i | 0 <= i < |keys[1..]| :: keys[1..][i];
      assert k !in rest by {
        forall i | 0 <= i < |keys[1..]|
          ensures keys[1..][i] != k
        {
          assert keys[1..][i] == keys[i + 1];
        }
      }
      assert ks == rest + {k} by {
        forall x | x in ks
          ensures x in rest + {k}
        {
          var i :| 0 <= i < |keys| && keys[i] == x;
          if i > 0 {
            assert keys[1..][i - 1] == x;
          }
        }
      }
      AssignKeysIsMerge(target, next, from, keys[1..]);
      MergeStep(target, cur, from, k, rest);
    }
  }

  /** One assignment followed by the merge of the remaining keys. */
  lemma MergeStep(target: Target, cur: Attrs, from: Attrs, k: string, rest: set<string>)
    requires k in from && k !in rest
    ensures Merge(target, cur[k := Merged(target, cur, k, from[k])], Restrict(from, rest))
         == Merge(target, cur, Restrict(from, rest + {k}))
  {
    var next := cur[k := Merged(target, cur, k, from[k])];
    var a := Merge(target, next, Restrict(from, rest));
    var b := Merge(target, cur, Restrict(from, rest + {k}));
    assert a.Keys == b.Keys;
    forall j | j in a.Keys
      ensures a[j] == b[j]
    {
      if j != k && j in from && j in rest {
        assert (j in next) == (j in cur) && (j in next ==> next[j] == cur[j]);
        assert Merged(target, next, j, from[j]) == Merged(target, cur, j, from[j]);
      }
    }
  }

  /** Assigning every key of `from` once, in whatever order `Object.keys`
      lists them, gives the same map. */
  lemma MergeAnyOrder(target: Target, cur: Attrs, from: Attrs, keys: seq<string>)
    requires Distinct(keys)
    requires forall i :: 0 <= i < |keys| ==> keys[i] in from
    requires forall k :: k in from ==> k in keys
    ensures AssignKeys(target, cur, from, keys) == Merge(target, cur, from)
  {
    AssignKeysIsMerge(target, cur, from, keys);
    assert Restrict(from, set i | 0 <= i < |keys| :: keys[i]) == from;
  }

  /** A class already present is never removed: the merged `class` starts
      with it. */
  lemma ClassKept(target: Target, cur: Attrs, from: Attrs)
    requires "class" in cur && Truthy(cur["class"])
    ensures Truthy(Merge(target, cur, from)["class"])
    ensures StartsWith(Merge(target, cur, from)["class"].value, cur["class"].value)
  {
    var r := Merge(target, cur, from);
    if "class" in from {
      assert r["class"].value == cur["class"].value + (" " + JsText(from["class"]));
    }
  }

  // ---------------------------------------------------------------------
  // The two buckets and the recursive expansion.

  /** Attributes gathered from definition lists, and from the text itself. */
  datatype Buckets = Buckets(inherited: Attrs, local: Attrs)

  /** A `.name` segment: appended to the local `class`, space-separated. */
  function AddClass(local: Attrs, name: string): (r: Attrs)
    ensures r.Keys == local.Keys + {"class"}
    ensures forall k :: k in local && k != "class" ==> r[k] == local[k]
    ensures r["class"] == Some(Appended(ClassText(local), name))
  {
    var classes := if "class" in local then OrElse(local["class"], "") else "";
    local["class" := Some(if classes != "" then classes + " " + name else name)]
  }

  /** `localAttributes["class"] || ""`. */
  function ClassText(local: Attrs): string {
    if "class" in local then OrElse(local["class"], "") else ""
  }

  /** One trimmed segment.  A segment that is none of the three patterns
      names a definition list when the list exists with non-empty text, and
      is a flag (value `null`) otherwise. */
  function ApplySegment(b: Buckets, seg: string, defs: Definitions, fuel: nat): Option<Buckets>
    decreases fuel, 0
  {
    if seg == "" then Some(b)
    else
      match Classify(seg)
      case IdSeg(id) => Some(b.(local := b.local["id" := Some(id)]))
      case ClassSeg(name) => Some(b.(local := AddClass(b.local, name)))
      case NamedSeg(key, value) => Some(b.(local := b.local[key := Some(value)]))
      case OtherSeg =>
        if seg in defs && defs[seg] != "" then
          if fuel == 0 then None
          else
            var expanded := ComputeAttributes([defs[seg]], defs, fuel - 1);
            if expanded.None? then None
            else Some(b.(inherited := Merge(Inherited, b.inherited, expanded.value)))
        else Some(b.(local := b.local[seg := None]))
  }

  function ApplySegments(b: Buckets, segs: seq<string>, defs: Definitions, fuel: nat): Option<Buckets>
    decreases fuel, 1, |segs|
  {
    if |segs| == 0 then Some(b)
    else
      var next := ApplySegment(b, Trim(segs[0]), defs, fuel);
      if next.None? then None else ApplySegments(next.value, segs[1..], defs, fuel)
  }

  function ApplyLists(b: Buckets, lists: seq<string>, defs: Definitions, fuel: nat): Option<Buckets>
    decreases fuel, 2, |lists|
  {
    if |lists| == 0 then Some(b)
    else
      var next := ApplySegments(b, Segments(lists[0]), defs, fuel);
      if next.None? then None else ApplyLists(next.value, lists[1..], defs, fuel)
  }

  /** `computeAttributes(lists, defs)`: inherited attributes first, local
      ones merged on top. */
  function ComputeAttributes(lists: seq<string>, defs: Definitions, fuel: nat): Option<Attrs>
    decreases fuel, 3
  {
    var b := ApplyLists(Buckets(map[], map[]), lists, defs, fuel);
    if b.None? then None else Some(Merge(Final, b.value.inherited, b.value.local))
  }

  // More fuel never changes a finished expansion.

  lemma {:induction false} SegmentFuel(b: Buckets, seg: string, defs: Definitions, fuel: nat, more: nat)
    requires fuel <= more && ApplySegment(b, seg, defs, fuel).Some?
    ensures ApplySegment(b, seg, defs, more) == ApplySegment(b, seg, defs, fuel)
    decreases fuel, 0
  {
    if seg != "" && Classify(seg).OtherSeg? && seg in defs && defs[seg] != "" && fuel > 0 {
      ComputeFuel([defs[seg]], defs, fuel - 1, more - 1);
    }
  }

  lemma {:induction false} SegmentsFuel(b: Buckets, segs: seq<string>, defs: Definitions, fuel: nat, more: nat)
    requires fuel <= more && ApplySegments(b, segs, defs, fuel).Some?
    ensures ApplySegments(b, segs, defs, more) == ApplySegments(b, segs, defs, fuel)
    decreases fuel, 1, |segs|
  {
    if |segs| > 0 {
      SegmentFuel(b, Trim(segs[0]), defs, fuel, more);
      SegmentsFuel(ApplySegment(b, Trim(segs[0]), defs, fuel).value, segs[1..], defs, fuel, more);
    }
  }

  lemma {:induction false} ListsFuel(b: Buckets, lists: seq<string>, defs: Definitions, fuel: nat, more: nat)
    requires fuel <= more && ApplyLists(b, lists, defs, fuel).Some?
    ensures ApplyLists(b, lists, defs, more) == ApplyLists(b, lists, defs, fuel)
    decreases fuel, 2, |lists|
  {
    if |lists| > 0 {
      SegmentsFuel(b, Segments(lists[0]), defs, fuel, more);
      ListsFuel(ApplySegments(b, Segments(lists[0]), defs, fuel).value, lists[1..], defs, fuel, more);
    }
  }

  lemma {:induction false} ComputeFuel(lists: seq<string>, defs: Definitions, fuel: nat, more: nat)
    requires fuel <= more && ComputeAttributes(lists, defs, fuel).Some?
    ensures ComputeAttributes(lists, defs, more) == ComputeAttributes(lists, defs, fuel)
    decreases fuel, 3
  {
    ListsFuel(Buckets(map[], map[]), lists, defs, fuel, more);
  }

  // ---------------------------------------------------------------------
  // Consequences.

  /** Text with no blank and no quote is a single segment. */
  lemma OneWord(w: string)
    requires |w| > 0 && QuoteFree(w)
    requires forall i :: 0 <= i < |w| ==> !IsBlank(w[i])
    ensures Segments(w) == [w]
  {
    SegmentsArePlainWords(w, 0);
    assert w[0..] == w;
    WordsRun(w, |w|);
    assert w[..|w|] == w && w[|w|..] == [];
  }

  /** A definition list whose text is its own name expands for ever. */
  lemma {:induction false} SelfReferenceDiverges(name: string, defs: Definitions, fuel: nat)
    requires Segments(name) == [name] && Trim(name) == name && name != ""
    requires Classify(name) == OtherSeg
    requires name in defs && defs[name] == name
    ensures ComputeAttributes([name], defs, fuel) == None
    decreases fuel
  {
    var empty := Buckets(map[], map[]);
    assert [name][1..] == [];
    if fuel > 0 {
      SelfReferenceDiverges(name, defs, fuel - 1);
    }
    assert ApplySegment(empty, name, defs, fuel) == None;
    assert ApplySegments(empty, Segments(name), defs, fuel) == None;
    assert ApplyLists(empty, [name], defs, fuel) == None;
  }

  /** A bare word that names no definition list is a flag with value `null`;
      the final merge turns a `class` flag into the text "null". */
  lemma FlagIsNull(w: string, defs: Definitions, fuel: nat)
    requires Segments(w) == [w] && Trim(w) == w && w != ""
    requires Classify(w) == OtherSeg
    requires w !in defs || defs[w] == ""
    ensures ComputeAttributes([w], defs, fuel) == Some(map[w := if w == "class" then Some("null") else None])
  {
    var empty := Buckets(map[], map[]);
    assert [w][1..] == [];
    var b := Buckets(map[], map[w := None]);
    assert ApplySegment(empty, w, defs, fuel) == Some(b);
    assert ApplySegments(b, [], defs, fuel) == Some(b);
    assert ApplySegments(empty, Segments(w), defs, fuel) == Some(b);
    assert ApplyLists(b, [], defs, fuel) == Some(b);
    assert ApplyLists(empty, [w], defs, fuel) == Some(b);
    assert Merge(Final, map[], map[w := None]) == map[w := if w == "class" then Some("null") else None];
  }

  /** What the final merge promises about a finished expansion: every key of
      either bucket is present, a local value other than `class` wins, a key
      only inherited keeps its inherited value, and an inherited class is
      kept at the front of the merged one. */
  lemma LocalOverInherited(lists: seq<string>, defs: Definitions, fuel: nat)
    requires ApplyLists(Buckets(map[], map[]), lists, defs, fuel).Some?
    ensures var b := ApplyLists(Buckets(map[], map[]), lists, defs, fuel).value;
            var r := ComputeAttributes(lists, defs, fuel).value;
            && r.Keys == b.inherited.Keys + b.local.Keys
            && (forall k :: k in b.local && k != "class" ==> r[k] == b.local[k])
            && (forall k :: k in b.inherited && k !in b.local ==> r[k] == b.inherited[k])
            && ("class" in b.inherited && Truthy(b.inherited["class"]) ==>
                  StartsWith(r["class"].value, b.inherited["class"].value))
  {
    var b := ApplyLists(Buckets(map[], map[]), lists, defs, fuel).value;
    if "class" in b.inherited && Truthy(b.inherited["class"]) {
      ClassKept(Final, b.inherited, b.local);
    }
  }

  /** Two plain words separated by one blank are two segments. */
  lemma TwoWords(a: string, b: string)
    requires |a| > 0 && |b| > 0 && QuoteFree(a) && QuoteFree(b)
    requires forall i :: 0 <= i < |a| ==> !IsBlank(a[i])
    requires forall i :: 0 <= i < |b| ==> !IsBlank(b[i])
    ensures Segments(a + " " + b) == [a, b]
  {
    var t := a + " " + b;
    assert QuoteFree(t) by {
      forall i | 0 <= i < |t|
        ensures !IsQuote(t[i])
      {
        if i > |a| {
          assert t[i] == b[i - |a| - 1];
        }
      }
    }
    SegmentsArePlainWords(t, 0);
    assert t[0..] == t;
    assert forall i :: 0 <= i < |a| ==> t[i] == a[i];
    WordsRun(t, |a|);
    assert t[..|a|] == a && t[|a|..] == " " + b;
    assert (" " + b)[1..] == b;
    WordsRun(b, |b|);
    assert b[..|b|] == b && b[|b|..] == [];
  }

  /** The list `.n` on its own is the class `n`. */
  lemma NoteListIsClass(defs: Definitions)
    requires defs == map["note" := ".n"]
    ensures ComputeAttributes([".n"], defs, 0) == Some(map["class" := Some("n")])
  {
    var empty := Buckets(map[], map[]);
    ClassRoundTrip("n");
    assert "." + "n" == ".n";
    OneWord(".n");
    assert Trim(".n") == ".n";
    var b := Buckets(map[], map["class" := Some("n")]);
    assert ApplySegment(empty, ".n", defs, 0) == Some(b);
    assert ApplySegments(empty, Segments(".n"), defs, 0) == Some(b);
    assert ApplyLists(empty, [".n"], defs, 0) == Some(b);
    assert Merge(Final, map[], map["class" := Some("n")]) == map["class" := Some("n")];
  }

  /** A definition list and a local class: `note .m` where `note` stands for
      `.n` gives the class `n m`, the inherited class first. */
  lemma DefinitionThenClass()
    ensures ComputeAttributes(["note .m"], map["note" := ".n"], 1) == Some(map["class" := Some("n m")])
  {
    var defs := map["note" := ".n"];
    var empty := Buckets(map[], map[]);
    var b1 := Buckets(map["class" := Some("n")], map[]);
    var b2 := Buckets(map["class" := Some("n")], map["class" := Some("m")]);
    NoteSegments();
    NoteStep(defs);
    ClassStep(b1, defs);
    assert ApplySegments(empty, Segments("note .m"), defs, 1) == Some(b2);
    assert ApplyLists(empty, ["note .m"], defs, 1) == Some(b2);
    MergeTwoClasses("n", "m");
    assert ComputeAttributes(["note .m"], defs, 1) == Some(Merge(Final, b2.inherited, b2.local));
    assert "n" + " " + "m" == "n m";
  }

  lemma NoteSegments()
    ensures Segments("note .m") == ["note", ".m"]
  {
    TwoWords("note", ".m");
    assert "note" + " " + ".m" == "note .m";
  }

  lemma NoteStep(defs: Definitions)
    requires defs == map["note" := ".n"]
    ensures ApplySegment(Buckets(map[], map[]), Trim("note"), defs, 1)
         == Some(Buckets(map["class" := Some("n")], map[]))
  {
    NoteListIsClass(defs);
    assert Trim("note") == "note";
    assert Classify("note") == OtherSeg;
    assert Merge(Inherited, map[], map["class" := Some("n")]) == map["class" := Some("n")];
  }

  lemma ClassStep(b1: Buckets, defs: Definitions)
    requires b1 == Buckets(map["class" := Some("n")], map[])
    ensures ApplySegment(b1, Trim(".m"), defs, 1)
         == Some(Buckets(map["class" := Some("n")], map["class" := Some("m")]))
  {
    ClassRoundTrip("m");
    assert "." + "m" == ".m";
    assert Trim(".m") == ".m";
  }

  lemma MergeTwoClasses(inherited: string, local: string)
    requires inherited != ""
    ensures Merge(Final, map["class" := Some(inherited)], map["class" := Some(local)])
         == map["class" := Some(inherited + " " + local)]
  {
    var r := Merge(Final, map["class" := Some(inherited)], map["class" := Some(local)]);
    assert r.Keys == {"class"};
    assert r["class"] == Some(inherited + " " + local);
  }

  // ---------------------------------------------------------------------
  // Definition lists and classes for every input.

  /** A segment that names a definition list stands for the list's text:
      expanding it gives what computing the attributes of that text gives,
      with one unit of fuel spent on the expansion. */
  lemma ReferenceIsText(name: string, defs: Definitions, fuel: nat)
    requires Segments(name) == [name] && Trim(name) == name
    requires name != "" && Classify(name).OtherSeg? && name in defs && defs[name] != ""
    ensures ComputeAttributes([name], defs, fuel + 1) == ComputeAttributes([defs[name]], defs, fuel)
  {
    var empty := Buckets(map[], map[]);
    assert [name][1..] == [];
    var x := ComputeAttributes([defs[name]], defs, fuel);
    if x.Some? {
      var b := Buckets(Merge(Inherited, map[], x.value), map[]);
      assert Merge(Inherited, map[], x.value) == x.value;
      assert ApplySegment(empty, name, defs, fuel + 1) == Some(b);
      assert ApplySegments(b, [], defs, fuel + 1) == Some(b);
      assert ApplySegments(empty, Segments(name), defs, fuel + 1) == Some(b);
      assert ApplyLists(b, [], defs, fuel + 1) == Some(b);
      assert ApplyLists(empty, [name], defs, fuel + 1) == Some(b);
      assert Merge(Final, x.value, map[]) == x.value;
    } else {
      assert ApplySegment(empty, name, defs, fuel + 1) == None;
      assert ApplySegments(empty, Segments(name), defs, fuel + 1) == None;
    }
  }

  /** The segments `.c1 ... .cn`. */
  function Dotted(names: seq<string>): (r: seq<string>)
    ensures |r| == |names| && forall i :: 0 <= i < |names| ==> r[i] == "." + names[i]
  {
    if |names| == 0 then [] else ["." + names[0]] + Dotted(names[1..])
  }

  lemma TrimPlain(s: string)
    requires |s| > 0 && !IsJsSpace(s[0]) && !IsJsSpace(s[|s| - 1])
    ensures Trim(s) == s
  {
  }

  /** A `.name` segment as the segment loop sees it. */
  lemma ClassSegmentStep(b: Buckets, name: string, defs: Definitions, fuel: nat)
    requires IsClassName(name)
    ensures ApplySegment(b, Trim("." + name), defs, fuel) == Some(b.(local := AddClass(b.local, name)))
  {
    var seg := "." + name;
    assert seg[|seg| - 1] == name[|name| - 1];
    TrimPlain(seg);
    ClassRoundTrip(name);
  }

  /** `c` followed by `s`, blank-separated, or `s` alone when `c` is empty. */
  function Appended(c: string, s: string): string {
    if c != "" then c + " " + s else s
  }

  lemma AppendedTwice(c: string, n: string, rest: string)
    requires n != ""
    ensures Appended(Appended(c, n), rest) == Appended(c, n + " " + rest)
  {
    if c != "" {
      assert (c + " " + n) + " " + rest == c + " " + (n + " " + rest);
    }
  }

  /** The first `.name` segment of a run, as the segment loop sees it. */
  lemma ClassesFirst(b: Buckets, names: seq<string>, defs: Definitions, fuel: nat)
    requires |names| > 0 && IsClassName(names[0])
    ensures ApplySegments(b, Dotted(names), defs, fuel)
         == ApplySegments(b.(local := AddClass(b.local, names[0])), Dotted(names[1..]), defs, fuel)
  {
    ClassSegmentStep(b, names[0], defs, fuel);
    assert Dotted(names)[1..] == Dotted(names[1..]);
  }

  /** The segments `.c1 ... .cn` append `c1 ... cn` to the local class,
      blank-separated, and touch nothing else. */
  lemma {:induction false} ClassesAppend(b: Buckets, names: seq<string>, defs: Definitions, fuel: nat)
    requires |names| > 0 && forall i :: 0 <= i < |names| ==> IsClassName(names[i])
    ensures var r := ApplySegments(b, Dotted(names), defs, fuel);
            && r.Some?
            && r.value.inherited == b.inherited
            && r.value.local.Keys == b.local.Keys + {"class"}
            && (forall k :: k in b.local && k != "class" ==> r.value.local[k] == b.local[k])
            && r.value.local["class"] == Some(Appended(ClassText(b.local), Join(names, " ")))
    decreases |names|
  {
    ClassesFirst(b, names, defs, fuel);
    var b1 := b.(local := AddClass(b.local, names[0]));
    assert ClassText(b1.local) == Appended(ClassText(b.local), names[0]);
    if |names| == 1 {
      assert Dotted(names[1..]) == [];
      assert ApplySegments(b1, [], defs, fuel) == Some(b1);
    } else {
      ClassesAppend(b1, names[1..], defs, fuel);
      assert Join(names, " ") == names[0] + " " + Join(names[1..], " ");
      AppendedTwice(ClassText(b.local), names[0], Join(names[1..], " "));
    }
  }

  /** Words joined by single blanks are cut back into those words. */
  lemma {:induction false} WordsJoin(ws: seq<string>)
    requires |ws| > 0
    requires forall i :: 0 <= i < |ws| ==> |ws[i]| > 0 && forall j :: 0 <= j < |ws[i]| ==> !IsBlank(ws[i][j])
    ensures Words(Join(ws, " ")) == ws
    decreases |ws|
  {
    var t := Join(ws, " ");
    var n := |ws[0]|;
    if |ws| == 1 {
      WordsRun(t, n);
      assert t[..n] == ws[0] && t[n..] == [];
    } else {
      var rest := Join(ws[1..], " ");
      assert t == ws[0] + " " + rest;
      assert forall i :: 0 <= i < n ==> t[i] == ws[0][i];
      WordsRun(t, n);
      assert t[..n] == ws[0] && t[n..] == " " + rest;
      assert (" " + rest)[1..] == rest;
      WordsJoin(ws[1..]);
      assert ws == [ws[0]] + ws[1..];
    }
  }

  lemma {:induction false} JoinQuoteFree(ws: seq<string>)
    requires forall i :: 0 <= i < |ws| ==> QuoteFree(ws[i])
    ensures QuoteFree(Join(ws, " "))
    decreases |ws|
  {
    if |ws| > 1 {
      JoinQuoteFree(ws[1..]);
      var t := Join(ws, " ");
      var rest := Join(ws[1..], " ");
      assert t == ws[0] + " " + rest;
      forall i | 0 <= i < |t|
        ensures !IsQuote(t[i])
      {
        if i > |ws[0]| {
          assert t[i] == rest[i - |ws[0]| - 1];
        } else if i < |ws[0]| {
          assert t[i] == ws[0][i];
        }
      }
    }
  }

  /** Quote-free words joined by single blanks are exactly the segments. */
  lemma SegmentsJoin(ws: seq<string>)
    requires |ws| > 0
    requires forall i :: 0 <= i < |ws| ==> |ws[i]| > 0 && QuoteFree(ws[i]) && forall j :: 0 <= j < |ws[i]| ==> !IsBlank(ws[i][j])
    ensures Segments(Join(ws, " ")) == ws
  {
    var t := Join(ws, " ");
    JoinQuoteFree(ws);
    SegmentsArePlainWords(t, 0);
    assert t[0..] == t;
    WordsJoin(ws);
  }

  lemma DottedWords(names: seq<string>)
    requires forall i :: 0 <= i < |names| ==> IsClassName(names[i])
    ensures forall i :: 0 <= i < |names| ==>
              var w := Dotted(names)[i];
              |w| > 0 && QuoteFree(w) && forall j :: 0 <= j < |w| ==> !IsBlank(w[j])
  {
    forall i, j | 0 <= i < |names| && 0 <= j < |Dotted(names)[i]|
      ensures !IsBlank(Dotted(names)[i][j]) && !IsQuote(Dotted(names)[i][j])
    {
      if j > 0 {
        assert Dotted(names)[i][j] == names[i][j - 1];
      }
    }
  }

  /** `.c1 .c2 ... .cn` is the class `c1 c2 ... cn`. */
  lemma ClassList(names: seq<string>, defs: Definitions, fuel: nat)
    requires |names| > 0 && forall i :: 0 <= i < |names| ==> IsClassName(names[i])
    ensures ComputeAttributes([Join(Dotted(names), " ")], defs, fuel) == Some(map["class" := Some(Join(names, " "))])
  {
    var empty := Buckets(map[], map[]);
    DottedWords(names);
    SegmentsJoin(Dotted(names));
    ClassesAppend(empty, names, defs, fuel);
    var b := ApplySegments(empty, Dotted(names), defs, fuel).value;
    assert b.local == map["class" := Some(Join(names, " "))];
    assert [Join(Dotted(names), " ")][1..] == [];
    assert ApplyLists(b, [], defs, fuel) == Some(b);
    assert ApplyLists(empty, [Join(Dotted(names), " ")], defs, fuel) == Some(b);
    assert Merge(Final, map[], b.local) == b.local;
  }

  /** A reference segment moves the list's attributes into the inherited
      bucket. */
  lemma ReferenceStep(name: string, defs: Definitions, fuel: nat, a: Attrs)
    requires name != "" && Trim(name) == name && Classify(name).OtherSeg? && name in defs && defs[name] != ""
    requires ComputeAttributes([defs[name]], defs, fuel) == Some(a)
    ensures ApplySegment(Buckets(map[], map[]), Trim(name), defs, fuel + 1) == Some(Buckets(a, map[]))
  {
    assert Merge(Inherited, map[], a) == a;
  }

  /** A definition list followed by local classes: the expanded attributes
      are kept, and the local classes come after the inherited class. */
  lemma ReferenceThenClasses(name: string, names: seq<string>, defs: Definitions, fuel: nat, a: Attrs)
    requires |name| > 0 && QuoteFree(name) && forall j :: 0 <= j < |name| ==> !IsBlank(name[j])
    requires Trim(name) == name && Classify(name).OtherSeg? && name in defs && defs[name] != ""
    requires |names| > 0 && forall i :: 0 <= i < |names| ==> IsClassName(names[i])
    requires ComputeAttributes([defs[name]], defs, fuel) == Some(a)
    ensures var r := ComputeAttributes([Join([name] + Dotted(names), " ")], defs, fuel + 1);
            && r.Some?
            && r.value.Keys == a.Keys + {"class"}
            && (forall k :: k in a && k != "class" ==> r.value[k] == a[k])
            && r.value["class"] == Some(if "class" in a && Truthy(a["class"])
                                        then a["class"].value + " " + Join(names, " ")
                                        else Join(names, " "))
  {
    var empty := Buckets(map[], map[]);
    var ws := [name] + Dotted(names);
    DottedWords(names);
    SegmentsJoin(ws);
    var text := Join(ws, " ");
    var b1 := Buckets(a, map[]);
    ReferenceStep(name, defs, fuel, a);
    assert ws[1..] == Dotted(names);
    assert ApplySegments(empty, ws, defs, fuel + 1) == ApplySegments(b1, Dotted(names), defs, fuel + 1);
    ClassesAppend(b1, names, defs, fuel + 1);
    var b := ApplySegments(b1, Dotted(names), defs, fuel + 1).value;
    assert b.local == map["class" := Some(Join(names, " "))];
    assert [text][1..] == [];
    assert ApplyLists(b, [], defs, fuel + 1) == Some(b);
    assert ApplyLists(empty, [text], defs, fuel + 1) == Some(b);
  }
}

=== FILE: extensions.dfy ===
/** The extension registry and dispatcher: `addExtension` files the
    functions of an extension object under their dotted path, in arrays that
    keep registration order, and `invokeExtensions` walks a dotted id to such
    an array and threads a string through its handlers.  Handlers are
    opaque values of type `H`; what a handler returns for a string is the
    parameter `run`. */
module Extensions {
  import opened JsCore

  /** What a handler returns: a string, or anything else. */
  datatype Reply = Text(s: string) | NotText

  /** A value reachable from the extensions object: a function, an object
      (with `handlers` when it is an array of handlers; its named properties
      are `children`), or some other value with its truthiness. */
  datatype Ext<H> =
    | Fn(h: H)
    | Node(handlers: Option<seq<H>>, children: map<string, Ext<H>>)
    | Scalar(truthy: bool)

  /** An extension object as `require` returns it: properties in
      `Object.keys` order. */
  datatype Def<H> =
    | DefFn(h: H)
    | DefObj(props: seq<(string, Def<H>)>)
    | DefNull
    | DefScalar

  function EmptyObject<H>(): Ext<H> {
    Node(None, map[])
  }

  predicate IsTruthy<H>(e: Option<Ext<H>>) {
    e.Some? && !(e.value.Scalar? && !e.value.truthy)
  }

  /** `e[k]`: a named property of an object; functions and scalars are
      given none. */
  function Child<H>(e: Ext<H>, k: string): Option<Ext<H>> {
    if e.Node? && k in e.children then Some(e.children[k]) else None
  }

  /** A registry as `addExtension` builds it: objects all the way down. */
  predicate IsRegistry<H>(e: Ext<H>) {
    match e
    case Node(_, children) => forall k :: k in children ==> IsRegistry(children[k])
    case _ => false
  }

  // ---------------------------------------------------------------------
  // addExtension

  /** The outcome of `addExtension`: the registry as far as it got, and
      whether a TypeError ended it. */
  datatype Added<H> = Added(reg: Ext<H>, failed: bool)

  /** `addExtension(reg, d)`.  A function under a key other than `init` is
      pushed onto the array at that key, created when missing; an object is
      merged into the object at that key, created when missing; other
      values are ignored.  `Object.keys(null)` and `push` on something that
      is not an array raise a TypeError, which ends the registration with
      the changes made so far in place. */
  function AddExtension<H>(reg: Ext<H>, d: Def<H>): (r: Added<H>)
    decreases d, 2
  {
    match d
    case DefNull => Added(reg, true)
    case DefObj(props) => AddProps(reg, d, 0)
    case _ => Added(reg, false)
  }

  function AddProps<H>(reg: Ext<H>, d: Def<H>, i: nat): (r: Added<H>)
    requires d.DefObj? && i <= |d.props|
    decreases d, 1, |d.props| - i
  {
    if i == |d.props| then Added(reg, false)
    else
      var (key, v) := d.props[i];
      var cur := Child(reg, key);
      var step :=
        if v.DefFn? && key != "init" then AddHandler(reg, key, cur, v.h)
        else if v.DefObj? || v.DefNull? then AddGroup(reg, key, cur, v)
        else Added(reg, false);
      if step.failed then step else AddProps(step.reg, d, i + 1)
  }

  /** `reg[key] = reg[key] || []; reg[key].push(h)`. */
  function AddHandler<H>(reg: Ext<H>, key: string, cur: Option<Ext<H>>, h: H): Added<H> {
    if !reg.Node? then Added(reg, true)
    else if !IsTruthy(cur) then Added(reg.(children := reg.children[key := Node(Some([h]), map[])]), false)
    else if cur.value.Node? && cur.value.handlers.Some? then
      Added(reg.(children := reg.children[key := cur.value.(handlers := Some(cur.value.handlers.value + [h]))]), false)
    else Added(reg, true)
  }

  /** `reg[key] = reg[key] || {}; addExtension(reg[key], v)`. */
  function AddGroup<H>(reg: Ext<H>, key: string, cur: Option<Ext<H>>, v: Def<H>): Added<H>
    decreases v, 3
  {
    if !reg.Node? then Added(reg, true)
    else
      var target := if IsTruthy(cur) then cur.value else EmptyObject();
      var inner := AddExtension(target, v);
      Added(reg.(children := reg.children[key := inner.reg]), inner.failed)
  }

  /** `addExtension` keeps a registry a registry. */
  lemma {:induction false} AddKeepsRegistry<H>(reg: Ext<H>, d: Def<H>)
    requires IsRegistry(reg)
    ensures IsRegistry(AddExtension(reg, d).reg)
    decreases d, 2
  {
    if d.DefObj? {
      PropsKeepRegistry(reg, d, 0);
    }
  }

  lemma {:induction false} PropsKeepRegistry<H>(reg: Ext<H>, d: Def<H>, i: nat)
    requires IsRegistry(reg) && d.DefObj? && i <= |d.props|
    ensures IsRegistry(AddProps(reg, d, i).reg)
    decreases d, 1, |d.props| - i
  {
    if i < |d.props| {
      var (key, v) := d.props[i];
      var cur := Child(reg, key);
      if v.DefFn? && key != "init" {
        var step := AddHandler(reg, key, cur, v.h);
        assert IsRegistry(step.reg);
        if !step.failed {
          PropsKeepRegistry(step.reg, d, i + 1);
        }
      } else if v.DefObj? || v.DefNull? {
        GroupKeepsRegistry(reg, key, cur, v);
        var step := AddGroup(reg, key, cur, v);
        if !step.failed {
          PropsKeepRegistry(step.reg, d, i + 1);
        }
      } else {
        PropsKeepRegistry(reg, d, i + 1);
      }
    }
  }

  lemma {:induction false} GroupKeepsRegistry<H>(reg: Ext<H>, key: string, cur: Option<Ext<H>>, v: Def<H>)
    requires IsRegistry(reg) && cur == Child(reg, key)
    ensures IsRegistry(AddGroup(reg, key, cur, v).reg)
    decreases v, 3
  {
    var target := if IsTruthy(cur) then cur.value else EmptyObject();
    AddKeepsRegistry(target, v);
  }

  /** The value at a dotted path of the registry. */
  function At<H>(e: Ext<H>, path: seq<string>): Option<Ext<H>>
    decreases |path|
  {
    if |path| == 0 then Some(e)
    else
      match Child(e, path[0])
      case None => None
      case Some(c) => At(c, path[1..])
  }

  /** The handlers filed at a place: none when nothing is there. */
  function HandlersOf<H>(e: Option<Ext<H>>): seq<H> {
    if e.Some? && e.value.Node? && e.value.handlers.Some? then e.value.handlers.value else []
  }

  /** The extension object `{p0: {p1: ... {pn: h}}}`. */
  function PathDef<H>(path: seq<string>, h: H): Def<H>
    requires |path| > 0
    decreases |path|
  {
    if |path| == 1 then DefObj([(path[0], DefFn(h))])
    else DefObj([(path[0], PathDef(path[1..], h))])
  }

  /** Registering a function under a dotted path appends it to the handlers
      already there; it fails exactly when a plain object (not an array)
      already sits at that path.  Other top-level keys are left alone. */
  lemma {:induction false} AddAtPath<H>(reg: Ext<H>, path: seq<string>, h: H)
    requires IsRegistry(reg) && |path| > 0 && path[|path| - 1] != "init"
    ensures var r := AddExtension(reg, PathDef(path, h));
            && (r.failed <==> (At(reg, path).Some? && At(reg, path).value.Node? && At(reg, path).value.handlers.None?))
            && (!r.failed ==> HandlersOf(At(r.reg, path)) == HandlersOf(At(reg, path)) + [h])
            && (forall k :: k != path[0] ==> Child(r.reg, k) == Child(reg, k))
    decreases |path|
  {
    var d := PathDef(path, h);
    var key := path[0];
    var cur := Child(reg, key);
    if |path| == 1 {
      var step := AddHandler(reg, key, cur, h);
      assert AddExtension(reg, d) == (if step.failed then step else AddProps(step.reg, d, 1));
      assert path[1..] == [];
    } else {
      var v := PathDef(path[1..], h);
      var target := if IsTruthy(cur) then cur.value else EmptyObject();
      AddAtPath(target, path[1..], h);
      var step := AddGroup(reg, key, cur, v);
      assert AddExtension(reg, d) == (if step.failed then step else AddProps(step.reg, d, 1));
      assert path[1..][|path[1..]| - 1] == path[|path| - 1];
      if cur.None? {
        EmptyHasNothing<H>(path[1..]);
      }
    }
  }

  lemma EmptyHasNothing<H>(path: seq<string>)
    requires |path| > 0
    ensures At(EmptyObject<H>(), path) == None
  {
  }

  // ---------------------------------------------------------------------
  // invokeExtensions

  /** The line break the text ends with, as `/(\r\n|\r|\n)$/` finds it;
      "" when there is none. */
  function EndNewline(s: string): (nl: string)
    ensures nl == "" || EndsWith(s, nl)
    ensures nl == "" <==> !(EndsWith(s, "\n") || EndsWith(s, "\r"))
  {
    if EndsWith(s, "\r\n") then "\r\n"
    else if EndsWith(s, "\r") then "\r"
    else if EndsWith(s, "\n") then "\n"
    else ""
  }

  /** Puts back the line break the input ended with, unless the text is
      empty (a veto) or already ends with it. */
  function RestoreNewline(s: string, nl: string): (r: string)
    ensures r == "" <==> s == ""
    ensures r == s || r == s + nl
    ensures s != "" && nl != "" ==> EndsWith(r, nl)
    ensures EndsWith(s, nl) ==> r == s
  {
    if s != "" && nl != "" && !EndsWith(s, nl) then s + nl else s
  }

  /** The loop `for (i = 0; current && i < segments.length; i++) current =
      current[segments[i]]`: `None` is undefined. */
  function Walk<H>(cur: Option<Ext<H>>, keys: seq<string>): Option<Ext<H>>
    decreases |keys|
  {
    if |keys| == 0 || !IsTruthy(cur) then cur
    else Walk(Child(cur.value, keys[0]), keys[1..])
  }

  /** An array gives its handlers, a function is a list of one, anything
      else gives none. */
  function HandlerList<H>(e: Option<Ext<H>>): seq<H> {
    if !IsTruthy(e) then []
    else if e.value.Fn? then [e.value.h]
    else HandlersOf(e)
  }

  /** Handlers in order, each given the current text; a string reply
      replaces it, any other reply is ignored. */
  function ApplyAll<H>(hs: seq<H>, s: string, run: (H, string) -> Reply): string
    decreases |hs|
  {
    if |hs| == 0 then s
    else
      var next := match run(hs[0], s) case Text(t) => t case NotText => s;
      ApplyAll(hs[1..], next, run)
  }

  /** `invokeExtensions(extensions, id, s, data)`; `run` stands for calling a
      handler with `data`. */
  function InvokeExtensions<H>(extensions: Option<Ext<H>>, id: string, s: string, run: (H, string) -> Reply): (r: string)
    ensures !IsTruthy(extensions) ==> r == s
    ensures EndNewline(s) != "" && r != "" ==> EndsWith(r, EndNewline(s))
  {
    if !IsTruthy(extensions) then s
    else
      var hs := HandlerList(Walk(extensions, Split(id, '.')));
      RestoreNewline(ApplyAll(hs, s, run), EndNewline(s))
  }

  /** Handler lists compose: running `a + b` is running `a`, then `b`. */
  lemma {:induction false} ApplyAllAppend<H>(a: seq<H>, b: seq<H>, s: string, run: (H, string) -> Reply)
    ensures ApplyAll(a + b, s, run) == ApplyAll(b, ApplyAll(a, s, run), run)
    decreases |a|
  {
    if |a| > 0 {
      assert (a + b)[0] == a[0] && (a + b)[1..] == a[1..] + b;
      var next := match run(a[0], s) case Text(t) => t case NotText => s;
      ApplyAllAppend(a[1..], b, next, run);
    } else {
      assert a + b == b;
    }
  }

  /** A handler whose reply is not a string is as if it were not there. */
  lemma IgnoredReply<H>(h: H, rest: seq<H>, s: string, run: (H, string) -> Reply)
    requires run(h, s) == NotText
    ensures ApplyAll([h] + rest, s, run) == ApplyAll(rest, s, run)
  {
    assert ([h] + rest)[1..] == rest;
  }

  /** The last string reply wins: a handler returning `t` makes the rest run
      on `t`, whatever came before. */
  lemma LastTextWins<H>(a: seq<H>, h: H, s: string, run: (H, string) -> Reply, t: string)
    requires forall x :: run(h, x) == Text(t)
    ensures ApplyAll(a + [h], s, run) == t
  {
    ApplyAllAppend(a, [h], s, run);
  }

  /** The walk stops at the first missing step: once a prefix of the path
      leads nowhere, so does the whole path. */
  lemma {:induction false} WalkStops<H>(cur: Option<Ext<H>>, keys: seq<string>, i: nat)
    requires i <= |keys| && Walk(cur, keys[..i]) == None
    ensures Walk(cur, keys) == None
    decreases i
  {
    if i > 0 && IsTruthy(cur) {
      assert keys[..i][0] == keys[0] && keys[..i][1..] == keys[1..][..i - 1];
      WalkStops(Child(cur.value, keys[0]), keys[1..], i - 1);
    } else if i > 0 {
      assert cur == None;
    }
  }

  /** When the id leads to no handler the input comes back unchanged, line
      break included. */
  lemma NoHandlerNoChange<H>(extensions: Option<Ext<H>>, id: string, s: string, run: (H, string) -> Reply)
    requires HandlerList(Walk(extensions, Split(id, '.'))) == []
    ensures InvokeExtensions(extensions, id, s, run) == s
  {
    assert EndsWith(s, "");
  }

  /** A single function where the id leads behaves as the one-element array. */
  lemma FunctionIsListOfOne<H>(h: H, s: string, run: (H, string) -> Reply)
    ensures HandlerList(Some(Fn(h))) == HandlerList(Some(Node(Some([h]), map[])))
    ensures ApplyAll(HandlerList(Some(Fn(h))), s, run) == (match run(h, s) case Text(t) => t case NotText => s)
  {
  }

  /** Putting the line break back twice is putting it back once. */
  lemma RestoreIdempotent(s: string, nl: string)
    ensures RestoreNewline(RestoreNewline(s, nl), nl) == RestoreNewline(s, nl)
  {
    if s != "" && nl != "" && !EndsWith(s, nl) {
      assert (s + nl)[|s + nl| - |nl|..] == nl;
    }
  }

  /** Registering a function under an id and invoking that id runs it, after
      the handlers registered there before. */
  lemma RegisterThenInvoke<H>(reg: Ext<H>, id: string, h: H, s: string, run: (H, string) -> Reply)
    requires IsRegistry(reg) && Split(id, '.')[|Split(id, '.')| - 1] != "init"
    requires !AddExtension(reg, PathDef(Split(id, '.'), h)).failed
    ensures var r := AddExtension(reg, PathDef(Split(id, '.'), h)).reg;
            InvokeExtensions(Some(r), id, s, run)
            == RestoreNewline(ApplyAll([h], ApplyAll(HandlersOf(At(reg, Split(id, '.'))), s, run), run), EndNewline(s))
  {
    var path := Split(id, '.');
    AddAtPath(reg, path, h);
    var r := AddExtension(reg, PathDef(path, h)).reg;
    AddKeepsRegistry(reg, PathDef(path, h));
    WalkIsAt(r, path);
    ApplyAllAppend(HandlersOf(At(reg, path)), [h], s, run);
  }

  /** On a registry the walk of the source finds what `At` finds. */
  lemma {:induction false} WalkIsAt<H>(e: Ext<H>, path: seq<string>)
    requires IsRegistry(e)
    ensures HandlerList(Walk(Some(e), path)) == HandlersOf(At(e, path))
    decreases |path|
  {
    if |path| > 0 {
      match Child(e, path[0])
      case None =>
        assert Walk(Some(e), path) == Walk(None, path[1..]);
        WalkOfNothing<H>(path[1..]);
      case Some(c) =>
        WalkIsAt(c, path[1..]);
    }
  }

  lemma {:induction false} WalkOfNothing<H>(keys: seq<string>)
    ensures Walk<H>(None, keys) == None
  {
  }
}

=== FILE: forest.dfy ===
/** The table-of-contents tree as both outline builders grow it: a new entry
    is appended after walking up from the last inserted entry while the new
    level minus one is below the current one, and then becomes the insertion
    point.  The builder keeps the finished trees under the root and the
    chain of open entries from the root down to the insertion point; the
    chain is what `getParent` walks. */
module Forest {

  datatype Tree<T> = Tree(item: T, level: real, children: seq<Tree<T>>)

  /** An entry on the insertion chain, with the children it has so far. */
  datatype Frame<T> = Frame(item: T, level: real, children: seq<Tree<T>>)

  /** The root's finished children, and the chain of open entries (the last
      one is the insertion point; an empty chain means the root, level 0). */
  datatype Builder<T> = Builder(roots: seq<Tree<T>>, open: seq<Frame<T>>)

  function Empty<T>(): Builder<T> {
    Builder([], [])
  }

  /** The level of the insertion point. */
  function TopLevel<T>(b: Builder<T>): real {
    if |b.open| == 0 then 0.0 else b.open[|b.open| - 1].level
  }

  function AsTree<T>(f: Frame<T>): Tree<T> {
    Tree(f.item, f.level, f.children)
  }

  /** Moves the insertion point to its parent: the open entry becomes a
      finished child of the one above it. */
  function Close<T>(b: Builder<T>): Builder<T>
    requires |b.open| > 0
  {
    var t := AsTree(b.open[|b.open| - 1]);
    var rest := b.open[..|b.open| - 1];
    if |rest| == 0 then Builder(b.roots + [t], rest)
    else
      var p := rest[|rest| - 1];
      Builder(b.roots, rest[..|rest| - 1] + [p.(children := p.children + [t])])
  }

  /** `while (level - 1 < lastTocItem.level) lastTocItem = parent`. */
  function WalkBack<T>(b: Builder<T>, level: real): (r: Builder<T>)
    ensures |r.open| <= |b.open|
    ensures |r.open| == 0 || TopLevel(r) <= level - 1.0
    decreases |b.open|
  {
    if |b.open| > 0 && level - 1.0 < TopLevel(b) then WalkBack(Close(b), level) else b
  }

  /** Append an entry under the walked-back insertion point; it becomes the
      new insertion point, at its own level. */
  function Place<T>(b: Builder<T>, item: T, level: real): (r: Builder<T>)
    ensures |r.open| > 0 && r.open[|r.open| - 1] == Frame(item, level, [])
    ensures TopLevel(r) == level
  {
    var w := WalkBack(b, level);
    Builder(w.roots, w.open + [Frame(item, level, [])])
  }

  /** The finished tree: every open entry closed. */
  function Finish<T>(b: Builder<T>): seq<Tree<T>>
    decreases |b.open|
  {
    if |b.open| == 0 then b.roots else Finish(Close(b))
  }

  // ---------------------------------------------------------------------
  // Document order: the entries in preorder.

  function Flat<T>(ts: seq<Tree<T>>): seq<(T, real)>
    decreases ts
  {
    if |ts| == 0 then []
    else [(ts[0].item, ts[0].level)] + Flat(ts[0].children) + Flat(ts[1..])
  }

  function FlatFrames<T>(fs: seq<Frame<T>>): seq<(T, real)>
    decreases |fs|
  {
    if |fs| == 0 then []
    else [(fs[0].item, fs[0].level)] + Flat(fs[0].children) + FlatFrames(fs[1..])
  }

  /** Everything placed so far, in preorder. */
  function Contents<T>(b: Builder<T>): seq<(T, real)> {
    Flat(b.roots) + FlatFrames(b.open)
  }

  lemma {:induction false} FlatAppend<T>(ts: seq<Tree<T>>, t: Tree<T>)
    ensures Flat(ts + [t]) == Flat(ts) + Flat([t])
    decreases |ts|
  {
    if |ts| == 0 {
      assert ts + [t] == [t];
    } else {
      assert (ts + [t])[0] == ts[0] && (ts + [t])[1..] == ts[1..] + [t];
      FlatAppend(ts[1..], t);
    }
  }

  lemma FlatOne<T>(t: Tree<T>)
    ensures Flat([t]) == [(t.item, t.level)] + Flat(t.children)
  {
    assert [t][1..] == [];
  }

  lemma {:induction false} FlatFramesAppend<T>(fs: seq<Frame<T>>, f: Frame<T>)
    ensures FlatFrames(fs + [f]) == FlatFrames(fs) + [(f.item, f.level)] + Flat(f.children)
    decreases |fs|
  {
    if |fs| == 0 {
      assert fs + [f] == [f];
      assert [f][1..] == [];
    } else {
      assert (fs + [f])[0] == fs[0] && (fs + [f])[1..] == fs[1..] + [f];
      FlatFramesAppend(fs[1..], f);
    }
  }

  /** Closing an entry loses and reorders nothing. */
  lemma CloseKeepsContents<T>(b: Builder<T>)
    requires |b.open| > 0
    ensures Contents(Close(b)) == Contents(b)
  {
    var f := b.open[|b.open| - 1];
    var t := AsTree(f);
    var rest := b.open[..|b.open| - 1];
    assert b.open == rest + [f];
    FlatFramesAppend(rest, f);
    FlatOne(t);
    if |rest| == 0 {
      FlatAppend(b.roots, t);
    } else {
      var p := rest[|rest| - 1];
      var front := rest[..|rest| - 1];
      assert rest == front + [p];
      FlatFramesAppend(front, p);
      FlatFramesAppend(front, p.(children := p.children + [t]));
      FlatAppend(p.children, t);
    }
  }

  lemma {:induction false} WalkBackKeepsContents<T>(b: Builder<T>, level: real)
    ensures Contents(WalkBack(b, level)) == Contents(b)
    decreases |b.open|
  {
    if |b.open| > 0 && level - 1.0 < TopLevel(b) {
      CloseKeepsContents(b);
      WalkBackKeepsContents(Close(b), level);
    }
  }

  /** Placing an entry adds it at the end of the document order. */
  lemma PlaceAppends<T>(b: Builder<T>, item: T, level: real)
    ensures Contents(Place(b, item, level)) == Contents(b) + [(item, level)]
  {
    var w := WalkBack(b, level);
    WalkBackKeepsContents(b, level);
    FlatFramesAppend(w.open, Frame(item, level, []));
  }

  /** The finished tree holds exactly what was placed, in document order. */
  lemma {:induction false} FinishKeepsContents<T>(b: Builder<T>)
    ensures Flat(Finish(b)) == Contents(b)
    decreases |b.open|
  {
    if |b.open| > 0 {
      CloseKeepsContents(b);
      FinishKeepsContents(Close(b));
    }
  }

  // ---------------------------------------------------------------------
  // Levels: a child sits at least one level below its parent, and exactly
  // one when levels are whole numbers and no entry skips a level.

  predicate Nested<T>(ts: seq<Tree<T>>, parent: real)
    decreases ts
  {
    forall i :: 0 <= i < |ts| ==> ts[i].level >= parent + 1.0 && Nested(ts[i].children, ts[i].level)
  }

  function LevelBelow<T>(open: seq<Frame<T>>, i: nat): real
    requires i < |open|
  {
    if i == 0 then 0.0 else open[i - 1].level
  }

  predicate NestedBuilder<T>(b: Builder<T>) {
    && Nested(b.roots, 0.0)
    && forall i :: 0 <= i < |b.open| ==>
         b.open[i].level >= LevelBelow(b.open, i) + 1.0 && Nested(b.open[i].children, b.open[i].level)
  }

  lemma NestedAppend<T>(ts: seq<Tree<T>>, t: Tree<T>, parent: real)
    requires Nested(ts, parent) && t.level >= parent + 1.0 && Nested(t.children, t.level)
    ensures Nested(ts + [t], parent)
  {
    forall i | 0 <= i < |ts + [t]|
      ensures (ts + [t])[i].level >= parent + 1.0 && Nested((ts + [t])[i].children, (ts + [t])[i].level)
    {
      if i < |ts| {
        assert (ts + [t])[i] == ts[i];
      }
    }
  }

  lemma CloseNested<T>(b: Builder<T>)
    requires NestedBuilder(b) && |b.open| > 0
    ensures NestedBuilder(Close(b))
  {
    var n := |b.open|;
    var t := AsTree(b.open[n - 1]);
    assert t.level >= LevelBelow(b.open, n - 1) + 1.0;
    if n == 1 {
      NestedAppend(b.roots, t, 0.0);
    } else {
      var p := b.open[n - 2];
      NestedAppend(p.children, t, p.level);
      var c := Close(b);
      forall i | 0 <= i < |c.open|
        ensures c.open[i].level >= LevelBelow(c.open, i) + 1.0 && Nested(c.open[i].children, c.open[i].level)
      {
        assert c.open[i].level == b.open[i].level;
        if i > 0 {
          assert c.open[i - 1].level == b.open[i - 1].level;
        }
        if i < n - 2 {
          assert c.open[i] == b.open[i];
        }
      }
    }
  }

  lemma {:induction false} WalkBackNested<T>(b: Builder<T>, level: real)
    requires NestedBuilder(b)
    ensures NestedBuilder(WalkBack(b, level))
    ensures TopLevel(WalkBack(b, level)) <= level - 1.0 || TopLevel(WalkBack(b, level)) == 0.0
    decreases |b.open|
  {
    if |b.open| > 0 && level - 1.0 < TopLevel(b) {
      CloseNested(b);
      WalkBackNested(Close(b), level);
    }
  }

  /** Placing an entry of level at least 1 keeps every child at least one
      level below its parent. */
  lemma PlaceNested<T>(b: Builder<T>, item: T, level: real)
    requires NestedBuilder(b) && level >= 1.0
    ensures NestedBuilder(Place(b, item, level))
  {
    var w := WalkBack(b, level);
    WalkBackNested(b, level);
    var r := Place(b, item, level);
    forall i | 0 <= i < |r.open|
      ensures r.open[i].level >= LevelBelow(r.open, i) + 1.0 && Nested(r.open[i].children, r.open[i].level)
    {
      if i < |w.open| {
        assert r.open[i] == w.open[i];
        if i > 0 {
          assert r.open[i - 1] == w.open[i - 1];
        }
      } else if i > 0 {
        assert r.open[i - 1] == w.open[i - 1];
      }
    }
  }

  lemma {:induction false} FinishNested<T>(b: Builder<T>)
    requires NestedBuilder(b)
    ensures Nested(Finish(b), 0.0)
    decreases |b.open|
  {
    if |b.open| > 0 {
      CloseNested(b);
      FinishNested(Close(b));
    }
  }

  predicate Exact<T>(ts: seq<Tree<T>>, parent: real)
    decreases ts
  {
    forall i :: 0 <= i < |ts| ==> ts[i].level == parent + 1.0 && Exact(ts[i].children, ts[i].level)
  }

  /** Levels 1, 2, ... down the insertion chain. */
  predicate ExactBuilder<T>(b: Builder<T>) {
    && Exact(b.roots, 0.0)
    && forall i :: 0 <= i < |b.open| ==>
         b.open[i].level == (i + 1) as real && Exact(b.open[i].children, b.open[i].level)
  }

  lemma ExactAppend<T>(ts: seq<Tree<T>>, t: Tree<T>, parent: real)
    requires Exact(ts, parent) && t.level == parent + 1.0 && Exact(t.children, t.level)
    ensures Exact(ts + [t], parent)
  {
    forall i | 0 <= i < |ts + [t]|
      ensures (ts + [t])[i].level == parent + 1.0 && Exact((ts + [t])[i].children, (ts + [t])[i].level)
    {
      if i < |ts| {
        assert (ts + [t])[i] == ts[i];
      }
    }
  }

  lemma CloseExact<T>(b: Builder<T>)
    requires ExactBuilder(b) && |b.open| > 0
    ensures ExactBuilder(Close(b))
  {
    var n := |b.open|;
    var t := AsTree(b.open[n - 1]);
    if n == 1 {
      ExactAppend(b.roots, t, 0.0);
    } else {
      var p := b.open[n - 2];
      ExactAppend(p.children, t, p.level);
      var c := Close(b);
      forall i | 0 <= i < |c.open|
        ensures c.open[i].level == (i + 1) as real && Exact(c.open[i].children, c.open[i].level)
      {
        if i < n - 2 {
          assert c.open[i] == b.open[i];
        }
      }
    }
  }

  lemma {:induction false} WalkBackExact<T>(b: Builder<T>, k: nat)
    requires ExactBuilder(b) && 1 <= k <= |b.open| + 1
    ensures ExactBuilder(WalkBack(b, k as real))
    ensures |WalkBack(b, k as real).open| == k - 1
    decreases |b.open|
  {
    if |b.open| > 0 && (k as real) - 1.0 < TopLevel(b) {
      CloseExact(b);
      WalkBackExact(Close(b), k);
    }
  }

  /** With whole levels that never skip one (the nesting check), every
      entry is placed exactly one level below its parent. */
  lemma PlaceExact<T>(b: Builder<T>, item: T, k: nat)
    requires ExactBuilder(b) && 1 <= k && (k as real) - TopLevel(b) <= 1.0
    ensures ExactBuilder(Place(b, item, k as real))
    ensures |Place(b, item, k as real).open| == k
  {
    WalkBackExact(b, k);
    var w := WalkBack(b, k as real);
    var r := Place(b, item, k as real);
    forall i | 0 <= i < |r.open|
      ensures r.open[i].level == (i + 1) as real && Exact(r.open[i].children, r.open[i].level)
    {
      if i < |w.open| {
        assert r.open[i] == w.open[i];
      }
    }
  }

  lemma {:induction false} FinishExact<T>(b: Builder<T>)
    requires ExactBuilder(b)
    ensures Exact(Finish(b), 0.0)
    decreases |b.open|
  {
    if |b.open| > 0 {
      CloseExact(b);
      FinishExact(Close(b));
    }
  }

  // ---------------------------------------------------------------------
  // Returning to an earlier insertion point.

  /** Closes open entries until the chain is `d` long: the insertion point
      goes back to the entry that was the insertion point at depth `d`. */
  function CloseTo<T>(b: Builder<T>, d: nat): (r: Builder<T>)
    ensures |r.open| == if |b.open| <= d then |b.open| else d
    decreases |b.open|
  {
    if |b.open| > d then CloseTo(Close(b), d) else b
  }

  lemma {:induction false} CloseToKeeps<T>(b: Builder<T>, d: nat)
    ensures Contents(CloseTo(b, d)) == Contents(b)
    ensures NestedBuilder(b) ==> NestedBuilder(CloseTo(b, d))
    ensures Finish(CloseTo(b, d)) == Finish(b)
    decreases |b.open|
  {
    if |b.open| > d {
      CloseKeepsContents(b);
      if NestedBuilder(b) {
        CloseNested(b);
      }
      CloseToKeeps(Close(b), d);
    }
  }

  /** Exact nesting is a case of nesting. */
  lemma {:induction false} ExactIsNested<T>(ts: seq<Tree<T>>, parent: real)
    requires Exact(ts, parent)
    ensures Nested(ts, parent)
    decreases ts
  {
    forall i | 0 <= i < |ts|
      ensures ts[i].level >= parent + 1.0 && Nested(ts[i].children, ts[i].level)
    {
      ExactIsNested(ts[i].children, ts[i].level);
    }
  }
}

=== FILE: js_core.dfy ===
/** The small part of JavaScript's string semantics that the table-of-contents
    engine relies on: the whitespace set of `trim` and `\s`, `indexOf`,
    single-character `split`, `join`, truthiness and the way `null`
    stringifies. */
module JsCore {

  datatype Option<T> = None | Some(value: T)

  /** ECMAScript WhiteSpace and LineTerminator code points: the characters
      `String.prototype.trim` removes and the regex class `\s` matches. */
  predicate IsJsSpace(c: char) {
    if c <= ' ' then c == ' ' || '\t' <= c <= '\r'
    else if c < '\U{A0}' then false
    else
      || c == '\U{A0}' || c == '\U{1680}' || '\U{2000}' <= c <= '\U{200A}'
      || c == '\U{2028}' || c == '\U{2029}' || c == '\U{202F}' || c == '\U{205F}'
      || c == '\U{3000}' || c == '\U{FEFF}'
  }

  /** The characters the regex `.` refuses to match. */
  predicate IsLineTerminator(c: char) {
    c == '\n' || c == '\r' || c == '\U{2028}' || c == '\U{2029}'
  }

  /** Leading whitespace removed; `TrimStartIs` characterises the result. */
  function TrimStart(s: string): (r: string)
    ensures |r| <= |s|
  {
    if |s| > 0 && IsJsSpace(s[0]) then TrimStart(s[1..]) else s
  }

  /** Trailing whitespace removed; `TrimEndIs` characterises the result. */
  function TrimEnd(s: string): (r: string)
    ensures |r| <= |s|
  {
    if |s| > 0 && IsJsSpace(s[|s| - 1]) then TrimEnd(s[..|s| - 1]) else s
  }

  /** `String.prototype.trim`. */
  function Trim(s: string): string {
    TrimEnd(TrimStart(s))
  }

  /** The result of `TrimStart` is a suffix, everything cut off is whitespace,
      and it does not start with whitespace. */
  lemma {:induction false} TrimStartIs(s: string)
    ensures TrimStart(s) == s[|s| - |TrimStart(s)|..]
    ensures forall i :: 0 <= i < |s| - |TrimStart(s)| ==> IsJsSpace(s[i])
    ensures |TrimStart(s)| > 0 ==> !IsJsSpace(TrimStart(s)[0])
  {
    if |s| > 0 && IsJsSpace(s[0]) {
      TrimStartIs(s[1..]);
    }
  }

  /** The result of `TrimEnd` is a prefix, everything cut off is whitespace,
      and it does not end with whitespace. */
  lemma {:induction false} TrimEndIs(s: string)
    ensures TrimEnd(s) == s[..|TrimEnd(s)|]
    ensures forall i :: |TrimEnd(s)| <= i < |s| ==> IsJsSpace(s[i])
    ensures |TrimEnd(s)| > 0 ==> !IsJsSpace(TrimEnd(s)[|TrimEnd(s)| - 1])
  {
    if |s| > 0 && IsJsSpace(s[|s| - 1]) {
      TrimEndIs(s[..|s| - 1]);
    }
  }

  /** Trimming the start of `t + u` goes on into `u` only when `t` is all
      white space. */
  lemma {:induction false} TrimStartAppend(t: string, u: string)
    ensures TrimStart(t + u) == if TrimStart(t) == "" then TrimStart(u) else TrimStart(t) + u
    decreases |t|
  {
    if |t| > 0 {
      assert (t + u)[0] == t[0];
      if IsJsSpace(t[0]) {
        assert (t + u)[1..] == t[1..] + u;
        TrimStartAppend(t[1..], u);
      }
    } else {
      assert t + u == u;
    }
  }

  /** Leading whitespace in front of `u` is all cut off. */
  lemma {:induction false} TrimStartSpaces(pre: string, u: string)
    requires forall i :: 0 <= i < |pre| ==> IsJsSpace(pre[i])
    ensures TrimStart(pre + u) == TrimStart(u)
    decreases |pre|
  {
    if |pre| > 0 {
      assert (pre + u)[0] == pre[0];
      assert (pre + u)[1..] == pre[1..] + u;
      TrimStartSpaces(pre[1..], u);
    } else {
      assert pre + u == u;
    }
  }

  /** Trailing whitespace after `u` is all cut off. */
  lemma {:induction false} TrimEndSpaces(u: string, post: string)
    requires forall i :: 0 <= i < |post| ==> IsJsSpace(post[i])
    ensures TrimEnd(u + post) == TrimEnd(u)
    decreases |post|
  {
    if |post| > 0 {
      var s := u + post;
      assert s[|s| - 1] == post[|post| - 1];
      assert s[..|s| - 1] == u + post[..|post| - 1];
      TrimEndSpaces(u, post[..|post| - 1]);
    } else {
      assert u + post == u;
    }
  }

  /** Whitespace runs of any length on either side make no difference to
      `trim`. */
  lemma TrimPadded(pre: string, t: string, post: string)
    requires forall i :: 0 <= i < |pre| ==> IsJsSpace(pre[i])
    requires forall i :: 0 <= i < |post| ==> IsJsSpace(post[i])
    ensures Trim(pre + t + post) == Trim(t)
  {
    assert pre + t + post == pre + (t + post);
    TrimStartSpaces(pre, t + post);
    TrimStartAppend(t, post);
    if TrimStart(t) == "" {
      TrimStartSpaces(post, "");
      assert post + "" == post;
    } else {
      TrimEndSpaces(TrimStart(t), post);
    }
  }

  /** `c` followed by `c` at `i`: an occurrence of the pattern `cc`. */
  predicate PairAt(s: string, i: int, c: char) {
    0 <= i && i + 1 < |s| && s[i] == c && s[i + 1] == c
  }

  /** `s.indexOf(cc, from)` for a pattern of one character written twice
      (`{{`, `}}`): an occurrence at or after `from`, or -1;
      `IndexOfPairFirst` shows that it is the first one. */
  function IndexOfPair(s: string, c: char, from: nat): (r: int)
    ensures r == -1 || (from <= r && PairAt(s, r, c))
    decreases |s| - from
  {
    if from + 1 >= |s| then -1
    else if s[from] == c && s[from + 1] == c then from
    else IndexOfPair(s, c, from + 1)
  }

  /** Nothing is skipped: -1 means no occurrence at or after `from`, and
      otherwise there is none between `from` and the result. */
  lemma {:induction false} IndexOfPairFirst(s: string, c: char, from: nat, j: int)
    requires from <= j
    ensures IndexOfPair(s, c, from) == -1 ==> !PairAt(s, j, c)
    ensures IndexOfPair(s, c, from) != -1 && j < IndexOfPair(s, c, from) ==> !PairAt(s, j, c)
    decreases |s| - from
  {
    if from + 1 < |s| && !(s[from] == c && s[from + 1] == c) && from < j {
      IndexOfPairFirst(s, c, from + 1, j);
    }
  }

  /** An occurrence-free stretch followed by an occurrence (or by the end of
      the text) determines the result. */
  lemma {:induction false} IndexOfPairIs(s: string, c: char, from: nat, r: int)
    requires forall j :: from <= j && (r == -1 || j < r) ==> !PairAt(s, j, c)
    requires r == -1 || (from <= r && PairAt(s, r, c))
    ensures IndexOfPair(s, c, from) == r
    decreases |s| - from
  {
    if from + 1 < |s| && !(s[from] == c && s[from + 1] == c) {
      assert !PairAt(s, from, c);
      IndexOfPairIs(s, c, from + 1, r);
    } else if from + 1 < |s| {
      assert PairAt(s, from, c);
    }
  }

  /** Searching from `n + j` is searching the text that starts at `n`. */
  lemma {:induction false} IndexOfPairDrop(s: string, n: nat, c: char, j: nat)
    requires n <= |s|
    ensures IndexOfPair(s, c, n + j) == (var r := IndexOfPair(s[n..], c, j); if r == -1 then -1 else n + r)
    decreases |s| - n - j
  {
    if n + j + 1 < |s| {
      assert s[n..][j] == s[n + j] && s[n..][j + 1] == s[n + j + 1];
      if !(s[n + j] == c && s[n + j + 1] == c) {
        IndexOfPairDrop(s, n, c, j + 1);
      }
    }
  }

  /** Searching at or after the end of a prefix `a` searches `b` alone. */
  lemma IndexOfPairShift(a: string, b: string, c: char, j: nat)
    ensures IndexOfPair(a + b, c, |a| + j) == (var r := IndexOfPair(b, c, j); if r == -1 then -1 else |a| + r)
  {
    IndexOfPairDrop(a + b, |a|, c, j);
    assert (a + b)[|a|..] == b;
  }

  /** Two texts that agree on their first `n` characters agree on an
      occurrence found inside those characters. */
  lemma IndexOfPairPrefix(s: string, t: string, c: char, from: nat, n: nat)
    requires n <= |s| && n <= |t| && s[..n] == t[..n]
    requires IndexOfPair(s, c, from) != -1 && IndexOfPair(s, c, from) + 2 <= n
    ensures IndexOfPair(t, c, from) == IndexOfPair(s, c, from)
  {
    var r := IndexOfPair(s, c, from);
    forall j | from <= j < r
      ensures !PairAt(t, j, c)
    {
      IndexOfPairFirst(s, c, from, j);
      assert s[j] == s[..n][j] && s[j + 1] == s[..n][j + 1];
      assert t[j] == t[..n][j] && t[j + 1] == t[..n][j + 1];
    }
    assert s[r] == s[..n][r] && s[r + 1] == s[..n][r + 1];
    assert t[r] == t[..n][r] && t[r + 1] == t[..n][r + 1];
    IndexOfPairIs(t, c, from, r);
  }

  predicate StartsWith(s: string, prefix: string) {
    |prefix| <= |s| && s[..|prefix|] == prefix
  }

  predicate EndsWith(s: string, suffix: string) {
    |suffix| <= |s| && s[|s| - |suffix|..] == suffix
  }

  /** `parts.join(sep)`. */
  function Join(parts: seq<string>, sep: string): string {
    if |parts| == 0 then ""
    else if |parts| == 1 then parts[0]
    else parts[0] + sep + Join(parts[1..], sep)
  }

  /** `s.split(sep)` for a one-character separator. */
  function Split(s: string, sep: char): (r: seq<string>)
    ensures |r| >= 1
  {
    if |s| == 0 then [""]
    else
      var rest := Split(s[1..], sep);
      if s[0] == sep then [""] + rest
      else [[s[0]] + rest[0]] + rest[1..]
  }

  /** The pieces contain no separator, and joining them with it gives `s` back. */
  lemma {:induction false} JoinSplit(s: string, sep: char)
    ensures forall i :: 0 <= i < |Split(s, sep)| ==> sep !in Split(s, sep)[i]
    ensures Join(Split(s, sep), [sep]) == s
  {
    SplitPieces(s, sep);
    JoinSplitBack(s, sep);
  }

  lemma {:induction false} SplitPieces(s: string, sep: char)
    ensures forall i :: 0 <= i < |Split(s, sep)| ==> sep !in Split(s, sep)[i]
  {
    if |s| > 0 {
      SplitPieces(s[1..], sep);
      var rest := Split(s[1..], sep);
      var r := Split(s, sep);
      if s[0] == sep {
        forall i | 0 <= i < |r| ensures sep !in r[i] {
          if i > 0 { assert r[i] == rest[i - 1]; }
        }
      } else {
        forall i | 0 <= i < |r| ensures sep !in r[i] {
          if i > 0 { assert r[i] == rest[i]; }
        }
      }
    }
  }

  lemma {:induction false} JoinSplitBack(s: string, sep: char)
    ensures Join(Split(s, sep), [sep]) == s
  {
    if |s| > 0 {
      JoinSplitBack(s[1..], sep);
      var rest := Split(s[1..], sep);
      var r := Split(s, sep);
      assert s == [s[0]] + s[1..];
      if s[0] == sep {
        assert r[1..] == rest;
        assert Join(r, [sep]) == "" + [sep] + Join(rest, [sep]);
      } else {
        var head := [s[0]] + rest[0];
        assert r[0] == head && r[1..] == rest[1..];
        if |rest| > 1 {
          assert Join(rest, [sep]) == rest[0] + [sep] + Join(rest[1..], [sep]);
          assert Join(r, [sep]) == head + [sep] + Join(rest[1..], [sep]);
        }
      }
    }
  }

  /** The other direction: splitting pieces joined with a separator they do
      not contain gives the pieces back. */
  lemma {:induction false} SplitJoin(parts: seq<string>, sep: char)
    requires |parts| >= 1
    requires forall i :: 0 <= i < |parts| ==> sep !in parts[i]
    ensures Split(Join(parts, [sep]), sep) == parts
    decreases |parts|, |parts[0]|
  {
    if |parts| == 1 {
      SplitNoSeparator(parts[0], sep);
    } else if |parts[0]| == 0 {
      var tail := Join(parts[1..], [sep]);
      SplitJoin(parts[1..], sep);
      assert Join(parts, [sep]) == [sep] + tail;
      SplitCons(sep, tail, sep);
    } else {
      var c := parts[0][0];
      var shorter := [parts[0][1..]] + parts[1..];
      var tail := Join(shorter, [sep]);
      SplitJoin(shorter, sep);
      assert shorter[1..] == parts[1..];
      assert Join(parts, [sep]) == [c] + tail;
      SplitCons(c, tail, sep);
      assert [c] + parts[0][1..] == parts[0];
    }
  }

  /** Splitting after one more leading character, stated on `[c] + t`. */
  lemma SplitCons(c: char, t: string, sep: char)
    ensures Split([c] + t, sep) ==
      if c == sep then [""] + Split(t, sep)
      else [[c] + Split(t, sep)[0]] + Split(t, sep)[1..]
  {
    assert ([c] + t)[1..] == t;
  }

  /** A first piece free of the separator is split off as it is. */
  lemma {:induction false} SplitAfter(first: string, sep: char, rest: string)
    requires sep !in first
    ensures Split(first + [sep] + rest, sep) == [first] + Split(rest, sep)
    decreases |first|
  {
    var s := first + [sep] + rest;
    if |first| == 0 {
      assert s == [sep] + rest;
      assert s[1..] == rest;
    } else {
      assert s[0] == first[0];
      assert s[1..] == first[1..] + [sep] + rest;
      SplitAfter(first[1..], sep, rest);
      assert [first[0]] + first[1..] == first;
    }
  }

  lemma {:induction false} SplitNoSeparator(s: string, sep: char)
    requires sep !in s
    ensures Split(s, sep) == [s]
  {
    if |s| > 0 {
      SplitNoSeparator(s[1..], sep);
      assert [s[0]] + s[1..] == s;
    }
  }

  /** No element occurs twice. */
  predicate Distinct<T(==)>(s: seq<T>) {
    forall i, j :: 0 <= i < j < |s| ==> s[i] != s[j]
  }

  /** JavaScript truthiness of a string-or-null value. */
  predicate Truthy(v: Option<string>) {
    v.Some? && v.value != ""
  }

  /** How a string-or-null value reads when concatenated onto a string. */
  function JsText(v: Option<string>): string {
    match v
    case Some(s) => s
    case None => "null"
  }

  /** `v || fallback` for a string-or-null value. */
  function OrElse(v: Option<string>, fallback: string): string {
    if Truthy(v) then v.value else fallback
  }

  /** ASCII upper case mapped to lower case; every other character kept. */
  function LowerAscii(s: string): (r: string)
    ensures |r| == |s|
    ensures forall i :: 0 <= i < |s| ==> r[i] == if 'A' <= s[i] <= 'Z' then (s[i] as int + 32) as char else s[i]
  {
    if |s| == 0 then ""
    else [if 'A' <= s[0] <= 'Z' then (s[0] as int + 32) as char else s[0]] + LowerAscii(s[1..])
  }

  /** The elements of `s` that satisfy `keep`, in order. */
  function Filter<T(!new)>(s: seq<T>, keep: T -> bool): (r: seq<T>)
    ensures |r| <= |s|
    ensures forall x :: x in r <==> x in s && keep(x)
  {
    if |s| == 0 then []
    else (if keep(s[0]) then [s[0]] else []) + Filter(s[1..], keep)
  }
}

=== FILE: outline_lines.dfy ===
/** One line of a table-of-contents outline, as both outline readers see it:
    tabs count as four spaces, the indentation gives the entry's level, and
    a line that opens with a `{:...}` block is an attribute line rather than
    an entry.  An attribute line either defines a named attribute list
    (`{:name: text}`) or contributes its content to the attributes of the
    next entry. */
module OutlineLines {
  import opened JsCore
  import Attributes

  // ---------------------------------------------------------------------
  // Indentation.

  /** `line.replace(/\t/g, "    ")`. */
  function ExpandTabs(s: string): (r: string)
    ensures '\t' !in r
  {
    if |s| == 0 then ""
    else (if s[0] == '\t' then "    " else [s[0]]) + ExpandTabs(s[1..])
  }

  lemma {:induction false} ExpandTabsAppend(a: string, b: string)
    ensures ExpandTabs(a + b) == ExpandTabs(a) + ExpandTabs(b)
    decreases |a|
  {
    if |a| == 0 {
      assert a + b == b;
    } else {
      assert (a + b)[0] == a[0] && (a + b)[1..] == a[1..] + b;
      ExpandTabsAppend(a[1..], b);
    }
  }

  /** A line without tabs is left as it is. */
  lemma {:induction false} ExpandTabsNoTab(s: string)
    requires '\t' !in s
    ensures ExpandTabs(s) == s
  {
    if |s| > 0 {
      assert s[1..] == s[|s| - (|s| - 1)..];
      assert '\t' !in s[1..] by {
        forall i | 0 <= i < |s[1..]| ensures s[1..][i] != '\t' {
          assert s[1..][i] == s[i + 1];
        }
      }
      ExpandTabsNoTab(s[1..]);
      assert [s[0]] + s[1..] == s;
    }
  }

  /** The length of the `^ *` match: the leading run of plain spaces. */
  function LeadingSpaces(s: string): (n: nat)
    ensures n <= |s|
  {
    if |s| > 0 && s[0] == ' ' then 1 + LeadingSpaces(s[1..]) else 0
  }

  lemma {:induction false} LeadingSpacesIs(s: string)
    ensures forall i :: 0 <= i < LeadingSpaces(s) ==> s[i] == ' '
    ensures LeadingSpaces(s) < |s| ==> s[LeadingSpaces(s)] != ' '
  {
    if |s| > 0 && s[0] == ' ' {
      LeadingSpacesIs(s[1..]);
    }
  }

  /** Characters of the `^[ >]*` indentation. */
  predicate IsIndent(c: char) {
    c == ' ' || c == '>'
  }

  /** The length of the `^[ >]*` match. */
  function IndentRun(s: string): (n: nat)
    ensures n <= |s|
  {
    if |s| > 0 && IsIndent(s[0]) then 1 + IndentRun(s[1..]) else 0
  }

  function Count(s: string, c: char): nat {
    if |s| == 0 then 0 else (if s[0] == c then 1 else 0) + Count(s[1..], c)
  }

  /** `text.split(c).length - 1` counts the occurrences of `c`. */
  lemma {:induction false} SplitCounts(s: string, c: char)
    ensures |Split(s, c)| - 1 == Count(s, c)
  {
    if |s| > 0 {
      SplitCounts(s[1..], c);
    }
  }

  /** The level of an entry of the Markdown outline: a quarter of its
      leading spaces, plus one.  It is not rounded, so an indentation that
      is not a multiple of four gives a fractional level. */
  function MarkdownLevel(line: string): real {
    (LeadingSpaces(ExpandTabs(line)) as real) / 4.0 + 1.0
  }

  /** The level of an entry of a text outline: the number of `>` in the
      indentation when there is any, and otherwise a quarter of the
      indentation rounded down; plus one. */
  function TextLevel(line: string): (k: nat)
    ensures k >= 1
  {
    var t := ExpandTabs(line);
    var indent := t[..IndentRun(t)];
    var quotes := |Split(indent, '>')| - 1;
    (if quotes != 0 then quotes else |indent| / 4) + 1
  }

  /** `n` copies of `c`. */
  function Repeat(c: char, n: nat): (r: string)
    ensures |r| == n && forall i :: 0 <= i < n ==> r[i] == c
  {
    if n == 0 then "" else [c] + Repeat(c, n - 1)
  }

  lemma {:induction false} LeadingSpacesOf(n: nat, rest: string)
    requires |rest| == 0 || rest[0] != ' '
    ensures LeadingSpaces(Repeat(' ', n) + rest) == n
    decreases n
  {
    if n > 0 {
      assert (Repeat(' ', n) + rest)[1..] == Repeat(' ', n - 1) + rest;
      LeadingSpacesOf(n - 1, rest);
    } else {
      assert Repeat(' ', n) + rest == rest;
    }
  }

  lemma {:induction false} IndentRunOf(c: char, n: nat, rest: string)
    requires IsIndent(c)
    requires |rest| == 0 || !IsIndent(rest[0])
    ensures IndentRun(Repeat(c, n) + rest) == n
    decreases n
  {
    if n > 0 {
      assert (Repeat(c, n) + rest)[1..] == Repeat(c, n - 1) + rest;
      IndentRunOf(c, n - 1, rest);
    } else {
      assert Repeat(c, n) + rest == rest;
    }
  }

  lemma {:induction false} CountRepeat(c: char, n: nat, d: char)
    ensures Count(Repeat(c, n), d) == if c == d then n else 0
  {
    if n > 0 {
      assert Repeat(c, n)[1..] == Repeat(c, n - 1);
      CountRepeat(c, n - 1, d);
    }
  }

  /** For an indentation of whole groups of four spaces the two outline
      readers agree on the level; they differ otherwise (`TwoSpaces`). */
  lemma LevelsAgree(k: nat, rest: string)
    requires '\t' !in rest
    requires |rest| == 0 || !IsIndent(rest[0])
    ensures MarkdownLevel(Repeat(' ', 4 * k) + rest) == (TextLevel(Repeat(' ', 4 * k) + rest) as real)
    ensures TextLevel(Repeat(' ', 4 * k) + rest) == k + 1
  {
    var line := Repeat(' ', 4 * k) + rest;
    assert '\t' !in line by {
      forall i | 0 <= i < |line| ensures line[i] != '\t' {
        if i >= 4 * k {
          assert line[i] == rest[i - 4 * k];
        }
      }
    }
    ExpandTabsNoTab(line);
    LeadingSpacesOf(4 * k, rest);
    IndentRunOf(' ', 4 * k, rest);
    assert line[..4 * k] == Repeat(' ', 4 * k);
    SplitCounts(Repeat(' ', 4 * k), '>');
    CountRepeat(' ', 4 * k, '>');
  }

  /** Two leading spaces: level 1.5 in a Markdown outline, 1 in a text one. */
  lemma TwoSpaces()
    ensures MarkdownLevel("  x") == 1.5
    ensures TextLevel("  x") == 1
  {
    assert "  x" == Repeat(' ', 2) + "x";
    ExpandTabsNoTab("  x");
    LeadingSpacesOf(2, "x");
    IndentRunOf(' ', 2, "x");
    assert "  x"[..2] == Repeat(' ', 2);
    SplitCounts(Repeat(' ', 2), '>');
    CountRepeat(' ', 2, '>');
  }

  lemma {:induction false} LeadingSpacesAfter(n: nat, t: string)
    ensures LeadingSpaces(Repeat(' ', n) + t) == n + LeadingSpaces(t)
  {
    if n > 0 {
      assert (Repeat(' ', n) + t)[1..] == Repeat(' ', n - 1) + t;
      LeadingSpacesAfter(n - 1, t);
    } else {
      assert Repeat(' ', n) + t == t;
    }
  }

  /** A leading tab is one level deeper in a Markdown outline. */
  lemma TabIsOneLevel(s: string)
    ensures MarkdownLevel("\t" + s) == MarkdownLevel(s) + 1.0
  {
    ExpandTabsAppend("\t", s);
    assert ExpandTabs("\t") == Repeat(' ', 4);
    LeadingSpacesAfter(4, ExpandTabs(s));
  }

  /** A pure run of `n` markers `>` gives level `n + 1`. */
  lemma QuotesDecide(n: nat, rest: string)
    requires '\t' !in rest
    requires |rest| == 0 || !IsIndent(rest[0])
    ensures TextLevel(Repeat('>', n) + rest) == n + 1
  {
    var line := Repeat('>', n) + rest;
    assert '\t' !in line by {
      forall i | 0 <= i < |line| ensures line[i] != '\t' {
        if i >= n {
          assert line[i] == rest[i - n];
        }
      }
    }
    ExpandTabsNoTab(line);
    IndentRunOf('>', n, rest);
    assert line[..n] == Repeat('>', n);
    SplitCounts(Repeat('>', n), '>');
    CountRepeat('>', n, '>');
  }

  /** An indentation of spaces and `>` followed by a non-indent character
      is exactly the `^[ >]*` match. */
  lemma {:induction false} IndentRunAll(ind: string, rest: string)
    requires forall i :: 0 <= i < |ind| ==> IsIndent(ind[i])
    requires |rest| == 0 || !IsIndent(rest[0])
    ensures IndentRun(ind + rest) == |ind|
    decreases |ind|
  {
    if |ind| > 0 {
      assert (ind + rest)[0] == ind[0];
      assert (ind + rest)[1..] == ind[1..] + rest;
      IndentRunAll(ind[1..], rest);
    } else {
      assert ind + rest == rest;
    }
  }

  lemma IndentNoTab(ind: string, rest: string)
    requires forall i :: 0 <= i < |ind| ==> IsIndent(ind[i])
    requires '\t' !in rest
    ensures '\t' !in ind + rest
  {
    var line := ind + rest;
    forall i | 0 <= i < |line| ensures line[i] != '\t' {
      if i < |ind| {
        assert line[i] == ind[i];
      } else {
        assert line[i] == rest[i - |ind|];
      }
    }
  }

  /** The level of a text outline entry for any indentation of spaces and
      `>`: the number of `>` plus one when there is any, and otherwise a
      quarter of the indentation rounded down, plus one. */
  lemma TextLevelIs(ind: string, rest: string)
    requires forall i :: 0 <= i < |ind| ==> IsIndent(ind[i])
    requires '\t' !in rest
    requires |rest| == 0 || !IsIndent(rest[0])
    ensures TextLevel(ind + rest) == (if Count(ind, '>') > 0 then Count(ind, '>') else |ind| / 4) + 1
  {
    var line := ind + rest;
    IndentNoTab(ind, rest);
    ExpandTabsNoTab(line);
    IndentRunAll(ind, rest);
    assert line[..|ind|] == ind;
    var quotes := |Split(ind, '>')| - 1;
    assert TextLevel(line) == (if quotes != 0 then quotes else |ind| / 4) + 1;
    SplitCounts(ind, '>');
  }

  /** Once the indentation holds a `>`, the `>` marks alone decide the
      level, however many spaces lie between them. */
  lemma QuotesDecideAnySpaces(ind: string, rest: string)
    requires forall i :: 0 <= i < |ind| ==> IsIndent(ind[i])
    requires Count(ind, '>') > 0
    requires '\t' !in rest
    requires |rest| == 0 || !IsIndent(rest[0])
    ensures TextLevel(ind + rest) == Count(ind, '>') + 1
  {
    TextLevelIs(ind, rest);
  }

  /** `> > x` is at level 3. */
  lemma SpacedQuotes()
    ensures TextLevel("> > x") == 3
  {
    assert "> > x" == "> > " + "x";
    assert Count("> > ", '>') == 2 by {
      assert "> > "[1..] == " > " && " > "[1..] == "> " && "> "[1..] == " " && " "[1..] == "";
    }
    QuotesDecideAnySpaces("> > ", "x");
  }

  // ---------------------------------------------------------------------
  // Attribute lines.

  /** The first index at or after `from` holding `c`, or `|s|`. */
  function Find(s: string, c: char, from: nat): (r: nat)
    requires from <= |s|
    ensures from <= r <= |s|
    ensures r < |s| ==> s[r] == c
    ensures forall k :: from <= k < r ==> s[k] != c
    decreases |s| - from
  {
    if from == |s| || s[from] == c then from else Find(s, c, from + 1)
  }

  /** The greedy loop `(?:\\\}|[^\}])*` from `i`, followed by `\}`: an
      unescaped `}` ends the match; when none is left, backtracking ends it
      at the last escaped one (`last`, or -1 when there is none yet). */
  function ScanBlock(s: string, i: nat, last: int): (r: Option<nat>)
    requires 2 <= i <= |s|
    requires last == -1 || (3 <= last <= i && s[last - 1] == '}')
    ensures r.Some? ==> 3 <= r.value <= |s| && s[r.value - 1] == '}'
    decreases |s| - i
  {
    if i == |s| then (if last == -1 then None else Some(last))
    else if s[i] == '\\' && i + 1 < |s| && s[i + 1] == '}' then ScanBlock(s, i + 2, i + 2)
    else if s[i] == '}' then Some(i + 1)
    else ScanBlock(s, i + 1, last)
  }

  /** The length of the `^(\{:(?:\\\}|[^\}])*\})` match, if any. */
  function BlockEnd(line: string): (r: Option<nat>)
    ensures r.Some? ==> StartsWith(line, "{:") && 3 <= r.value <= |line| && line[r.value - 1] == '}'
  {
    if StartsWith(line, "{:") then ScanBlock(line, 2, -1) else None
  }

  lemma {:induction false} ScanBlockFinds(s: string, i: nat, last: int)
    requires 2 <= i <= |s|
    requires last == -1 || (3 <= last <= i && s[last - 1] == '}')
    ensures ScanBlock(s, i, last).Some? <==> last != -1 || exists j :: i <= j < |s| && s[j] == '}'
    decreases |s| - i
  {
    if i < |s| {
      if s[i] == '\\' && i + 1 < |s| && s[i + 1] == '}' {
        ScanBlockFinds(s, i + 2, i + 2);
      } else if s[i] != '}' {
        ScanBlockFinds(s, i + 1, last);
        if last == -1 && exists j :: i <= j < |s| && s[j] == '}' {
          var j :| i <= j < |s| && s[j] == '}';
          assert i + 1 <= j;
        }
      }
    }
  }

  /** A line is an attribute line exactly when it starts with `{:` and a
      `}` follows somewhere, escaped or not. */
  lemma BlockEndExists(line: string)
    ensures BlockEnd(line).Some? <==> StartsWith(line, "{:") && exists j :: 2 <= j < |line| && line[j] == '}'
  {
    if StartsWith(line, "{:") {
      ScanBlockFinds(line, 2, -1);
    }
  }

  lemma {:induction false} ScanBlockPlain(s: string, i: nat, last: int)
    requires 2 <= i <= |s|
    requires '\\' !in s[i..] && Find(s, '}', i) < |s|
    requires last == -1 || (3 <= last <= i && s[last - 1] == '}')
    ensures ScanBlock(s, i, last) == Some(Find(s, '}', i) + 1)
    decreases |s| - i
  {
    assert s[i] == s[i..][0];
    if s[i] != '}' {
      assert s[i + 1..] == s[i..][1..];
      ScanBlockPlain(s, i + 1, last);
    }
  }

  /** Without backslashes the block ends at the first `}`. */
  lemma BlockEndPlain(line: string)
    requires StartsWith(line, "{:") && '\\' !in line && Find(line, '}', 2) < |line|
    ensures BlockEnd(line) == Some(Find(line, '}', 2) + 1)
  {
    assert forall k :: 0 <= k < |line[2..]| ==> line[2..][k] == line[k + 2];
    ScanBlockPlain(line, 2, -1);
  }

  /** `refNameRegex` tried at `p`: `{`, at most three spaces, `:`, a name of
      one or more non-colons, `:`, and a value up to the first `}`. */
  function RefNameAt(m: string, p: nat): Option<(string, string)>
    requires p < |m|
  {
    if m[p] != '{' then None
    else
      var q := p + 1 + LeadingSpaces(m[p + 1..]);
      if q - (p + 1) > 3 || q == |m| || m[q] != ':' then None
      else
        var e := Find(m, ':', q + 1);
        if e == q + 1 || e == |m| then None
        else Some((m[q + 1..e], m[e + 1..Find(m, '}', e + 1)]))
  }

  /** `refNameRegex.exec(m)`: the first position where it matches. */
  function RefName(m: string, p: nat): Option<(string, string)>
    decreases |m| - p
  {
    if p >= |m| then None
    else if RefNameAt(m, p).Some? then RefNameAt(m, p)
    else RefName(m, p + 1)
  }

  lemma {:induction false} FindIs(s: string, c: char, from: nat, r: nat)
    requires from <= r <= |s|
    requires forall k :: from <= k < r ==> s[k] != c
    requires r < |s| ==> s[r] == c
    ensures Find(s, c, from) == r
    decreases |s| - from
  {
    if from < r {
      FindIs(s, c, from + 1, r);
    }
  }

  /** What a trimmed outline line is. */
  datatype LineKind =
    | Definition(name: string, value: string)
    | ListLine(content: string)
    | Entry

  /** `processAttributeIfPresentInLine`, deciding only: a `{:...}` block
      with a `name:` in it defines `name`; any other block contributes the
      trimmed text between `{:` and its first `}` (the position where
      `attributeListContentRegex` always matches inside such a block). */
  function Kind(line: string): LineKind {
    match BlockEnd(line)
    case None => Entry
    case Some(n) =>
      var m := line[..n];
      match RefName(m, 0)
      case Some(d) => Definition(d.0, d.1)
      case None => ListLine(Trim(m[2..Find(m, '}', 2)]))
  }

  lemma {:induction false} NoSecondColon(m: string, p: nat)
    requires |m| >= 2 && m[1] == ':' && forall k :: 2 <= k < |m| ==> m[k] != ':'
    ensures RefName(m, p) == None
    decreases |m| - p
  {
    if p < |m| {
      var q := p + 1 + LeadingSpaces(m[p + 1..]);
      assert 2 <= q < |m| ==> m[q] != ':';
      NoSecondColon(m, p + 1);
    }
  }

  /** `{:content}` without a colon, backslash or brace in `content`
      contributes `content` trimmed. */
  lemma ListLineIs(content: string)
    requires ':' !in content && '}' !in content && '\\' !in content
    ensures Kind("{:" + content + "}") == ListLine(Trim(content))
  {
    var line := "{:" + content + "}";
    var n := |line|;
    assert forall k :: 2 <= k < n - 1 ==> line[k] == content[k - 2];
    FindIs(line, '}', 2, n - 1);
    BlockEndPlain(line);
    assert line[..n] == line;
    NoSecondColon(line, 0);
    assert line[2..n - 1] == content;
  }

  /** The characters of a definition line `{:name:value}`. */
  lemma DefinitionLineChars(name: string, value: string)
    ensures var line := "{:" + name + ":" + value + "}";
      && |line| == |name| + |value| + 4
      && line[0] == '{' && line[1] == ':' && line[|name| + 2] == ':' && line[|line| - 1] == '}'
      && (forall k :: 2 <= k < |name| + 2 ==> line[k] == name[k - 2])
      && (forall k :: |name| + 2 < k < |line| - 1 ==> line[k] == value[k - |name| - 3])
  {
  }

  lemma DefinitionBlockEnd(name: string, value: string)
    requires ':' !in name && '}' !in name && '\\' !in name
    requires '}' !in value && '\\' !in value
    ensures BlockEnd("{:" + name + ":" + value + "}") == Some(|name| + |value| + 4)
  {
    var line := "{:" + name + ":" + value + "}";
    DefinitionLineChars(name, value);
    FindIs(line, '}', 2, |line| - 1);
    BlockEndPlain(line);
  }

  lemma DefinitionRefNameAt(name: string, value: string)
    requires |name| > 0 && ':' !in name && '}' !in name
    requires '}' !in value
    ensures RefNameAt("{:" + name + ":" + value + "}", 0) == Some((name, value))
  {
    var line := "{:" + name + ":" + value + "}";
    var e := 2 + |name|;
    DefinitionLineChars(name, value);
    assert LeadingSpaces(line[1..]) == 0;
    FindIs(line, ':', 2, e);
    FindIs(line, '}', e + 1, |line| - 1);
    assert line[2..e] == name;
    assert line[e + 1..|line| - 1] == value;
  }

  /** `{:name:value}` defines `name` as `value`: the line reader inverts
      the way a definition is written. */
  lemma DefinitionLineIs(name: string, value: string)
    requires |name| > 0 && ':' !in name && '}' !in name && '\\' !in name
    requires '}' !in value && '\\' !in value
    ensures Kind("{:" + name + ":" + value + "}") == Definition(name, value)
  {
    var line := "{:" + name + ":" + value + "}";
    DefinitionBlockEnd(name, value);
    assert line[..|line|] == line;
    DefinitionRefNameAt(name, value);
  }

  /** A line that does not start with `{:` is an entry. */
  lemma EntryLine(line: string)
    requires !StartsWith(line, "{:")
    ensures Kind(line) == Entry
  {
  }

  // ---------------------------------------------------------------------
  // The attribute buffer.

  /** The attribute lists waiting for the next entry, and the named
      definitions seen so far. */
  datatype Pending = Pending(lists: seq<string>, defs: Attributes.Definitions)

  /** The effect of an attribute line on the buffer. */
  function Absorb(p: Pending, k: LineKind): (r: Pending)
    requires !k.Entry?
    ensures k.Definition? ==> r.lists == p.lists && r.defs == p.defs[k.name := k.value]
    ensures k.ListLine? ==> r.lists == p.lists + [k.content] && r.defs == p.defs
  {
    match k
    case Definition(name, value) => p.(defs := p.defs[name := value])
    case ListLine(c) => p.(lists := p.lists + [c])
  }

  /** The attribute lines right after an entry, consumed into it: the index
      of the first line that is not one, and the buffer after them. */
  function Gather(lines: seq<string>, j: nat, p: Pending): (r: (nat, Pending))
    requires j <= |lines|
    ensures j <= r.0 <= |lines|
    ensures forall k :: j <= k < r.0 ==> !Kind(Trim(lines[k])).Entry?
    ensures r.0 < |lines| ==> Kind(Trim(lines[r.0])).Entry?
    ensures |r.1.lists| >= |p.lists| && r.1.lists[..|p.lists|] == p.lists
    decreases |lines| - j
  {
    if j == |lines| then (j, p)
    else
      var k := Kind(Trim(lines[j]));
      if k.Entry? then (j, p) else Gather(lines, j + 1, Absorb(p, k))
  }
}

=== FILE: text_toc.dfy ===
/** The text outline extension: `parseTextToc` reads a `toc` or `toc.txt`
    file into a model tree of topics with their levels and attributes, and
    `generateToc` walks that tree depth first, resolving and offering each
    topic to the `xml.toc.file.onGenerate` handlers exactly as the Markdown
    outline reader does, and placing what comes back in the output tree. */
module TextToc {
  import opened JsCore
  import Attributes
  import opened Forest
  import opened OutlineLines
  import opened TocAssembly

  /** A topic of the model tree. */
  datatype Topic = Topic(topic: string, attributes: Attributes.Attrs)

  /** What `parseTextToc` gives: nothing for a file that is not a text
      outline, no answer when a named attribute list refers to itself, or
      the model tree (the root's children) and the warnings. */
  datatype Parse =
    | NotOutline
    | Diverges
    | Model(roots: seq<Tree<Topic>>, warnings: seq<Warning>)

  /** The line the Markdown navigation writer puts at the top of an outline. */
  const NavigationComment: string := "<!-- Markdown Navigation -->"

  /** `/toc(\.txt)?$/`: the path ends in `toc` or in `toc.txt`. */
  predicate IsOutlinePath(path: string) {
    EndsWith(path, "toc") || EndsWith(path, "toc.txt")
  }

  datatype TextState = TextState(tree: Builder<Topic>, pending: Pending, warnings: seq<Warning>)

  /** Line `i` of a text outline: a blank or navigation-comment line clears
      the pending lists, an attribute line is absorbed, an entry deeper than
      one level below the last one is left out with a warning, and any other
      entry becomes a topic with the attributes of the pending lists and of
      the attribute lines right after it. */
  function TextStep(lines: seq<string>, i: nat, st: TextState, fuel: nat): (r: Option<(nat, TextState)>)
    requires i < |lines|
    ensures r.Some? ==> i < r.value.0 <= |lines|
  {
    var entry := Trim(ExpandTabs(lines[i]));
    if entry == "" || entry == NavigationComment then Some((i + 1, st.(pending := st.pending.(lists := []))))
    else if !Kind(entry).Entry? then Some((i + 1, st.(pending := Absorb(st.pending, Kind(entry)))))
    else
      var level := TextLevel(lines[i]) as real;
      if level - TopLevel(st.tree) > 1.0 then
        Some((i + 1, TextState(st.tree, st.pending.(lists := []), st.warnings + [BadNesting(entry)])))
      else
        var (j, p) := Gather(lines, i + 1, st.pending);
        match Attributes.ComputeAttributes(p.lists, p.defs, fuel)
        case None => None
        case Some(attrs) =>
          Some((j, TextState(Place(st.tree, Topic(entry, attrs), level), p.(lists := []), st.warnings)))
  }

  function TextLines(lines: seq<string>, i: nat, st: TextState, fuel: nat): Option<TextState>
    decreases |lines| - i
  {
    if i >= |lines| then Some(st)
    else
      match TextStep(lines, i, st, fuel)
      case None => None
      case Some((j, next)) => TextLines(lines, j, next, fuel)
  }

  /** `parseTextToc(content, {sourcePath: path})`. */
  function ParseTextToc(content: string, path: string, fuel: nat): Parse {
    if !IsOutlinePath(path) then NotOutline
    else
      match TextLines(Split(content, '\n'), 0, TextState(Empty(), Pending([], map[]), []), fuel)
      case None => Diverges
      case Some(st) => Model(Finish(st.tree), st.warnings)
  }

  /** Only outline files are read. */
  lemma OnlyOutlineFiles(content: string, path: string, fuel: nat)
    ensures ParseTextToc(content, path, fuel).NotOutline? <==> !IsOutlinePath(path)
    ensures IsOutlinePath("nav/toc") && IsOutlinePath("toc.txt") && !IsOutlinePath("toc.md")
  {
    assert "nav/toc"[4..] == "toc";
    assert "toc.md"[3..] == ".md";
  }

  /** Text levels are whole, so the nesting check places every topic exactly
      one level below its parent. */
  lemma TextStepExact(lines: seq<string>, i: nat, st: TextState, fuel: nat)
    requires i < |lines| && ExactBuilder(st.tree)
    ensures var r := TextStep(lines, i, st, fuel);
      r.Some? ==> ExactBuilder(r.value.1.tree)
  {
    var entry := Trim(ExpandTabs(lines[i]));
    var level := TextLevel(lines[i]) as real;
    if entry != "" && entry != NavigationComment && Kind(entry).Entry? && level - TopLevel(st.tree) <= 1.0 {
      var (j, p) := Gather(lines, i + 1, st.pending);
      var attrs := Attributes.ComputeAttributes(p.lists, p.defs, fuel);
      if attrs.Some? {
        PlaceExact(st.tree, Topic(entry, attrs.value), TextLevel(lines[i]));
      }
    }
  }

  /** Topics are only ever added after what is already there. */
  lemma TextStepAppends(lines: seq<string>, i: nat, st: TextState, fuel: nat)
    requires i < |lines|
    ensures var r := TextStep(lines, i, st, fuel);
      r.Some? ==> IsPrefix(Contents(st.tree), Contents(r.value.1.tree)) && IsPrefix(st.warnings, r.value.1.warnings)
  {
    var entry := Trim(ExpandTabs(lines[i]));
    var level := TextLevel(lines[i]) as real;
    if entry != "" && entry != NavigationComment && Kind(entry).Entry? && level - TopLevel(st.tree) <= 1.0 {
      var (j, p) := Gather(lines, i + 1, st.pending);
      var attrs := Attributes.ComputeAttributes(p.lists, p.defs, fuel);
      if attrs.Some? {
        PlaceAppends(st.tree, Topic(entry, attrs.value), level);
      }
    }
  }

  lemma {:induction false} TextLinesKeep(lines: seq<string>, i: nat, st: TextState, fuel: nat)
    requires ExactBuilder(st.tree)
    ensures var r := TextLines(lines, i, st, fuel);
      r.Some? ==>
        && ExactBuilder(r.value.tree)
        && IsPrefix(Contents(st.tree), Contents(r.value.tree))
        && IsPrefix(st.warnings, r.value.warnings)
    decreases |lines| - i
  {
    if i < |lines| {
      TextStepExact(lines, i, st, fuel);
      TextStepAppends(lines, i, st, fuel);
      var r := TextStep(lines, i, st, fuel);
      if r.Some? {
        var (j, next) := r.value;
        TextLinesKeep(lines, j, next, fuel);
        var fin := TextLines(lines, j, next, fuel);
        if fin.Some? {
          PrefixTrans(Contents(st.tree), Contents(next.tree), Contents(fin.value.tree));
          PrefixTrans(st.warnings, next.warnings, fin.value.warnings);
        }
      }
    }
  }

  /** Every topic of a parsed model sits exactly one level below its parent,
      and the top-level topics are at level 1. */
  lemma ModelIsExact(content: string, path: string, fuel: nat)
    ensures var r := ParseTextToc(content, path, fuel);
      r.Model? ==> Exact(r.roots, 0.0)
  {
    if IsOutlinePath(path) {
      var st := TextState(Empty(), Pending([], map[]), []);
      TextLinesKeep(Split(content, '\n'), 0, st, fuel);
      var r := TextLines(Split(content, '\n'), 0, st, fuel);
      if r.Some? {
        FinishExact(r.value.tree);
      }
    }
  }

  /** The navigation comment clears the pending lists like a blank line,
      keeps the named definitions and adds no topic. */
  lemma CommentClears(lines: seq<string>, i: nat, st: TextState, fuel: nat)
    requires i < |lines| && Trim(ExpandTabs(lines[i])) == NavigationComment
    ensures TextStep(lines, i, st, fuel) == Some((i + 1, TextState(st.tree, Pending([], st.pending.defs), st.warnings)))
  {
  }

  /** An accepted entry becomes the last topic of the model, at its level,
      with the attributes of the pending lists and of the attribute lines
      right after it; reading resumes after those lines with the lists
      emptied and the named definitions kept. */
  lemma TextEntryPlaced(lines: seq<string>, i: nat, st: TextState, fuel: nat)
    requires i < |lines|
    requires Trim(ExpandTabs(lines[i])) != "" && Trim(ExpandTabs(lines[i])) != NavigationComment
    requires Kind(Trim(ExpandTabs(lines[i]))).Entry?
    requires (TextLevel(lines[i]) as real) - TopLevel(st.tree) <= 1.0
    ensures var (j, p) := Gather(lines, i + 1, st.pending);
      var attrs := Attributes.ComputeAttributes(p.lists, p.defs, fuel);
      var r := TextStep(lines, i, st, fuel);
      && (r.None? <==> attrs.None?)
      && (r.Some? ==>
            && r.value.0 == j
            && r.value.1.pending == Pending([], p.defs)
            && r.value.1.warnings == st.warnings
            && Contents(r.value.1.tree) == Contents(st.tree) + [(Topic(Trim(ExpandTabs(lines[i])), attrs.value), TextLevel(lines[i]) as real)])
  {
    var (j, p) := Gather(lines, i + 1, st.pending);
    var attrs := Attributes.ComputeAttributes(p.lists, p.defs, fuel);
    if attrs.Some? {
      PlaceAppends(st.tree, Topic(Trim(ExpandTabs(lines[i])), attrs.value), TextLevel(lines[i]) as real);
    }
  }

  // ---------------------------------------------------------------------
  // `generateToc`: the depth-first walk over the model.

  /** Each topic is resolved and offered to the handlers like an entry of a
      Markdown outline, its children are walked starting from the insertion
      point it left, and the next sibling starts again from that insertion
      point (the walk's `lastTocItem` is local to each call). */
  function WalkModel<F, H>(env: Env<F, H>, ts: seq<Tree<Topic>>, b: Builder<F>): (r: (Builder<F>, seq<Warning>))
    decreases ts
  {
    if |ts| == 0 then (b, [])
    else
      var t := ts[0];
      var (b1, w1) := Insert(env, b, t.item.topic, Context(t.item.topic, t.level, t.item.attributes));
      var (b2, w2) := WalkModel(env, t.children, b1);
      var (b3, w3) := WalkModel(env, ts[1..], CloseTo(b2, |b1.open|));
      (b3, w1 + w2 + w3)
  }

  /** `output`: the walk from the empty tree, finished. */
  function Output<F, H>(env: Env<F, H>, model: seq<Tree<Topic>>): (seq<Tree<F>>, seq<Warning>) {
    var (b, w) := WalkModel(env, model, Empty());
    (Finish(b), w)
  }

  /** The walk keeps every child at least one level below its parent and
      never loses or reorders what was already placed. */
  lemma {:induction false} WalkKeeps<F, H>(env: Env<F, H>, ts: seq<Tree<Topic>>, b: Builder<F>, parent: real)
    requires NestedBuilder(b) && Nested(ts, parent) && parent >= 0.0
    ensures NestedBuilder(WalkModel(env, ts, b).0)
    ensures IsPrefix(Contents(b), Contents(WalkModel(env, ts, b).0))
    decreases ts
  {
    if |ts| > 0 {
      var t := ts[0];
      var ctx := Context(t.item.topic, t.level, t.item.attributes);
      var (b1, w1) := Insert(env, b, t.item.topic, ctx);
      InsertKeeps(env, b, t.item.topic, ctx);
      WalkKeeps(env, t.children, b1, t.level);
      var (b2, w2) := WalkModel(env, t.children, b1);
      CloseToKeeps(b2, |b1.open|);
      var b3 := CloseTo(b2, |b1.open|);
      assert Nested(ts[1..], parent) by {
        forall i | 0 <= i < |ts[1..]|
          ensures ts[1..][i].level >= parent + 1.0 && Nested(ts[1..][i].children, ts[1..][i].level)
        {
          assert ts[1..][i] == ts[i + 1];
        }
      }
      WalkKeeps(env, ts[1..], b3, parent);
      PrefixTrans(Contents(b), Contents(b1), Contents(b2));
      PrefixTrans(Contents(b), Contents(b3), Contents(WalkModel(env, ts[1..], b3).0));
    }
  }

  /** The output of a parsed model nests every element at least one level
      below its parent. */
  lemma OutputNested<F, H>(env: Env<F, H>, content: string, path: string, fuel: nat)
    requires ParseTextToc(content, path, fuel).Model?
    ensures Nested(Output(env, ParseTextToc(content, path, fuel).roots).0, 0.0)
  {
    var roots := ParseTextToc(content, path, fuel).roots;
    ModelIsExact(content, path, fuel);
    ExactIsNested(roots, 0.0);
    WalkKeeps(env, roots, Empty(), 0.0);
    FinishNested(WalkModel(env, roots, Empty()).0);
  }
}

=== FILE: toc_assembly.dfy ===
/** The Markdown outline reader that builds a table of contents: each entry
    line is resolved to a fragment (an external link, a sub-directory's
    table of contents, or a converted file's own entries), offered to the
    `xml.toc.file.onGenerate` extensions together with its level and
    attributes, and, unless it was dropped, placed in the tree under the
    nearest earlier entry of a lower level.  Fragments are opaque: finding,
    printing and parsing them are parameters of the model. */
module TocAssembly {
  import opened JsCore
  import Attributes
  import Extensions
  import opened Forest
  import opened OutlineLines

  /** What a handler is told about the entry. */
  datatype Context = Context(source: string, level: real, attributes: Attributes.Attrs)

  /** The world around the reader: `resolve` finds an entry's fragment (none
      when the entry is neither a link nor an existing directory or
      converted file), `render` prints a fragment, `parse` reads printed
      text back (none for text holding no element), and `run` calls a
      handler with a context. */
  datatype Env<!F, !H> = Env(
    resolve: string -> Option<F>,
    render: F -> string,
    parse: string -> Option<F>,
    extensions: Option<Extensions.Ext<H>>,
    run: (H, string, Context) -> Extensions.Reply)

  datatype Warning =
    | BadNesting(entry: string)
    | Excluded(entry: string)

  const OnGenerate: string := "xml.toc.file.onGenerate"

  /** The extensions registered for `OnGenerate`, run on `s`. */
  function Dispatch<F, H>(env: Env<F, H>, s: string, ctx: Context): string {
    Extensions.InvokeExtensions(env.extensions, OnGenerate, s, (h, x) => env.run(h, x, ctx))
  }

  /** The fragment an entry finally contributes, and the text the handlers
      returned: the entry's own fragment when the handlers left its printed
      form alone, and otherwise whatever their text parses to.  An entry
      without a fragment is offered to the handlers as its own text. */
  function Outcome<F, H>(env: Env<F, H>, entry: string, ctx: Context): (r: (Option<F>, string)) {
    var found := env.resolve(entry);
    var printed := if found.Some? then env.render(found.value) + "\n" else "";
    var out := Dispatch(env, if printed != "" then printed else entry, ctx);
    (if printed != out then env.parse(out) else found, out)
  }

  /** Places an entry's fragment, or warns that it was left out unless the
      handlers returned the empty text. */
  function Insert<F, H>(env: Env<F, H>, b: Builder<F>, entry: string, ctx: Context): (r: (Builder<F>, seq<Warning>)) {
    var (placed, out) := Outcome(env, entry, ctx);
    if placed.Some? then (Place(b, placed.value, ctx.level), [])
    else (b, if out != "" then [Excluded(entry)] else [])
  }

  datatype State<F> = State(tree: Builder<F>, pending: Pending, warnings: seq<Warning>)

  function Cleared<F>(st: State<F>): State<F> {
    st.(pending := st.pending.(lists := []))
  }

  /** Line `i` of the outline: the line to read next and the new state.
      `None` means that expanding the named attribute lists needed more
      than `fuel` nested expansions (the source would not terminate on a
      self-referencing definition). */
  function Step<F, H>(env: Env<F, H>, lines: seq<string>, i: nat, st: State<F>, fuel: nat): (r: Option<(nat, State<F>)>)
    requires i < |lines|
    ensures r.Some? ==> i < r.value.0 <= |lines|
  {
    var entry := Trim(ExpandTabs(lines[i]));
    var kind := Kind(entry);
    if entry == "" then Some((i + 1, Cleared(st)))
    else if !kind.Entry? then Some((i + 1, st.(pending := Absorb(st.pending, kind))))
    else
      var level := MarkdownLevel(lines[i]);
      if level - TopLevel(st.tree) > 1.0 then
        Some((i + 1, State(st.tree, Cleared(st).pending, st.warnings + [BadNesting(entry)])))
      else
        var (j, p) := Gather(lines, i + 1, st.pending);
        match Attributes.ComputeAttributes(p.lists, p.defs, fuel)
        case None => None
        case Some(attrs) =>
          var (b, w) := Insert(env, st.tree, entry, Context(entry, level, attrs));
          Some((j, State(b, p.(lists := []), st.warnings + w)))
  }

  /** The line loop from line `i`. */
  function Lines<F, H>(env: Env<F, H>, lines: seq<string>, i: nat, st: State<F>, fuel: nat): Option<State<F>>
    decreases |lines| - i
  {
    if i >= |lines| then Some(st)
    else
      match Step(env, lines, i, st, fuel)
      case None => None
      case Some((j, next)) => Lines(env, lines, j, next, fuel)
  }

  /** `generateTOC` on the text of an outline file: the finished tree (the
      root's children) and the warnings, in order. */
  function GenerateToc<F, H>(env: Env<F, H>, content: string, fuel: nat): Option<(seq<Tree<F>>, seq<Warning>)> {
    match Lines(env, Split(content, '\n'), 0, State(Empty(), Pending([], map[]), []), fuel)
    case None => None
    case Some(st) => Some((Finish(st.tree), st.warnings))
  }

  ghost predicate IsPrefix<T>(a: seq<T>, b: seq<T>) {
    |a| <= |b| && b[..|a|] == a
  }

  lemma PrefixTrans<T>(a: seq<T>, b: seq<T>, c: seq<T>)
    requires IsPrefix(a, b) && IsPrefix(b, c)
    ensures IsPrefix(a, c)
  {
    assert c[..|a|] == c[..|b|][..|a|];
  }

  lemma InsertKeeps<F, H>(env: Env<F, H>, b: Builder<F>, entry: string, ctx: Context)
    requires NestedBuilder(b) && ctx.level >= 1.0
    ensures NestedBuilder(Insert(env, b, entry, ctx).0)
    ensures IsPrefix(Contents(b), Contents(Insert(env, b, entry, ctx).0))
  {
    var (placed, out) := Outcome(env, entry, ctx);
    if placed.Some? {
      PlaceNested(b, placed.value, ctx.level);
      PlaceAppends(b, placed.value, ctx.level);
    }
  }

  /** Reading a line keeps every child at least one level below its parent,
      loses or reorders nothing already placed, and only adds warnings. */
  ghost predicate Keeps<F>(st: State<F>, next: State<F>) {
    && (NestedBuilder(st.tree) ==> NestedBuilder(next.tree))
    && IsPrefix(Contents(st.tree), Contents(next.tree))
    && IsPrefix(st.warnings, next.warnings)
  }

  lemma StepKeeps<F, H>(env: Env<F, H>, lines: seq<string>, i: nat, st: State<F>, fuel: nat)
    requires i < |lines|
    ensures var r := Step(env, lines, i, st, fuel);
      r.Some? ==> Keeps(st, r.value.1)
  {
    var entry := Trim(ExpandTabs(lines[i]));
    var level := MarkdownLevel(lines[i]);
    if entry != "" && Kind(entry).Entry? && level - TopLevel(st.tree) <= 1.0 {
      var (j, p) := Gather(lines, i + 1, st.pending);
      var attrs := Attributes.ComputeAttributes(p.lists, p.defs, fuel);
      if attrs.Some? {
        var ctx := Context(entry, level, attrs.value);
        if NestedBuilder(st.tree) {
          InsertKeeps(env, st.tree, entry, ctx);
        } else {
          var (placed, out) := Outcome(env, entry, ctx);
          if placed.Some? {
            PlaceAppends(st.tree, placed.value, ctx.level);
          }
        }
      }
    }
  }

  /** The whole loop keeps what every line keeps. */
  lemma {:induction false} LinesKeep<F, H>(env: Env<F, H>, lines: seq<string>, i: nat, st: State<F>, fuel: nat)
    ensures var r := Lines(env, lines, i, st, fuel);
      r.Some? ==> Keeps(st, r.value)
    decreases |lines| - i
  {
    if i < |lines| {
      StepKeeps(env, lines, i, st, fuel);
      var r := Step(env, lines, i, st, fuel);
      if r.Some? {
        var (j, next) := r.value;
        LinesKeep(env, lines, j, next, fuel);
        var fin := Lines(env, lines, j, next, fuel);
        if fin.Some? {
          PrefixTrans(Contents(st.tree), Contents(next.tree), Contents(fin.value.tree));
          PrefixTrans(st.warnings, next.warnings, fin.value.warnings);
        }
      }
    }
  }

  /** The finished tree nests every entry at least one level below its
      parent. */
  lemma GenerateTocNested<F, H>(env: Env<F, H>, content: string, fuel: nat)
    ensures var r := GenerateToc(env, content, fuel);
      r.Some? ==> Nested(r.value.0, 0.0)
  {
    var st := State(Empty(), Pending([], map[]), []);
    LinesKeep(env, Split(content, '\n'), 0, st, fuel);
    var r := Lines(env, Split(content, '\n'), 0, st, fuel);
    if r.Some? {
      FinishNested(r.value.tree);
    }
  }

  /** Indentation in whole groups of four spaces (tabs counting four). */
  predicate WholeLevels(lines: seq<string>) {
    forall k :: 0 <= k < |lines| ==> LeadingSpaces(ExpandTabs(lines[k])) % 4 == 0
  }

  lemma WholeLevel(line: string)
    requires LeadingSpaces(ExpandTabs(line)) % 4 == 0
    ensures MarkdownLevel(line) == ((LeadingSpaces(ExpandTabs(line)) / 4 + 1) as real)
  {
    var n := LeadingSpaces(ExpandTabs(line));
    assert n == 4 * (n / 4);
    assert (n as real) / 4.0 == (n / 4) as real;
  }

  lemma InsertExact<F, H>(env: Env<F, H>, b: Builder<F>, entry: string, ctx: Context, k: nat)
    requires ExactBuilder(b) && 1 <= k && ctx.level == k as real && ctx.level - TopLevel(b) <= 1.0
    ensures ExactBuilder(Insert(env, b, entry, ctx).0)
  {
    var (placed, out) := Outcome(env, entry, ctx);
    if placed.Some? {
      PlaceExact(b, placed.value, k);
    }
  }

  lemma StepExact<F, H>(env: Env<F, H>, lines: seq<string>, i: nat, st: State<F>, fuel: nat)
    requires i < |lines| && ExactBuilder(st.tree) && LeadingSpaces(ExpandTabs(lines[i])) % 4 == 0
    ensures var r := Step(env, lines, i, st, fuel);
      r.Some? ==> ExactBuilder(r.value.1.tree)
  {
    var entry := Trim(ExpandTabs(lines[i]));
    var level := MarkdownLevel(lines[i]);
    if entry != "" && Kind(entry).Entry? && level - TopLevel(st.tree) <= 1.0 {
      var (j, p) := Gather(lines, i + 1, st.pending);
      var attrs := Attributes.ComputeAttributes(p.lists, p.defs, fuel);
      if attrs.Some? {
        WholeLevel(lines[i]);
        InsertExact(env, st.tree, entry, Context(entry, level, attrs.value), LeadingSpaces(ExpandTabs(lines[i])) / 4 + 1);
      }
    }
  }

  lemma {:induction false} LinesExact<F, H>(env: Env<F, H>, lines: seq<string>, i: nat, st: State<F>, fuel: nat)
    requires ExactBuilder(st.tree) && WholeLevels(lines)
    ensures var r := Lines(env, lines, i, st, fuel);
      r.Some? ==> ExactBuilder(r.value.tree)
    decreases |lines| - i
  {
    if i < |lines| {
      StepExact(env, lines, i, st, fuel);
      var r := Step(env, lines, i, st, fuel);
      if r.Some? {
        LinesExact(env, lines, r.value.0, r.value.1, fuel);
      }
    }
  }

  /** With whole-level indentation every entry in the finished tree sits
      exactly one level below its parent: a deeper jump is never placed. */
  lemma GenerateTocExact<F, H>(env: Env<F, H>, content: string, fuel: nat)
    requires WholeLevels(Split(content, '\n'))
    ensures var r := GenerateToc(env, content, fuel);
      r.Some? ==> Exact(r.value.0, 0.0)
  {
    var st := State(Empty(), Pending([], map[]), []);
    LinesExact(env, Split(content, '\n'), 0, st, fuel);
    var r := Lines(env, Split(content, '\n'), 0, st, fuel);
    if r.Some? {
      FinishExact(r.value.tree);
    }
  }

  // ---------------------------------------------------------------------
  // One line at a time.

  /** A blank line clears the pending attribute lists and keeps the named
      definitions. */
  lemma BlankLineClears<F, H>(env: Env<F, H>, lines: seq<string>, i: nat, st: State<F>, fuel: nat)
    requires i < |lines| && Trim(ExpandTabs(lines[i])) == ""
    ensures Step(env, lines, i, st, fuel) == Some((i + 1, State(st.tree, Pending([], st.pending.defs), st.warnings)))
  {
  }

  /** An entry more than one level below the last placed one is left out
      with one warning, and the pending attribute lists are dropped. */
  lemma NestingJumpExcluded<F, H>(env: Env<F, H>, lines: seq<string>, i: nat, st: State<F>, fuel: nat)
    requires i < |lines|
    requires Trim(ExpandTabs(lines[i])) != "" && Kind(Trim(ExpandTabs(lines[i]))).Entry?
    requires MarkdownLevel(lines[i]) > TopLevel(st.tree) + 1.0
    ensures Step(env, lines, i, st, fuel)
         == Some((i + 1, State(st.tree, Pending([], st.pending.defs), st.warnings + [BadNesting(Trim(ExpandTabs(lines[i])))])))
  {
  }

  /** A `{:name:value}` line records a definition and adds no entry. */
  lemma DefinitionLineRecords<F, H>(env: Env<F, H>, lines: seq<string>, i: nat, st: State<F>, fuel: nat, name: string, value: string)
    requires |name| > 0 && ':' !in name && '}' !in name && '\\' !in name && '\t' !in name
    requires '}' !in value && '\\' !in value && '\t' !in value
    requires i < |lines| && lines[i] == "{:" + name + ":" + value + "}"
    ensures Step(env, lines, i, st, fuel) == Some((i + 1, st.(pending := st.pending.(defs := st.pending.defs[name := value]))))
  {
    var line := lines[i];
    assert line[0] == '{' && line[|line| - 1] == '}';
    NoTabs(line);
    TrimKeeps(line);
    DefinitionLineIs(name, value);
  }

  lemma NoTabs(line: string)
    requires |line| >= 1 && line[0] == '{' && '\t' !in line
    ensures ExpandTabs(line) == line
  {
    ExpandTabsNoTab(line);
  }

  lemma TrimKeeps(line: string)
    requires |line| >= 1 && !IsJsSpace(line[0]) && !IsJsSpace(line[|line| - 1])
    ensures Trim(line) == line
  {
  }

  /** An entry gets the pending lists followed by the attribute lines right
      after it, and the buffer is empty afterwards. */
  lemma EntryTakesFollowingLines<F, H>(env: Env<F, H>, lines: seq<string>, i: nat, st: State<F>, fuel: nat)
    requires i < |lines|
    requires Trim(ExpandTabs(lines[i])) != "" && Kind(Trim(ExpandTabs(lines[i]))).Entry?
    requires MarkdownLevel(lines[i]) <= TopLevel(st.tree) + 1.0
    ensures var (j, p) := Gather(lines, i + 1, st.pending);
      var entry := Trim(ExpandTabs(lines[i]));
      && (forall k :: i < k < j ==> !Kind(Trim(lines[k])).Entry?)
      && IsPrefix(st.pending.lists, p.lists)
      && Step(env, lines, i, st, fuel)
         == match Attributes.ComputeAttributes(p.lists, p.defs, fuel)
            case None => None
            case Some(attrs) =>
              var (b, w) := Insert(env, st.tree, entry, Context(entry, MarkdownLevel(lines[i]), attrs));
              Some((j, State(b, Pending([], p.defs), st.warnings + w)))
  {
  }

  // ---------------------------------------------------------------------
  // The handlers' say.

  /** Returning the empty text drops an entry silently. */
  lemma VetoIsSilent<F, H>(env: Env<F, H>, b: Builder<F>, entry: string, ctx: Context)
    requires env.parse("") == None
    requires var found := env.resolve(entry);
      Dispatch(env, if found.Some? then env.render(found.value) + "\n" else entry, ctx) == ""
    ensures Insert(env, b, entry, ctx) == (b, [])
  {
  }

  /** With no handler registered a resolved entry places its own fragment,
      and an unresolved one places whatever its own text parses to, with a
      warning only when that is nothing. */
  lemma WithoutHandlers<F, H>(env: Env<F, H>, b: Builder<F>, entry: string, ctx: Context)
    requires entry != ""
    requires Extensions.HandlerList(Extensions.Walk(env.extensions, Split(OnGenerate, '.'))) == []
    ensures var found := env.resolve(entry);
      Insert(env, b, entry, ctx)
        == if found.Some? then (Place(b, found.value, ctx.level), [])
           else if env.parse(entry).Some? then (Place(b, env.parse(entry).value, ctx.level), [])
           else (b, [Excluded(entry)])
  {
    var found := env.resolve(entry);
    var printed := if found.Some? then env.render(found.value) + "\n" else "";
    var s := if printed != "" then printed else entry;
    Extensions.NoHandlerNoChange(env.extensions, OnGenerate, s, (h, x) => env.run(h, x, ctx));
    assert Dispatch(env, s, ctx) == s;
  }
}

=== FILE: variables.dfy ===
/** `replaceVariables` of lib/mdProcessor.js: `{{a.b.c}}` tokens resolved
    against a general (conref) data map and a local data map, with a resolved
    value spliced back in front of the unscanned text so that it is scanned
    again.  The source loops for ever when a value keeps producing tokens that
    resolve; here every splice spends one unit of `fuel`, and `None` stands for
    "the source would not terminate". */
module Variables {
  import opened JsCore

  /** A value of a parsed YAML/JSON data map. */
  datatype Value =
    | Str(s: string)
    | Obj(fields: map<string, Value>)
      /** a number, boolean or null: its truthiness and how it stringifies */
    | Prim(truthy: bool, text: string)


  predicate IsTruthy(v: Option<Value>) {
    match v
    case None => false
    case Some(Str(s)) => s != ""
    case Some(Obj(_)) => true
    case Some(Prim(t, _)) => t
  }

  /** What `value + text` turns a value into. */
  function ToText(v: Value): string {
    match v
    case Str(s) => s
    case Obj(_) => "[object Object]"
    case Prim(_, t) => t
  }

  /** One step of the `reduce` in the source: a falsy value stays undefined,
      otherwise the named field (undefined when absent). */
  function Step(v: Option<Value>, k: string): Option<Value> {
    if IsTruthy(v) && v.value.Obj? && k in v.value.fields then Some(v.value.fields[k]) else None
  }

  /** `keys.reduce(get, root)`. */
  function Lookup(root: Option<Value>, keys: seq<string>): Option<Value>
    decreases |keys|
  {
    if |keys| == 0 then root else Lookup(Step(root, keys[0]), keys[1..])
  }

  /** Once a step comes out undefined, the rest of the walk stays undefined. */
  lemma {:induction false} LookupShortCircuits(root: Option<Value>, keys: seq<string>, i: nat)
    requires i < |keys|
    requires Lookup(root, keys[..i]) == None
    ensures Lookup(root, keys) == None
    decreases i
  {
    if i == 0 {
      NoneStaysNone(keys);
    } else {
      assert keys[1..][..i - 1] == keys[..i][1..];
      LookupShortCircuits(Step(root, keys[0]), keys[1..], i - 1);
    }
  }

  lemma {:induction false} NoneStaysNone(keys: seq<string>)
    ensures |keys| > 0 ==> Lookup(None, keys) == None
    decreases |keys|
  {
    if |keys| > 1 {
      NoneStaysNone(keys[1..]);
    }
  }

  /** The value a key stands for: the conref map's value, replaced by the
      local map's value when that one is truthy; the empty string when neither
      map applies. */
  function Resolve(key: string, conref: Option<Value>, local: Option<Value>): Option<Value> {
    var keys := Split(key, '.');
    var fromConref := if IsTruthy(conref) then Lookup(conref, keys) else Some(Str(""));
    if IsTruthy(local) && IsTruthy(Lookup(local, keys)) then Lookup(local, keys) else fromConref
  }

  /** The local map wins exactly when its value is truthy; otherwise only the
      conref map can supply a value. */
  lemma ResolvePrecedence(key: string, conref: Option<Value>, local: Option<Value>)
    ensures IsTruthy(local) && IsTruthy(Lookup(local, Split(key, '.'))) ==>
              Resolve(key, conref, local) == Lookup(local, Split(key, '.'))
    ensures !(IsTruthy(local) && IsTruthy(Lookup(local, Split(key, '.')))) && IsTruthy(Resolve(key, conref, local)) ==>
              IsTruthy(conref) && Resolve(key, conref, local) == Lookup(conref, Split(key, '.'))
  {
  }

  /** What the text between `{{` and `}}` is replaced with: `Some` of the
      value's text when its trimmed key resolves to a truthy value, `None` when
      the token stays in place.  `Resolver(conref, local)` is the source's
      lookup; the scan below is stated for any resolution. */
  type Resolution = imap<string, string>

  function TokenText(token: string, conref: Option<Value>, local: Option<Value>): (r: Option<string>)
    ensures r.Some? <==> IsTruthy(Resolve(Trim(token), conref, local))
  {
    var v := Resolve(Trim(token), conref, local);
    if IsTruthy(v) then Some(ToText(v.value)) else None
  }

  ghost function Resolver(conref: Option<Value>, local: Option<Value>): (res: Resolution)
    ensures forall token :: token in res <==> TokenText(token, conref, local).Some?
  {
    imap token | TokenText(token, conref, local).Some? :: TokenText(token, conref, local).value
  }

  /** A key without dots names a field of the local map, or failing that of
      the conref map; the token stays when neither field is truthy. */
  lemma TokenPlainKey(key: string, conref: Option<Value>, local: Option<Value>)
    requires '.' !in key && Trim(key) == key
    ensures TokenText(key, conref, local)
         == if IsTruthy(Step(local, key)) then Some(ToText(Step(local, key).value))
            else if IsTruthy(Step(conref, key)) then Some(ToText(Step(conref, key).value))
            else None
  {
    SplitNoSeparator(key, '.');
    assert Lookup(local, [key]) == Lookup(Step(local, key), []);
    assert Lookup(conref, [key]) == Lookup(Step(conref, key), []);
  }

  /** A value that is not truthy leads nowhere. */
  lemma FalsyLookup(v: Option<Value>, keys: seq<string>)
    requires !IsTruthy(v) && |keys| > 0
    ensures !IsTruthy(Lookup(v, keys))
  {
    NoneStaysNone(keys[1..]);
    assert Lookup(v, keys) == Lookup(None, keys[1..]);
  }

  /** The dotted walk composes: `a.rest` in two maps is `rest` in their
      fields named `a`. */
  lemma TokenDotted(first: string, rest: string, conref: Option<Value>, local: Option<Value>)
    requires '.' !in first
    requires Trim(first + "." + rest) == first + "." + rest && Trim(rest) == rest
    ensures TokenText(first + "." + rest, conref, local) == TokenText(rest, Step(conref, first), Step(local, first))
  {
    var key := first + "." + rest;
    var ks := Split(rest, '.');
    SplitAfter(first, '.', rest);
    assert Split(key, '.') == [first] + ks;
    assert ([first] + ks)[1..] == ks;
    assert Lookup(local, [first] + ks) == Lookup(Step(local, first), ks);
    assert Lookup(conref, [first] + ks) == Lookup(Step(conref, first), ks);
    if !IsTruthy(Step(local, first)) {
      FalsyLookup(Step(local, first), ks);
    }
    if !IsTruthy(Step(conref, first)) {
      FalsyLookup(Step(conref, first), ks);
    }
  }

  /** Blanks around the key make no difference, however many there are on
      either side. */
  lemma TokenTrimmed(pre: string, token: string, post: string, conref: Option<Value>, local: Option<Value>)
    requires forall i :: 0 <= i < |pre| ==> IsJsSpace(pre[i])
    requires forall i :: 0 <= i < |post| ==> IsJsSpace(post[i])
    ensures TokenText(pre + token + post, conref, local) == TokenText(token, conref, local)
  {
    TrimPadded(pre, token, post);
  }

  function Prepend(p: string, r: Option<string>): Option<string> {
    if r.Some? then Some(p + r.value) else None
  }

  lemma PrependTwice(a: string, b: string, r: Option<string>)
    ensures Prepend(a, Prepend(b, r)) == Prepend(a + b, r)
  {
    if r.Some? {
      assert a + (b + r.value) == (a + b) + r.value;
    }
  }

  /** The scanning loop of the source as a recursion on the text still to be
      scanned: the text up to an unresolved token is kept as it is, and a
      resolved token is replaced by its value followed by the rest of the text,
      which is then scanned again from its start.  Each such splice spends one
      unit of `fuel`. */
  function Scan(t: string, res: Resolution, fuel: nat): Option<string>
    decreases fuel, |t|
  {
    var i := IndexOfPair(t, '{', 0);
    if i == -1 then Some(t)
    else
      var e := IndexOfPair(t, '}', i + 2);
      if e == -1 then Some(t)
      else
        var token := t[i + 2..e];
        if token !in res then Prepend(t[..e + 2], Scan(t[e + 2..], res, fuel))
        else if fuel == 0 then None
        else Prepend(t[..i], Scan(res[token] + t[e + 2..], res, fuel - 1))
  }

  /** Reference definition of `replaceVariables(text, conrefMap, localMap)`. */
  ghost function Substitute(text: string, conref: Option<Value>, local: Option<Value>, fuel: nat): Option<string> {
    if !(IsTruthy(conref) || IsTruthy(local)) then Some(text) else Scan(text, Resolver(conref, local), fuel)
  }

  // The four ways one step of the scan can go.

  lemma ScanDone(t: string, res: Resolution, fuel: nat)
    requires IndexOfPair(t, '{', 0) == -1 || IndexOfPair(t, '}', IndexOfPair(t, '{', 0) + 2) == -1
    ensures Scan(t, res, fuel) == Some(t)
  {
  }

  /** The keep step, stated on the kept text `p` and the rest separately. */
  lemma KeepStep(p: string, rest: string, i: nat, e: nat, res: Resolution, fuel: nat)
    requires e + 2 == |p|
    requires i == IndexOfPair(p + rest, '{', 0) && e == IndexOfPair(p + rest, '}', i + 2)
    requires (p + rest)[i + 2..e] !in res
    ensures Scan(p + rest, res, fuel) == Prepend(p, Scan(rest, res, fuel))
  {
  }

  /** The splice step, stated on the text `qm` up to the end of the token
      and the rest separately. */
  lemma SpliceStep(qm: string, rest: string, i: nat, e: nat, res: Resolution, fuel: nat)
    requires fuel > 0 && e + 2 == |qm|
    requires i == IndexOfPair(qm + rest, '{', 0) && e == IndexOfPair(qm + rest, '}', i + 2)
    requires (qm + rest)[i + 2..e] in res
    ensures Scan(qm + rest, res, fuel)
         == Prepend((qm + rest)[..i], Scan(res[(qm + rest)[i + 2..e]] + rest, res, fuel - 1))
  {
  }

  lemma ScanKeep(t: string, i: nat, e: nat, res: Resolution, fuel: nat)
    requires i == IndexOfPair(t, '{', 0) && e == IndexOfPair(t, '}', i + 2)
    requires t[i + 2..e] !in res
    ensures i + 2 <= e && e + 2 <= |t|
    ensures Scan(t, res, fuel) == Prepend(t[..e + 2], Scan(t[e + 2..], res, fuel))
  {
    var p, rest := t[..e + 2], t[e + 2..];
    assert t == p + rest;
    KeepStep(p, rest, i, e, res, fuel);
  }

  lemma ScanSplice(t: string, i: nat, e: nat, res: Resolution, fuel: nat)
    requires fuel > 0
    requires i == IndexOfPair(t, '{', 0) && e == IndexOfPair(t, '}', i + 2)
    requires t[i + 2..e] in res
    ensures i + 2 <= e && e + 2 <= |t|
    ensures Scan(t, res, fuel) == Prepend(t[..i], Scan(res[t[i + 2..e]] + t[e + 2..], res, fuel - 1))
  {
  }

  lemma ScanOutOfFuel(t: string, i: nat, e: nat, res: Resolution)
    requires i == IndexOfPair(t, '{', 0) && e == IndexOfPair(t, '}', i + 2)
    requires t[i + 2..e] in res
    ensures Scan(t, res, 0) == None
  {
  }

  /** More fuel changes nothing once the scan has finished. */
  lemma {:induction false} ScanFuelMonotone(t: string, res: Resolution, fuel: nat, more: nat)
    requires fuel <= more
    requires Scan(t, res, fuel).Some?
    ensures Scan(t, res, more) == Scan(t, res, fuel)
    decreases fuel, |t|
  {
    var i := IndexOfPair(t, '{', 0);
    if i == -1 || IndexOfPair(t, '}', i + 2) == -1 {
      ScanDone(t, res, fuel);
      ScanDone(t, res, more);
    } else {
      var e := IndexOfPair(t, '}', i + 2);
      if t[i + 2..e] !in res {
        ScanKeep(t, i, e, res, fuel);
        ScanFuelMonotone(t[e + 2..], res, fuel, more);
        ScanKeep(t, i, e, res, more);
      } else if fuel > 0 {
        ScanSplice(t, i, e, res, fuel);
        ScanFuelMonotone(res[t[i + 2..e]] + t[e + 2..], res, fuel - 1, more - 1);
        ScanSplice(t, i, e, res, more);
      }
    }
  }

  /** A scanned text is settled: scanning it again resolves nothing. */
  predicate Settled(o: string, res: Resolution) {
    Scan(o, res, 0) == Some(o)
  }

  /** Text without `{{` that does not end in `{` passes through a scan
      untouched, whatever follows it. */
  lemma PlainPrefix(p: string, b: string, res: Resolution, fuel: nat)
    requires forall j :: 0 <= j ==> !PairAt(p, j, '{')
    requires |p| > 0 ==> p[|p| - 1] != '{'
    ensures Scan(p + b, res, fuel) == Prepend(p, Scan(b, res, fuel))
  {
    var s := p + b;
    IndexOfPairShift(p, b, '{', 0);
    var r := IndexOfPair(s, '{', |p|);
    forall j | 0 <= j && (r == -1 || j < r)
      ensures !PairAt(s, j, '{')
    {
      if j < |p| - 1 {
        assert s[j] == p[j] && s[j + 1] == p[j + 1];
        assert !PairAt(p, j, '{');
      } else if j == |p| - 1 {
        assert s[j] == p[j];
      } else {
        IndexOfPairFirst(s, '{', |p|, j);
      }
    }
    IndexOfPairIs(s, '{', 0, r);
    var ib := IndexOfPair(b, '{', 0);
    if ib == -1 {
      ScanDone(s, res, fuel);
      ScanDone(b, res, fuel);
    } else {
      IndexOfPairShift(p, b, '}', ib + 2);
      var eb := IndexOfPair(b, '}', ib + 2);
      if eb == -1 {
        ScanDone(s, res, fuel);
        ScanDone(b, res, fuel);
      } else {
        PlainPrefixToken(p, b, ib, eb, res, fuel);
      }
    }
  }

  lemma PlainPrefixToken(p: string, b: string, ib: nat, eb: nat, res: Resolution, fuel: nat)
    requires ib == IndexOfPair(b, '{', 0) && eb == IndexOfPair(b, '}', ib + 2)
    requires IndexOfPair(p + b, '{', 0) == |p| + ib && IndexOfPair(p + b, '}', |p| + ib + 2) == |p| + eb
    ensures Scan(p + b, res, fuel) == Prepend(p, Scan(b, res, fuel))
  {
    assert (p + b)[|p| + ib + 2..|p| + eb] == b[ib + 2..eb];
    if b[ib + 2..eb] !in res {
      PlainPrefixKeep(p, b, ib, eb, res, fuel);
    } else if fuel == 0 {
      ScanOutOfFuel(p + b, |p| + ib, |p| + eb, res);
      ScanOutOfFuel(b, ib, eb, res);
    } else {
      PlainPrefixSplice(p, b, ib, eb, res, fuel);
    }
  }

  lemma PlainPrefixKeep(p: string, b: string, ib: nat, eb: nat, res: Resolution, fuel: nat)
    requires ib == IndexOfPair(b, '{', 0) && eb == IndexOfPair(b, '}', ib + 2)
    requires IndexOfPair(p + b, '{', 0) == |p| + ib && IndexOfPair(p + b, '}', |p| + ib + 2) == |p| + eb
    requires b[ib + 2..eb] !in res && (p + b)[|p| + ib + 2..|p| + eb] == b[ib + 2..eb]
    ensures Scan(p + b, res, fuel) == Prepend(p, Scan(b, res, fuel))
  {
    KeepInConcat(p, b, ib, eb, res, fuel);
    ScanKeep(b, ib, eb, res, fuel);
    PrependTwice(p, b[..eb + 2], Scan(b[eb + 2..], res, fuel));
  }

  /** The keep step on `p + b` for a token that lies inside `b`. */
  lemma KeepInConcat(p: string, b: string, ib: nat, eb: nat, res: Resolution, fuel: nat)
    requires IndexOfPair(p + b, '{', 0) == |p| + ib && IndexOfPair(p + b, '}', |p| + ib + 2) == |p| + eb
    requires (p + b)[|p| + ib + 2..|p| + eb] !in res
    ensures eb + 2 <= |b|
    ensures Scan(p + b, res, fuel) == Prepend(p + b[..eb + 2], Scan(b[eb + 2..], res, fuel))
  {
    assert PairAt(p + b, |p| + eb, '}');
    var q, rest := p + b[..eb + 2], b[eb + 2..];
    assert p + b == q + rest;
    KeepStep(q, rest, |p| + ib, |p| + eb, res, fuel);
  }

  /** The splice step on `p + b` for a token that lies inside `b`. */
  lemma SpliceInConcat(p: string, b: string, ib: nat, eb: nat, res: Resolution, fuel: nat)
    requires fuel > 0
    requires IndexOfPair(p + b, '{', 0) == |p| + ib && IndexOfPair(p + b, '}', |p| + ib + 2) == |p| + eb
    requires (p + b)[|p| + ib + 2..|p| + eb] in res
    ensures eb + 2 <= |b|
    ensures Scan(p + b, res, fuel)
         == Prepend(p + b[..ib], Scan(res[(p + b)[|p| + ib + 2..|p| + eb]] + b[eb + 2..], res, fuel - 1))
  {
    assert PairAt(p + b, |p| + eb, '}');
    var qm, rest := p + b[..eb + 2], b[eb + 2..];
    assert p + b == qm + rest;
    SpliceStep(qm, rest, |p| + ib, |p| + eb, res, fuel);
    assert (p + b)[..|p| + ib] == p + b[..ib];
  }

  lemma PlainPrefixSplice(p: string, b: string, ib: nat, eb: nat, res: Resolution, fuel: nat)
    requires fuel > 0
    requires ib == IndexOfPair(b, '{', 0) && eb == IndexOfPair(b, '}', ib + 2)
    requires IndexOfPair(p + b, '{', 0) == |p| + ib && IndexOfPair(p + b, '}', |p| + ib + 2) == |p| + eb
    requires b[ib + 2..eb] in res && (p + b)[|p| + ib + 2..|p| + eb] == b[ib + 2..eb]
    ensures Scan(p + b, res, fuel) == Prepend(p, Scan(b, res, fuel))
  {
    var v := res[b[ib + 2..eb]];
    SpliceInConcat(p, b, ib, eb, res, fuel);
    var rest := Scan(v + b[eb + 2..], res, fuel - 1);
    assert Scan(p + b, res, fuel) == Prepend(p + b[..ib], rest);
    ScanSplice(b, ib, eb, res, fuel);
    assert Scan(b, res, fuel) == Prepend(b[..ib], rest);
    PrependTwice(p, b[..ib], rest);
  }

  /** The text before the first `{{` holds no `{{` and does not end in `{`. */
  lemma BeforeFirstOpen(t: string, i: nat)
    requires i == IndexOfPair(t, '{', 0)
    ensures forall j :: 0 <= j ==> !PairAt(t[..i], j, '{')
    ensures i > 0 ==> t[..i][i - 1] != '{'
  {
    forall j | 0 <= j
      ensures !PairAt(t[..i], j, '{')
    {
      if j + 1 < i {
        IndexOfPairFirst(t, '{', 0, j);
      }
    }
    if i > 0 {
      IndexOfPairFirst(t, '{', 0, i - 1);
    }
  }

  /** A prefix that ends with an unresolved token passes through a scan
      untouched, whatever follows it. */
  lemma TokenPrefix(t: string, i: nat, e: nat, b: string, res: Resolution, fuel: nat)
    requires i == IndexOfPair(t, '{', 0) && e == IndexOfPair(t, '}', i + 2)
    requires t[i + 2..e] !in res
    ensures e + 2 <= |t|
    ensures Scan(t[..e + 2] + b, res, fuel) == Prepend(t[..e + 2], Scan(b, res, fuel))
  {
    var s := t[..e + 2] + b;
    assert s[..e + 2] == t[..e + 2];
    IndexOfPairPrefix(t, s, '{', 0, e + 2);
    IndexOfPairPrefix(t, s, '}', i + 2, e + 2);
    assert s[i + 2..e] == t[i + 2..e];
    ScanKeep(s, i, e, res, fuel);
    assert s[e + 2..] == b;
  }

  /** Whatever a finished scan returns is settled. */
  lemma {:induction false} ScanSettles(t: string, res: Resolution, fuel: nat)
    requires Scan(t, res, fuel).Some?
    ensures Settled(Scan(t, res, fuel).value, res)
    decreases fuel, |t|, 1
  {
    var i := IndexOfPair(t, '{', 0);
    if i == -1 || IndexOfPair(t, '}', i + 2) == -1 {
      ScanDone(t, res, fuel);
      ScanDone(t, res, 0);
    } else {
      var e := IndexOfPair(t, '}', i + 2);
      if t[i + 2..e] !in res {
        SettlesAfterKeep(t, i, e, res, fuel);
      } else if fuel > 0 {
        SettlesAfterSplice(t, i, e, res, fuel);
      }
    }
  }

  /** The keep case of `ScanSettles`: the kept prefix stays settled in front
      of the settled rest. */
  lemma {:induction false} SettlesAfterKeep(t: string, i: nat, e: nat, res: Resolution, fuel: nat)
    requires i == IndexOfPair(t, '{', 0) && e == IndexOfPair(t, '}', i + 2)
    requires t[i + 2..e] !in res
    requires Scan(t, res, fuel).Some?
    ensures Settled(Scan(t, res, fuel).value, res)
    decreases fuel, |t|, 0
  {
    ScanKeep(t, i, e, res, fuel);
    ScanSettles(t[e + 2..], res, fuel);
    TokenPrefix(t, i, e, Scan(t[e + 2..], res, fuel).value, res, 0);
  }

  /** The splice case of `ScanSettles`: the text before the token stays
      settled in front of the settled rescan. */
  lemma {:induction false} SettlesAfterSplice(t: string, i: nat, e: nat, res: Resolution, fuel: nat)
    requires fuel > 0
    requires i == IndexOfPair(t, '{', 0) && e == IndexOfPair(t, '}', i + 2)
    requires t[i + 2..e] in res
    requires Scan(t, res, fuel).Some?
    ensures Settled(Scan(t, res, fuel).value, res)
    decreases fuel, |t|, 0
  {
    ScanSplice(t, i, e, res, fuel);
    var u := res[t[i + 2..e]] + t[e + 2..];
    ScanSettles(u, res, fuel - 1);
    var p, o := t[..i], Scan(u, res, fuel - 1).value;
    assert Scan(t, res, fuel).value == p + o;
    BeforeFirstOpen(t, i);
    PlainPrefix(p, o, res, 0);
  }

  /** Scanning a scanned text again, with any fuel, changes nothing. */
  lemma ScanIdempotent(t: string, res: Resolution, fuel: nat, more: nat)
    requires Scan(t, res, fuel).Some?
    ensures Scan(Scan(t, res, fuel).value, res, more) == Scan(t, res, fuel)
  {
    var o := Scan(t, res, fuel).value;
    ScanSettles(t, res, fuel);
    ScanFuelMonotone(o, res, 0, more);
  }

  /** `replaceVariables` applied to its own output with the same maps returns
      it unchanged. */
  lemma SubstituteIdempotent(text: string, conref: Option<Value>, local: Option<Value>, fuel: nat, more: nat)
    requires Substitute(text, conref, local, fuel).Some?
    ensures Substitute(Substitute(text, conref, local, fuel).value, conref, local, more)
         == Substitute(text, conref, local, fuel)
  {
    if IsTruthy(conref) || IsTruthy(local) {
      ScanIdempotent(text, Resolver(conref, local), fuel, more);
    }
  }

  /** A token whose value is the token itself is substituted for ever: no
      amount of fuel lets the scan finish. */
  lemma {:induction false} SelfReferenceDiverges(t: string, e: nat, res: Resolution, fuel: nat)
    requires IndexOfPair(t, '{', 0) == 0 && e == IndexOfPair(t, '}', 2) && e + 2 == |t|
    requires t[2..e] in res && res[t[2..e]] == t
    ensures Scan(t, res, fuel) == None
    decreases fuel
  {
    if fuel == 0 {
      ScanOutOfFuel(t, 0, e, res);
    } else {
      ScanSplice(t, 0, e, res, fuel);
      assert res[t[2..e]] + t[e + 2..] == t;
      SelfReferenceDiverges(t, e, res, fuel - 1);
    }
  }

  /** Without a truthy map, or without any `{{` in the text, the text comes
      back as it is. */
  lemma SubstituteUnchanged(text: string, conref: Option<Value>, local: Option<Value>, fuel: nat)
    requires !(IsTruthy(conref) || IsTruthy(local)) || forall j :: !PairAt(text, j, '{')
    ensures Substitute(text, conref, local, fuel) == Some(text)
  {
    if IsTruthy(conref) || IsTruthy(local) {
      ScanDone(text, Resolver(conref, local), fuel);
    }
  }

  /** A `{{` with no `}}` after it ends the scan: the rest is copied as it is. */
  lemma UnterminatedCopiesRest(t: string, i: nat, res: Resolution, fuel: nat)
    requires i == IndexOfPair(t, '{', 0) && IndexOfPair(t, '}', i + 2) == -1
    ensures Scan(t, res, fuel) == Some(t)
  {
  }

  lemma OneLetterKey(k: char)
    requires 'a' <= k <= 'z'
    ensures Trim([k]) == [k] && Split([k], '.') == [[k]]
  {
    assert !IsJsSpace(k);
    assert TrimStart([k]) == [k];
    assert TrimEnd([k]) == [k];
    assert [k][1..] == [];
    assert Split([], '.') == [""];
    assert [k] + "" == [k];
  }

  lemma OneLetterToken(k: char)
    requires 'a' <= k <= 'z'
    ensures IndexOfPair("{{" + [k] + "}}", '{', 0) == 0
    ensures IndexOfPair("{{" + [k] + "}}", '}', 2) == 3
    ensures ("{{" + [k] + "}}")[2..3] == [k]
  {
    var t := "{{" + [k] + "}}";
    assert t[0] == '{' && t[1] == '{' && t[2] == k && t[3] == '}' && t[4] == '}';
    assert IndexOfPair(t, '}', 3) == 3;
  }

  lemma ChainScan(res: Resolution)
    requires "a" in res && res["a"] == "{{b}}" && "b" in res && res["b"] == "Y"
    ensures Scan("{{a}}", res, 2) == Some("Y")
  {
    OneLetterToken('a');
    OneLetterToken('b');
    assert "{{a}}" == "{{" + "a" + "}}" && "{{b}}" == "{{" + "b" + "}}";
    ScanSplice("{{a}}", 0, 3, res, 2);
    assert res["a"] + "{{a}}"[5..] == "{{b}}";
    ScanSplice("{{b}}", 0, 3, res, 1);
    assert res["b"] + "{{b}}"[5..] == "Y";
    ScanDone("Y", res, 0);
    assert "{{a}}"[..0] == "" && "{{b}}"[..0] == "" && "" + "Y" == "Y";
    assert Scan("{{b}}", res, 1) == Some("Y");
  }

  /** The example of a value that is itself a token: `{{a}}` with conref
      `{a: "{{b}}"}` and local `{b: "Y"}` becomes `Y`. */
  lemma ChainedTokens()
    ensures Substitute("{{a}}", Some(Obj(map["a" := Str("{{b}}")])), Some(Obj(map["b" := Str("Y")])), 2) == Some("Y")
  {
    var conref := Some(Obj(map["a" := Str("{{b}}")]));
    var local := Some(Obj(map["b" := Str("Y")]));
    OneLetterKey('a');
    OneLetterKey('b');
    assert TokenText("a", conref, local) == Some("{{b}}");
    assert TokenText("b", conref, local) == Some("Y");
    ChainScan(Resolver(conref, local));
  }
}

=== FILE: xml_toc_handlers.dfy ===
/** The handlers the XML table-of-contents extension registers.

    `onGenerate` runs for every outline entry and keeps one piece of state
    across calls: the open navigation group, an id and the level of the
    entry that opened it.  A `navgroup` class opens a group (taking the
    entry's `id` attribute as the group's id), `navgroup-end` closes it after
    the current entry, and an entry shallower than the group closes it
    early with a warning.  Entries at the group's own level are marked with
    the group's id.  The markup the handlers build is abstracted to which
    element they build and which marker it carries. */
module XmlTocHandlers {
  import opened JsCore
  import Attributes

  type Attrs = Attributes.Attrs

  /** The value of `attributes[key]`; a missing key reads as undefined, which
      is falsy like null. */
  function Get(attrs: Attrs, key: string): Option<string> {
    if key in attrs then attrs[key] else None
  }

  // ---------------------------------------------------------------------
  // onHeading and onTopic.

  const TocPrefix: string := "toc-"
  const NoToc: string := "notoc"

  /** `onHeading`: a heading's `toc-` attributes are meant for the table of
      contents only and are removed; `None` (no change) when it has none. */
  function OnHeading(attribs: map<string, string>): (r: Option<map<string, string>>)
    ensures r.None? <==> forall k :: k in attribs ==> !StartsWith(k, TocPrefix)
    ensures r.Some? ==> forall k :: k in r.value <==> k in attribs && !StartsWith(k, TocPrefix)
    ensures r.Some? ==> forall k :: k in r.value ==> r.value[k] == attribs[k]
  {
    if forall k :: k in attribs ==> !StartsWith(k, TocPrefix) then None
    else Some(map k | k in attribs && !StartsWith(k, TocPrefix) :: attribs[k])
  }

  datatype TopicReply =
    | Suppress
    | Unchanged
    | WithProperties(properties: map<string, string>)

  /** `onTopic`: a heading with a non-empty `notoc` attribute gets no entry
      (the empty reply); otherwise each `toc-name` attribute becomes a
      `name` property of the entry. */
  function OnTopic(heading: map<string, string>): (r: TopicReply)
    ensures r.Suppress? <==> NoToc in heading && heading[NoToc] != ""
    ensures r.Unchanged? <==> !(NoToc in heading && heading[NoToc] != "") && forall k :: k in heading ==> !StartsWith(k, TocPrefix)
    ensures r.WithProperties? ==> forall name :: name in r.properties <==> TocPrefix + name in heading
    ensures r.WithProperties? ==> forall name :: name in r.properties ==> r.properties[name] == heading[TocPrefix + name]
  {
    if NoToc in heading && heading[NoToc] != "" then Suppress
    else if forall k :: k in heading ==> !StartsWith(k, TocPrefix) then Unchanged
    else
      var names := set k | k in heading && StartsWith(k, TocPrefix) :: k[|TocPrefix|..];
      var props := map name | name in names :: if TocPrefix + name in heading then heading[TocPrefix + name] else "";
      assert forall name :: name in names <==> TocPrefix + name in heading by {
        forall name ensures name in names <==> TocPrefix + name in heading {
          if TocPrefix + name in heading {
            assert (TocPrefix + name)[|TocPrefix|..] == name;
          }
          if name in names {
            var k :| k in heading && StartsWith(k, TocPrefix) && k[|TocPrefix|..] == name;
            assert k == TocPrefix + name;
          }
        }
      }
      WithProperties(props)
  }

  /** `onComplete`: the header and footer wrapped around the finished
      table of contents; `None` (no change) when there is neither. */
  function OnComplete(xml: string, header: Option<string>, footer: Option<string>): (r: Option<string>)
    ensures r.None? <==> !Truthy(header) && !Truthy(footer)
    ensures r.Some? ==>
      var h := if Truthy(header) then header.value else "";
      var f := if Truthy(footer) then footer.value else "";
      && |r.value| == |h| + |xml| + |f|
      && StartsWith(r.value, h) && EndsWith(r.value, f)
      && r.value[|h|..|h| + |xml|] == xml
  {
    if !Truthy(header) && !Truthy(footer) then None
    else Some(OrElse(header, "") + xml + OrElse(footer, ""))
  }

  // ---------------------------------------------------------------------
  // onGenerate.

  datatype Group = Group(id: string, level: real)

  datatype Note =
    | GroupNotEnded(open: string)
    | GroupWithoutId(source: string)
    | EndWithoutGroup(source: string)
    | MissingEnd(id: string)

  /** What `onGenerate` is told about an entry. */
  datatype Entry = Entry(source: string, level: real, attributes: Attrs)

  const Navgroup: string := "navgroup"
  const NavgroupEnd: string := "navgroup-end"

  /** Compared case-insensitively (ASCII letters only). */
  predicate IsGroupClass(c: string) {
    LowerAscii(c) == Navgroup || LowerAscii(c) == NavgroupEnd
  }

  /** The state of the class loop: the classes kept so far, the open group,
      the attributes, the warnings, and whether the group ends after this
      entry. */
  datatype Pass = Pass(kept: seq<string>, group: Option<Group>, attrs: Attrs, notes: seq<Note>, endAfter: bool)

  /** One class of the entry: `navgroup` opens a group when none
      is open and the entry has an id (which it then loses), `navgroup-end`
      asks for the group to end after this entry; both are dropped from the
      class list and every other class is kept. */
  function ClassStep(e: Entry, name: string, p: Pass): Pass {
    var c := LowerAscii(name);
    if c == Navgroup then
      if p.group.Some? then p.(notes := p.notes + [GroupNotEnded(p.group.value.id)])
      else if !Truthy(Get(p.attrs, "id")) then p.(notes := p.notes + [GroupWithoutId(e.source)])
      else p.(group := Some(Group(Get(p.attrs, "id").value, e.level)), attrs := p.attrs - {"id"})
    else if c == NavgroupEnd then
      p.(notes := if p.group.None? then p.notes + [EndWithoutGroup(e.source)] else p.notes, endAfter := true)
    else p.(kept := p.kept + [name])
  }

  /** The loop over the entry's classes, in order. */
  function ClassPass(e: Entry, classes: seq<string>, p: Pass): Pass
    decreases |classes|
  {
    if |classes| == 0 then p else ClassPass(e, classes[1..], ClassStep(e, classes[0], p))
  }

  /** The class handling of `onGenerate`: the group in effect for the entry,
      its rewritten attributes, the warnings, and whether the group ends
      after it.  The class attribute is rewritten without the group
      classes, and removed when none is left. */
  function Classes(e: Entry, group: Option<Group>): (r: Pass) {
    var cls := Get(e.attributes, "class");
    var p :=
      if !Truthy(cls) then Pass([], group, e.attributes, [], false)
      else
        var q := ClassPass(e, Split(cls.value, ' '), Pass([], group, e.attributes, [], false));
        q.(attrs := if |q.kept| > 0 then q.attrs["class" := Some(Join(q.kept, " "))] else q.attrs - {"class"});
    if p.group.Some? && e.level < p.group.value.level then
      p.(group := None, notes := p.notes + [MissingEnd(p.group.value.id)])
    else p
  }

  /** The element built for an entry. */
  datatype Element =
    | Anchored      // a converted Markdown file's entries, with anchors and properties
    | LinkTopic     // a link to external content
    | TocReference  // class `toc`
    | TopicGroup    // class `topicgroup`

  datatype Generated = Generated(
    element: Option<Element>,
    marker: Option<string>,
    attributes: Attrs,
    notes: seq<Note>,
    after: Option<Group>)

  /** `/\.md\s*$/`. */
  predicate IsMarkdownSource(source: string) {
    EndsWith(TrimEnd(source), ".md")
  }

  /** The first class that names an element this extension builds. */
  function CustomElement(classes: seq<string>): Option<Element>
    decreases |classes|
  {
    if |classes| == 0 then None
    else if LowerAscii(classes[0]) == "toc" then Some(TocReference)
    else if LowerAscii(classes[0]) == "topicgroup" then Some(TopicGroup)
    else CustomElement(classes[1..])
  }

  /** `onGenerate` for one entry, given the open group; `isLink` stands for
      the external-link pattern.  No element means the handler returns null,
      which leaves the entry's text as it was. */
  function OnGenerate(e: Entry, group: Option<Group>, isLink: string -> bool): (r: Generated) {
    var p := Classes(e, group);
    var element :=
      if IsMarkdownSource(e.source) then Some(Anchored)
      else if isLink(e.source) then Some(LinkTopic)
      else
        var cls := Get(p.attrs, "class");
        if Truthy(cls) then CustomElement(Split(cls.value, ' ')) else None;
    var marker :=
      if element.Some? && p.group.Some? && e.level == p.group.value.level then Some(p.group.value.id) else None;
    Generated(element, marker, p.attrs, p.notes, if p.endAfter then None else p.group)
  }

  // ---------------------------------------------------------------------
  // Properties.

  /** The class loop keeps exactly the classes that are not group classes,
      in their order. */
  lemma {:induction false} ClassPassKeeps(e: Entry, classes: seq<string>, p: Pass)
    ensures ClassPass(e, classes, p).kept == p.kept + Filter(classes, c => !IsGroupClass(c))
    decreases |classes|
  {
    if |classes| > 0 {
      ClassPassKeeps(e, classes[1..], ClassStep(e, classes[0], p));
    }
  }

  predicate HasClass(classes: seq<string>, name: string) {
    exists i :: 0 <= i < |classes| && LowerAscii(classes[i]) == name
  }

  /** An open group stays open through the class loop; a closed one opens
      exactly when a `navgroup` class is present and the entry has an id,
      which is then removed.  The group ends after the entry exactly when a
      `navgroup-end` class is present. */
  lemma {:induction false} ClassPassGroup(e: Entry, classes: seq<string>, p: Pass)
    ensures var r := ClassPass(e, classes, p);
      && (p.group.Some? ==> r.group == p.group && r.attrs == p.attrs)
      && (p.group.None? && HasClass(classes, Navgroup) && Truthy(Get(p.attrs, "id")) ==>
            r.group == Some(Group(Get(p.attrs, "id").value, e.level)) && r.attrs == p.attrs - {"id"})
      && (p.group.None? && !(HasClass(classes, Navgroup) && Truthy(Get(p.attrs, "id"))) ==>
            r.group == None && r.attrs == p.attrs)
      && (r.endAfter <==> p.endAfter || HasClass(classes, NavgroupEnd))
    decreases |classes|
  {
    if |classes| > 0 {
      ClassPassGroup(e, classes[1..], ClassStep(e, classes[0], p));
      HasClassSplit(classes, Navgroup);
      HasClassSplit(classes, NavgroupEnd);
    }
  }

  lemma HasClassSplit(classes: seq<string>, name: string)
    requires |classes| > 0
    ensures HasClass(classes, name) <==> LowerAscii(classes[0]) == name || HasClass(classes[1..], name)
  {
    if HasClass(classes[1..], name) {
      var i :| 0 <= i < |classes[1..]| && LowerAscii(classes[1..][i]) == name;
      assert classes[i + 1] == classes[1..][i];
    }
    if HasClass(classes, name) && LowerAscii(classes[0]) != name {
      var i :| 0 <= i < |classes| && LowerAscii(classes[i]) == name;
      assert classes[1..][i - 1] == classes[i];
    }
  }

  /** The marker goes only on an entry that produces an element at the
      level of the group in effect for it. */
  lemma MarkerOnlyAtGroupLevel(e: Entry, group: Option<Group>, isLink: string -> bool)
    ensures var r := OnGenerate(e, group, isLink);
      var g := Classes(e, group).group;
      r.marker.Some? <==> r.element.Some? && g.Some? && e.level == g.value.level
  {
  }

  /** An entry shallower than the open group closes it with a warning, and
      is itself not marked. */
  lemma ShallowerEntryCloses(e: Entry, g: Group, isLink: string -> bool)
    requires e.level < g.level
    ensures var r := OnGenerate(e, Some(g), isLink);
      r.after == None && r.marker == None && MissingEnd(g.id) in r.notes
  {
    var cls := Get(e.attributes, "class");
    if Truthy(cls) {
      ClassPassGroup(e, Split(cls.value, ' '), Pass([], Some(g), e.attributes, [], false));
    }
  }

  /** An entry without group classes at or below the open group's level
      leaves the group open; it is marked exactly when it is at the group's
      level and produces an element. */
  lemma GroupCarriesOn(e: Entry, g: Group, isLink: string -> bool)
    requires e.level >= g.level
    requires !Truthy(Get(e.attributes, "class")) || !HasClass(Split(Get(e.attributes, "class").value, ' '), NavgroupEnd)
    ensures var r := OnGenerate(e, Some(g), isLink);
      && r.after == Some(g)
      && (r.marker.Some? <==> r.element.Some? && e.level == g.level)
      && (r.marker.Some? ==> r.marker.value == g.id)
  {
    var cls := Get(e.attributes, "class");
    if Truthy(cls) {
      ClassPassGroup(e, Split(cls.value, ' '), Pass([], Some(g), e.attributes, [], false));
    }
  }

  /** With no group open, a `navgroup` entry with an id opens a group at its
      own level, loses its `id` attribute, and is marked itself when it
      produces an element; without an id nothing opens. */
  lemma NavgroupOpens(e: Entry, isLink: string -> bool)
    requires Truthy(Get(e.attributes, "class"))
    requires HasClass(Split(Get(e.attributes, "class").value, ' '), Navgroup)
    requires !HasClass(Split(Get(e.attributes, "class").value, ' '), NavgroupEnd)
    ensures var r := OnGenerate(e, None, isLink);
      Truthy(Get(e.attributes, "id")) ==>
        && r.after == Some(Group(Get(e.attributes, "id").value, e.level))
        && "id" !in r.attributes
        && (r.element.Some? ==> r.marker == Some(Get(e.attributes, "id").value))
    ensures !Truthy(Get(e.attributes, "id")) ==> OnGenerate(e, None, isLink).after == None
  {
    ClassPassGroup(e, Split(Get(e.attributes, "class").value, ' '), Pass([], None, e.attributes, [], false));
  }

  /** `navgroup-end` closes the group after the entry; the entry itself is
      still inside it. */
  lemma NavgroupEndCloses(e: Entry, group: Option<Group>, isLink: string -> bool)
    requires Truthy(Get(e.attributes, "class"))
    requires HasClass(Split(Get(e.attributes, "class").value, ' '), NavgroupEnd)
    ensures OnGenerate(e, group, isLink).after == None
  {
    ClassPassGroup(e, Split(Get(e.attributes, "class").value, ' '), Pass([], group, e.attributes, [], false));
  }

  /** The rewritten class attribute holds exactly the other classes, in
      order, and is removed when there are none. */
  lemma ClassAttributeRewritten(e: Entry, group: Option<Group>, isLink: string -> bool)
    requires Truthy(Get(e.attributes, "class"))
    ensures var others := Filter(Split(Get(e.attributes, "class").value, ' '), c => !IsGroupClass(c));
      var r := OnGenerate(e, group, isLink);
      && (|others| > 0 ==> Get(r.attributes, "class") == Some(Join(others, " ")))
      && (|others| == 0 ==> "class" !in r.attributes)
  {
    var classes := Split(Get(e.attributes, "class").value, ' ');
    ClassPassKeeps(e, classes, Pass([], group, e.attributes, [], false));
    assert [] + Filter(classes, c => !IsGroupClass(c)) == Filter(classes, c => !IsGroupClass(c));
  }

  // ---------------------------------------------------------------------
  // A run of entries.

  /** The handler over the entries of an outline in order, the open group
      carried from each entry to the next; gives every entry's result and
      the group open at the end. */
  function Run(es: seq<Entry>, group: Option<Group>, isLink: string -> bool): (r: (seq<Generated>, Option<Group>))
    ensures |r.0| == |es|
    decreases |es|
  {
    if |es| == 0 then ([], group)
    else
      var g := OnGenerate(es[0], group, isLink);
      var (rest, last) := Run(es[1..], g.after, isLink);
      ([g] + rest, last)
  }

  /** The entry carries a `navgroup` class. */
  predicate AsksForGroup(e: Entry) {
    Truthy(Get(e.attributes, "class")) && HasClass(Split(Get(e.attributes, "class").value, ' '), Navgroup)
  }

  /** After one entry the group is gone, unchanged, or the one this entry
      opened with its own id at its own level. */
  lemma GroupAfterEntry(e: Entry, group: Option<Group>, isLink: string -> bool)
    ensures var after := OnGenerate(e, group, isLink).after;
      || after == None
      || after == group
      || (AsksForGroup(e) && Truthy(Get(e.attributes, "id")) && after == Some(Group(Get(e.attributes, "id").value, e.level)))
  {
    var cls := Get(e.attributes, "class");
    if Truthy(cls) {
      ClassPassGroup(e, Split(cls.value, ' '), Pass([], group, e.attributes, [], false));
    }
  }

  /** The group open after a run is the one it started with or one opened
      by an entry of the run that asked for it, with that entry's id and
      level. */
  lemma {:induction false} RunGroupOrigin(es: seq<Entry>, group: Option<Group>, isLink: string -> bool)
    ensures var last := Run(es, group, isLink).1;
      || last == None
      || last == group
      || exists i :: 0 <= i < |es| && AsksForGroup(es[i]) && Truthy(Get(es[i].attributes, "id"))
           && last == Some(Group(Get(es[i].attributes, "id").value, es[i].level))
    decreases |es|
  {
    if |es| > 0 {
      var g := OnGenerate(es[0], group, isLink);
      GroupAfterEntry(es[0], group, isLink);
      RunGroupOrigin(es[1..], g.after, isLink);
      var last := Run(es, group, isLink).1;
      assert last == Run(es[1..], g.after, isLink).1;
      if last != None && last != group && last != g.after {
        var i :| 0 <= i < |es[1..]| && AsksForGroup(es[1..][i]) && Truthy(Get(es[1..][i].attributes, "id"))
          && last == Some(Group(Get(es[1..][i].attributes, "id").value, es[1..][i].level));
        assert es[1..][i] == es[i + 1];
      }
    }
  }

  /** Without any `navgroup` class no group ever opens, so no entry is
      marked. */
  lemma {:induction false} NoGroupWithoutNavgroup(es: seq<Entry>, isLink: string -> bool)
    requires forall i :: 0 <= i < |es| ==> !AsksForGroup(es[i])
    ensures Run(es, None, isLink).1 == None
    ensures forall i :: 0 <= i < |es| ==> Run(es, None, isLink).0[i].marker == None
    decreases |es|
  {
    if |es| > 0 {
      var cls := Get(es[0].attributes, "class");
      if Truthy(cls) {
        ClassPassGroup(es[0], Split(cls.value, ' '), Pass([], None, es[0].attributes, [], false));
      }
      var g := OnGenerate(es[0], None, isLink);
      assert g.after == None;
      assert g.marker == None;
      NoGroupWithoutNavgroup(es[1..], isLink);
      var r := Run(es, None, isLink).0;
      forall i | 0 <= i < |es| ensures r[i].marker == None {
        if i > 0 {
          assert r[i] == Run(es[1..], None, isLink).0[i - 1];
        }
      }
    }
  }
}
